=== FILE: README.md ===
# RevierKompass routing wizard — a Dafny model

This project models the logic of the RevierKompass wizard, a tool for police stations in Baden-Württemberg. A user enters a start address (step 1) and picks destinations (step 2): a Präsidium with its Reviere, single stations, or custom addresses. The tool then computes driving routes to each destination and summarises or exports them (step 3). Everything that decides a value is modelled as pure functions over immutable datatypes. Network replies, the clock and random numbers are passed in as inputs.

The model is laid out one module per source file:

- **Route pipeline.** `Routing` covers the provider fallback chain, result formatting and colours. `Polyline` decodes Valhalla shapes. `LruCache` is the worker's LRU cache with expiry. `Batch` covers batch assembly, the distance sort and the cached worker batch. `Worker` is the one-request/one-reply worker. `WorkerHook` is the hook's `{routes, isCalculating, error}` state machine.
- **Selection.** The modules are `StationStore`, `WizardStore`, `Step2State`, `Step2Data`, `Step2Handlers`, `UltraModern`, `Step1State` and `Converter`.
  - Selection lists are `seq<string>` that may hold duplicates, exactly like the arrays the code filters and spreads.
  - Calls into the application store come back as `AppEffect` values.
- **Results.** `Summary` holds the summary tab's statistics. `Export` holds the CSV text and the spreadsheet's summary totals.
- **Helpers.** `Wrappers`, `Seqs` and `Text` are helpers.
  - `Seqs` provides filter, subsequence, dedup-union and toggle.
  - `Text` provides trim, lower-casing, `includes`, `split`/`join` and case-insensitive word removal.

Three of the code's behaviours are evidently unintended: route colours never cycle, straight-line fallbacks are labelled as OSRM routes, and the CSV export does not escape quotes. The model keeps both readings of each behind `Routing.Variant = AsWritten | Corrected`: `AsWritten` is the code, `Corrected` the evident intention.

## Model

| member | source | states |
|---|---|---|
| LruCache.Get | src/utils/routing.ts:13-24 | An absent key is a miss and leaves the cache unchanged. An entry with `now > expiry` is a miss and is deleted. A live entry is returned and moved to the most-recent end with its expiry unchanged. Other keys are untouched and keep their recency order, and validity is preserved. |
| LruCache.Set | src/utils/routing.ts:26-36 | The key ends up last with expiry `now + ttl`. Re-setting an existing key keeps the size. A new key below capacity grows it by one. Keys stay unique and the size stays within `max`. Without an eviction the other entries keep their recency order. An eviction drops exactly the front entry and keeps the rest in order. |
| LruCache.FullCacheStaysFull | src/utils/routing.ts:29-35 | In a full cache, a new key evicts exactly the oldest entry, keeps every other entry, and leaves the size at `max`. |
| LruCache.ExpiryBoundary | src/utils/routing.ts:16-19 | A `get` exactly at the expiry time still serves the entry. One millisecond later it misses and deletes the key. |
| LruCache.SetThenGet | src/utils/routing.ts:13-35 | Whatever `set` stored is served by every `get` up to its expiry. |
| LruCache.LookupMissIffAbsent | src/utils/routing.ts:14-15 | A lookup misses exactly when no entry carries the key. |
| LruCache.DeleteKeepsOrder | src/utils/routing.ts:21 | `map.delete(key)` is the order-preserving filter that drops the key's entries. |
| LruCache.ReadKeyNotEvictedNext | src/utils/routing.ts:13-36 | In a full cache of at least two entries, a key that was just read survives the next insertion of a new key with its entry intact. |
| Routing.CallOsrm | src/lib/services/routing-service.ts:246-261 | An OSRM call succeeds iff the reply is OK and has a non-empty `routes`. The route is then `routes[0]`'s geometry, metres and seconds. |
| Routing.CallValhalla | src/lib/services/routing-service.ts:289-308 | A Valhalla call succeeds iff the reply is OK and has a non-empty `trip.legs`. The route is then the decoded shape, `length * 1000` metres and `time` seconds. |
| Routing.TryMirrors | src/utils/routing.ts:155-162 | The mirrors are tried in order. The first success is returned with its position, every earlier mirror failed, and no later mirror was called. If none succeeds, all of them were called. |
| Routing.DirectRoute | src/utils/routing.ts:164-173 | The straight-line route has the two points `[lng, lat]`, `km * 1000` metres and 120 s per km. |
| Routing.ResolveMain | src/lib/services/routing-service.ts:195-229 | The main-thread router tries the three mirrors, then Valhalla, then the straight line, with the exact call trace. It never fails. |
| Routing.ResolveWorker | src/utils/routing.ts:148-174 | The worker's router tries the three mirrors, then the straight line. Valhalla is never called. It falls back to the straight line iff every mirror fails. |
| Routing.GenerateRouteColor | src/lib/services/routing-service.ts:312-326 | The colour is always a palette entry: `palette[index % 10]`. |
| Routing.FormatRouteResult | src/lib/services/routing-service.ts:102-155 | The id fields and colour are copied from the destination. Distance is `m / 1000` and duration is `round(s / 60)`. Fuel is `km * 0.095` and cost is `fuel * 1.75`. The result is labelled fastest via OSRM. The branch for a missing route gives a zero-length result labelled `Direct`. |
| Routing.Round | src/lib/services/routing-service.ts:124 | `Math.round` gives the integer within half a unit of `x`, rounding a half up: `x - 0.5 < r <= x + 0.5`. |
| Routing.CreateFallbackResult | src/lib/services/routing-service.ts:158-192 | The catch-path result has the Haversine distance and `round(2 * km)` minutes, and is labelled shortest via `Direct` with the straight-line route. |
| Routing.DirectFormattingAgrees | src/lib/services/routing-service.ts:124-126 | Formatting the router's straight-line route gives the catch-path result in every field but the two labels. In particular `round(km * 120 / 60) = round(km * 2)`. |
| Routing.CostIsFuelTimesPrice | src/lib/services/routing-service.ts:125-126 | Cost is exactly fuel × 1.75, and fuel is distance × 0.095. |
| Routing.RouteTo | src/lib/services/routing-service.ts:39-59 | The per-destination task records the resolution's call trace, copies the destination's fields, and takes its distance from the resolved route. |
| Routing.AllFailLabelledOsrm | src/lib/services/routing-service.ts:219-228 | As written, a destination no provider can route is still labelled `'OSRM'`/`'Schnellste'`, with the Haversine distance. |
| Routing.AllFailLabelledDirect | src/lib/services/routing-service.ts:158-192 | Corrected, the same destination is labelled `'Direct'`/`'Kürzeste'`, with the same distance, duration and geometry. |
| Routing.VariantsAgreeOnProviderRoutes | src/lib/services/routing-service.ts:120-133 | When a provider answered, the two readings differ at most in the colour. |
| Routing.SecondMirrorScenario | src/lib/services/routing-service.ts:203-210 | If the first mirror answers 500 and the second answers 12 345 m in 900 s, the result is 12.345 km and 15 min via OSRM. The third mirror and Valhalla are not called. |
| Polyline.ReadValue | src/lib/services/routing-service.ts:351-356 | One varint is read: `char - 63`, continuing while the group is ≥ 0x20. The index always advances and the value is non-negative. |
| Polyline.ZigZagEncode | src/lib/services/routing-service.ts:358 | The encoder's zig-zag is inverted by the decoder's `(r & 1) ? ~(r >> 1) : r >> 1`. |
| Polyline.ReadEncoded | src/lib/services/routing-service.ts:350-356 | Reading the standard encoding of a value, anywhere in a string, yields that value and the index just after it. |
| Polyline.DecodeEncoded | src/lib/services/routing-service.ts:345-376 | Decoding the encoding of a delta list gives its running sums, as `[lng / 1e5, lat / 1e5]`. |
| Polyline.DecodedLength | src/lib/services/routing-service.ts:372 | The decoder emits one point per encoded delta pair. |
| Polyline.ReferenceExample | src/lib/services/routing-service.ts:345-376 | The reference example of the format decodes to the `[lng, lat]` pairs (-120.2, 38.5), (-120.95, 40.7), (-126.453, 43.252), in the order they are emitted. |
| Seqs.Dedup | src/components/wizard/UltraModernStep2.tsx:165 | `[...new Set(s)]` holds every element of `s` exactly once, taken from `s` in order. |
| Seqs.FindFirst | src/utils/routing.ts:84 | `find` misses iff no element satisfies the predicate. Otherwise it returns an element that does, and no earlier element satisfies it. |
| Batch.StationByIdIsFind | src/utils/routing.ts:84 | The station lookup by id is the generic first-match search with the predicate "has this id". |
| Batch.CustomByIdIsFind | src/utils/routing.ts:107 | The custom-address lookup by id is the generic first-match search with the predicate "has this id". |
| Batch.StationJobs | src/utils/routing.ts:83-104 | Every station job is of the station kind. Job positions ascend and lie within the requested ids' positions. |
| Batch.CustomJobs | src/utils/routing.ts:106-127 | Every custom job is of the custom kind. Job positions ascend and lie within the positions given to the custom ids, which follow the station ids. |
| Batch.Jobs | src/utils/routing.ts:129-132 | The jobs are the station jobs then the custom jobs. Positions ascend across both and lie within the combined id list. |
| Batch.RunJobs | src/utils/routing.ts:129-140 | There is one result per job, in job order. Each result is costed and describes its job's destination, kind and colour index. |
| Batch.StationJobsIds | src/utils/routing.ts:83-85 | The station jobs are exactly the found station ids, in request order. Unknown ids are dropped. |
| Batch.CustomJobsIds | src/utils/routing.ts:106-108 | The custom jobs are exactly the ids whose first address has coordinates, in request order. |
| Batch.StationJobsTargets | src/utils/routing.ts:84-98 | Each station job carries the fields of the first station with its id. |
| Batch.CustomJobsTargets | src/utils/routing.ts:107-121 | Each custom job carries the fields of the first custom address with its id. |
| Batch.JobsIds | src/utils/routing.ts:129-132 | A batch's destinations are the found station ids followed by the routable custom ids. |
| Batch.JobsKinds | src/utils/routing.ts:129-132 | All station jobs come before all custom-address jobs. |
| Batch.SortByDistance | src/utils/routing.ts:140 | The sort returns a permutation of its input, ascending by distance. |
| Batch.SortSortedIsIdentity | src/utils/routing.ts:140 | The sort is stable on already sorted input: it leaves it unchanged. |
| Batch.Compute | src/utils/routing.ts:129-140 | The batch results are sorted by distance and are a permutation of the per-job results. There is one result per found station id plus one per routable custom id. |
| Batch.CalculateMultipleRoutes | src/lib/services/routing-service.ts:28-99 | The main-thread batch is sorted. Every result is costed and belongs to a found station or a routable custom address. |
| Batch.BatchMembers | src/utils/routing.ts:135-140 | Every result is costed and belongs to a requested, routable destination of its own kind. |
| Batch.ColoursNeverCycle | src/utils/routing.ts:80-101 | As written, every result of a batch is coloured `#3B82F6`. |
| Batch.ColoursDistinctCorrected | src/utils/routing.ts:295-301 | Corrected, the colour follows the request position, so a batch of at most ten ids has pairwise distinct colours. |
| Batch.CalculateRoutes | src/utils/routing.ts:68-146 | A live cache entry for the key (coordinates, full address, both id lists in the given order) is returned with no provider call. Otherwise the batch is computed and stored under the key with a new expiry. The cache stays healthy and the results are sorted. |
| Batch.RepeatServedFromCache | src/utils/routing.ts:74-78 | A repeat of a request within the stored entry's lifetime returns the same list and makes no provider call. |
| Batch.EmptyRequestIsCached | src/utils/routing.ts:142-143 | An empty request routes nothing, yet its empty list is still cached. |
| Batch.SetKeepsHealthy | src/utils/routing.ts:143 | Storing a sorted list keeps the cache valid and every cached list sorted. |
| Worker.Respond | src/workers/routing.worker.ts:5-31 | A request gets exactly one reply. It is `success` with the data iff the computation returned. Otherwise it is `error` with the message, or 'Unbekannter Fehler' for a thrown non-Error. |
| Worker.HandleRequest | src/workers/routing.worker.ts:10-23 | A request gets one `success` reply. Its data is the cached batch, sorted by distance, and the cache stays healthy. |
| Worker.OnError | src/workers/routing.worker.ts:35-42 | The `onerror` reply is an `error` whose text is 'Worker error: ' followed by the error text. |
| Worker.ErrorText | src/workers/routing.worker.ts:36 | The error handler's text is an `Error`'s message, and otherwise the value's string form. |
| Worker.HandlersAgreeOnErrors | src/workers/routing.worker.ts:24-39 | The message handler and the error handler report the same text iff the thrown value is an `Error`, or its string form is exactly 'Unbekannter Fehler'. |
| Worker.RepeatRequestSameReply | src/workers/routing.worker.ts:10-23 | A repeat of a request within the cache lifetime gets the identical reply, whatever the network then does. |
| WorkerHook.Mount | src/hooks/useRoutingWorker.ts:20-46 | A construction failure leaves no worker and the error 'Worker wird nicht unterstützt'. |
| WorkerHook.Request | src/hooks/useRoutingWorker.ts:53-70 | With no worker, the error is 'Worker nicht verfügbar', nothing is sent and nothing else changes. Otherwise routes and error are cleared and `isCalculating` is set, then the request is posted. A failed post sets 'Fehler bei der Worker-Kommunikation' and clears `isCalculating`. |
| WorkerHook.OnMessage | src/hooks/useRoutingWorker.ts:27-35 | An error reply sets its text, or 'Unbekannter Worker-Fehler' when the text is empty or missing, and keeps routes. A success reply sets routes to the data, or `[]`. Either way `isCalculating` is cleared. |
| WorkerHook.OnWorkerError | src/hooks/useRoutingWorker.ts:37-41 | `onerror` sets 'Worker-Initialisierung fehlgeschlagen' and clears `isCalculating`. Routes are unchanged. |
| WorkerHook.ClearError | src/hooks/useRoutingWorker.ts:72-74 | Only the error changes, and it becomes null. |
| WorkerHook.TransitionsKeepConsistent | src/hooks/useRoutingWorker.ts:27-74 | Every transition keeps the invariant: while calculating, there is a worker and neither routes nor an error. |
| WorkerHook.SuccessRoundTrip | src/hooks/useRoutingWorker.ts:59-64 | A posted request answered with success ends with exactly those routes, no error and not calculating. |
| WorkerHook.FailureRoundTrip | src/hooks/useRoutingWorker.ts:28-30 | A posted request whose computation throws ends with no routes, not calculating, and the thrown message (or the hook's default) as the error. |
| StationStore.LoadStations | src/store/useStationStore.ts:22-33 | While loading, a load is a no-op. Success replaces the stations and clears loading and error. Failure keeps the stations, sets the message (or 'Unknown error') and clears loading. |
| StationStore.RetryAfterFailure | src/store/useStationStore.ts:24-25 | A failed load records an error. A later successful load ends exactly as a direct successful load does, because every load starts by clearing the error. |
| StationStore.BeginLoad | src/store/useStationStore.ts:24-25 | A load starts only when not loading. Starting sets `isLoading` and clears the error. |
| StationStore.FinishLoad | src/store/useStationStore.ts:26-32 | Success sets the stations and failure sets the error. Either way loading ends. |
| StationStore.ResetStations | src/store/useStationStore.ts:35-37 | The result is no stations, not loading and no error. |
| StationStore.ResetForgets | src/store/useStationStore.ts:35-37 | Reset gives the initial state whatever came before. |
| StationStore.StationsByType | src/store/useStationStore.ts:39 | The result is an order-preserving filter of exactly the stations of the given type. |
| StationStore.ByTypePartitions | src/store/useStationStore.ts:39 | The two type selectors partition the stations. |
| StationStore.ReviereByPraesidium | src/store/useStationStore.ts:41-42 | The result is an order-preserving filter of exactly the stations whose parent is the id. Every such station keeps all of its copies. |
| StationStore.ParentSelectorIgnoresKind | src/store/useStationStore.ts:41-42 | The parent selector does not check the type: a Präsidium with that parent is included. |
| StationStore.PraesidiumById | src/store/useStationStore.ts:44-45 | The result is a station only if both the id matches and the type is Präsidium. |
| StationStore.FirstPraesidiumIsFirst | src/store/useStationStore.ts:44-45 | The find misses iff no station matches both tests. Otherwise it returns the first station that does. |
| WizardStore.SetStep | src/store/useWizardStore.ts:25 | Only `currentStep` changes. |
| WizardStore.SetStartAddress | src/store/useWizardStore.ts:26 | Only `startAddress` changes. |
| WizardStore.SelectPraesidium | src/store/useWizardStore.ts:27 | Only `selectedPraesidiumId` changes. |
| WizardStore.ToggleRevier | src/store/useWizardStore.ts:28-33 | Membership of the id flips and every other id keeps its count. An absent id is appended at the end. A removal keeps the other ids in order. No other field changes. |
| WizardStore.ToggleRevierTwice | src/store/useWizardStore.ts:28-33 | Toggling an absent id twice restores the state. |
| WizardStore.ResetIsInitial | src/store/useWizardStore.ts:20-35 | Reset gives exactly the initial state: step 1, empty address, no Präsidium, no Reviere. |
| WizardStore.ResetWizard | src/store/useWizardStore.ts:34-35 | Reset gives step 1, an empty start address, no Präsidium and no Reviere, whatever the state before. |
| WizardStore.Partialize | src/store/useWizardStore.ts:40-44 | Only the start address, the Präsidium and the Reviere are persisted. |
| WizardStore.ReloadKeepsSelectionNotStep | src/store/useWizardStore.ts:40-44 | After a reload the selection is back but the step is 1. |
| WizardStore.StepNotPersisted | src/store/useWizardStore.ts:25-44 | Changing the step does not change what is persisted. |
| Step2State.ResetStates | src/components/wizard/Step2/hooks/useStep2State.ts:19-28 | The result is grid view, stations tab, empty query, hidden form and preview, no last selection, an empty expanded set and a blank form. |
| Step2State.ResetIsInitial | src/components/wizard/Step2/hooks/useStep2State.ts:5-28 | Reset gives exactly the initial state. |
| Step2State.ResetIdempotent | src/components/wizard/Step2/hooks/useStep2State.ts:19-28 | Resetting twice is resetting once. |
| Step2Data.Derive | src/components/wizard/Step2/hooks/useStep2Data.ts:22-32 | There is one entry per Präsidium, in store order. Each holds its Reviere from the parent selector, `isExpanded` iff its id is expanded, and `selectedCount` equal to the number of its Reviere whose id is selected. |
| Step2Data.DetailsCount | src/components/wizard/Step2/hooks/useStep2Data.ts:29-30 | `selectedCount` counts the selected Reviere and is at most their number. |
| Step2Data.FilterCountsSelected | src/components/wizard/Step2/hooks/useStep2Data.ts:29-30 | `filter(...).length` equals the recursive count of selected Reviere. |
| Step2Data.OwnIdNotCounted | src/components/wizard/Step2/hooks/useStep2Data.ts:29-30 | Selecting or deselecting the Präsidium's own id does not change its count. |
| Step2Data.FilterPraesidien | src/components/wizard/Step2/hooks/useStep2Data.ts:34-41 | The result is an order-preserving subsequence holding exactly the entries with an empty query, or whose name, city or any Revier name contains the query case-insensitively. Every kept entry keeps all of its copies. |
| Step2Data.EmptyQueryKeepsAll | src/components/wizard/Step2/hooks/useStep2Data.ts:36 | The empty query keeps every entry, in order. |
| Step2Data.FilterIgnoresQueryCase | src/components/wizard/Step2/hooks/useStep2Data.ts:37-39 | Lower-casing the query changes nothing. |
| Step2Data.NameMatchKept | src/components/wizard/Step2/hooks/useStep2Data.ts:37 | An entry whose name contains the query is kept. |
| Step2Data.TotalSelected | src/components/wizard/Step2/hooks/useStep2Data.ts:43 | The total is 0 iff both lists are empty. |
| Step2Handlers.FindPraesidium | src/components/wizard/Step2/hooks/useStep2Handlers.ts:23 | The find misses iff no entry has the id. A hit is an entry with the id. |
| Step2Handlers.FindPraesidiumIsFind | src/components/wizard/Step2/hooks/useStep2Handlers.ts:23 | The lookup is the generic first-match search, so a hit is the first entry with the id. |
| Step2Handlers.TogglePraesidiumWithReviere | src/components/wizard/Step2/hooks/useStep2Handlers.ts:22-42 | An unknown id changes nothing. A fully selected group is removed: the result is a subsequence, other ids keep their counts, and no group id stays. Otherwise the union is taken without duplicates, existing ids first. The Präsidium becomes the last selected id. |
| Step2Handlers.ModifierIrrelevant | src/components/wizard/Step2/hooks/useStep2Handlers.ts:30-40 | Holding Ctrl or Meta makes no difference. |
| Step2Handlers.AddedGroupFullySelected | src/components/wizard/Step2/hooks/useStep2Handlers.ts:33-38 | After an adding toggle, every id of the group is selected. |
| Step2Handlers.GroupToggleTwice | src/components/wizard/Step2/hooks/useStep2Handlers.ts:28-38 | Toggling a partly selected group twice, from a duplicate-free list, removes exactly the group and keeps the other ids in order. |
| Step2Handlers.ToggleExpansion | src/components/wizard/Step2/hooks/useStep2Handlers.ts:44-50 | Exactly one id's membership flips. |
| Step2Handlers.ToggleExpansionTwice | src/components/wizard/Step2/hooks/useStep2Handlers.ts:44-50 | Flipping twice restores the set. |
| Step2Handlers.ToggleStation | src/components/wizard/Step2/hooks/useStep2Handlers.ts:52-57 | The station id's membership flips and other ids keep their counts. An absent id is appended. The custom list is unchanged. |
| Step2Handlers.ToggleCustom | src/components/wizard/Step2/hooks/useStep2Handlers.ts:59-64 | The same rule applies on the custom list, and the station list is unchanged. |
| Step2Handlers.ToggleTwiceRestores | src/components/wizard/Step2/hooks/useStep2Handlers.ts:52-64 | Toggling an absent id twice restores either list. |
| Step2Handlers.AddAddress | src/components/wizard/Step2/hooks/useStep2Handlers.ts:66-77 | A form with an empty field (no trimming) changes nothing. Otherwise the form is handed to the store and is then blank and hidden, with nothing else changed. |
| Step2Handlers.DeleteAddress | src/components/wizard/Step2/hooks/useStep2Handlers.ts:79-84 | The store is told to delete the address, and the id leaves the custom selection. Other ids keep their counts and order, and the station list is unchanged. |
| Step2Handlers.Continue | src/components/wizard/Step2/hooks/useStep2Handlers.ts:86-93 | Step 3 is requested iff something is selected. |
| UltraModern.TogglePraesidium | src/components/wizard/UltraModernStep2.tsx:153-167 | An unknown id changes nothing. A selected Präsidium id removes the whole group. Every other id keeps its order and its number of occurrences. Otherwise the union is taken without duplicates. |
| UltraModern.GroupRulesDiverge | src/components/wizard/UltraModernStep2.tsx:158-165 | This component's toggle agrees with the hook's iff the group is fully selected or the Präsidium is not. Otherwise this component removes the group while the hook completes it. |
| UltraModern.AllIds | src/components/wizard/UltraModernStep2.tsx:324-327 | The result holds exactly the ids of every Präsidium and its Reviere. |
| UltraModern.ColonArgument | src/components/wizard/UltraModernStep2.tsx:310-311 | `split(':')[1]` of a `word:`-prefixed command is the colon-free text up to the next colon or the end. |
| UltraModern.Parse | src/components/wizard/UltraModernStep2.tsx:309-344 | The two prefixed commands take the argument between the first and second colons. The five named commands match exactly. Anything else is unknown. |
| UltraModern.Apply | src/components/wizard/UltraModernStep2.tsx:310-345 | Each command changes only its own fields: group toggle, Stuttgart or full dedup-union, clearing both lists, expanding all Präsidium ids, collapsing, or the search term. Every command closes the palette. |
| UltraModern.HandleCommand | src/components/wizard/UltraModernStep2.tsx:309-346 | Every command closes the palette. `HandleCommand` is `Apply` after `Parse`, whose rows state each command's effect. |
| UltraModern.SelectAllSelectsEverything | src/components/wizard/UltraModernStep2.tsx:323-329 | After 'selectAll', every Präsidium and Revier id is selected, no earlier id is lost, and there are no duplicates. |
| UltraModern.UnknownCommandOnlyCloses | src/components/wizard/UltraModernStep2.tsx:345 | An unknown command only closes the palette. |
| UltraModern.SearchCommandTerm | src/components/wizard/UltraModernStep2.tsx:341-343 | 'search:t' with a colon-free `t` sets the query to `t`. |
| UltraModern.FirstNamed | src/components/wizard/UltraModernStep2.tsx:262-269 | The result is the first Präsidium whose lower-cased city, or name without 'polizeipräsidium ', occurs in the command. |
| UltraModern.Classify | src/components/wizard/UltraModernStep2.tsx:231-290 | The chosen rule applies, and no rule of higher priority does. |
| UltraModern.HandleVoiceCommand | src/components/wizard/UltraModernStep2.tsx:226-291 | Only the first matching rule fires, and each rule changes only its own fields. Only 'weiter' can request step 3. |
| UltraModern.VoiceSearchTerm | src/components/wizard/UltraModernStep2.tsx:232 | The search term is never longer than the command. |
| UltraModern.VoiceSearchTermWithoutWords | src/components/wizard/UltraModernStep2.tsx:232 | When neither "suche" nor "finde" occurs in any case, the search term is the command trimmed. |
| UltraModern.VoiceSearchTermAfterSuche | src/components/wizard/UltraModernStep2.tsx:232 | "Suche " followed by a term without either word gives that term, trimmed. |
| UltraModern.SearchWinsOverSelection | src/components/wizard/UltraModernStep2.tsx:231-236 | A command containing 'suche' is a search and never touches the selection. |
| UltraModern.EmptyCityNamedByEverything | src/components/wizard/UltraModernStep2.tsx:263 | A first Präsidium with an empty city is named by every command. |
| UltraModern.AddAddress | src/components/wizard/UltraModernStep2.tsx:199-215 | A field that is blank after trimming rejects the form. Otherwise the untrimmed form is added, then cleared and hidden. |
| UltraModern.TrimmedCheckStricter | src/components/wizard/UltraModernStep2.tsx:200 | The trimmed check implies the hook's check, and a one-space name separates the two. |
| Step1State.Street | src/components/wizard/Step1/hooks/useStep1State.ts:25 | The street is the comma-free prefix before the first comma, or the whole input when that prefix is empty. |
| Step1State.StreetCases | src/components/wizard/Step1/hooks/useStep1State.ts:25 | Comma-free input is its own street, and so is input starting with a comma. |
| Step1State.Jitter | src/components/wizard/Step1/hooks/useStep1State.ts:19-22 | With randoms in [0, 1), the coordinates lie within ±0.05 of (48.7758, 9.1829). |
| Step1State.HandleSubmit | src/components/wizard/Step1/hooks/useStep1State.ts:13-40 | Blank input returns false and changes nothing. Otherwise the result is true and step 2, and the record holds the street, zip 70173, Stuttgart, an empty house number, accuracy 95 and the untrimmed input. |
| Step1State.SubmitMovesIffAccepted | src/components/wizard/Step1/hooks/useStep1State.ts:34-39 | The wizard moves to step 2 iff the submit is accepted. |
| Step1State.HandleDemoAddress | src/components/wizard/Step1/hooks/useStep1State.ts:47-50 | The demo text becomes the input, and the result is true iff it is not blank. |
| Step1State.DemoIsSubmit | src/components/wizard/Step1/hooks/useStep1State.ts:47-50 | A demo pick stores what a typed submit of the same text stores. |
| Converter.Convert | src/components/wizard/Step3/components/StationConverter.ts:5-22 | id, name, address and city are copied. lat/lng are `coordinates[0]`/`[1]`, and phone and emergency come from telefon/notdienst24h. email, district and opening hours are empty. The type is 'Präsidium' for a Präsidium, else 'Revier'. |
| Converter.ConvertForgets | src/components/wizard/Step3/components/StationConverter.ts:5-22 | Parent, active flag and modification time do not reach the result. |
| Converter.ConvertInjective | src/components/wizard/Step3/components/StationConverter.ts:5-22 | Every other field of the station can be recovered from the result. |
| Summary.NormaliseKm | src/components/wizard/Step3/components/SummaryTab.tsx:16 | Above 1000 the distance is read as metres and divided by 1000. Otherwise it is kept. |
| Summary.Reduce | src/components/wizard/Step3/components/SummaryTab.tsx:15-21 | The left fold from `acc` equals `acc` plus the reference sum. |
| Summary.CalculateStats | src/components/wizard/Step3/components/SummaryTab.tsx:13-34 | The count is the list length and the totals are the sums, with distances normalised. An average times the count is its total. Both averages are 0 for an empty list. |
| Summary.CostPerRouteText | src/components/wizard/Step3/components/SummaryTab.tsx:120 | With no routes the text is '0.00'. Otherwise it is the average cost formatted. |
| Summary.StatsOrderIndependent | src/components/wizard/Step3/components/SummaryTab.tsx:13-34 | Reordering the results leaves every statistic unchanged. |
| Summary.SumPermutation | src/components/wizard/Step3/components/SummaryTab.tsx:15-21 | A sum does not depend on the order of the list. |
| Summary.ShortRoutesSumPlainly | src/components/wizard/Step3/components/SummaryTab.tsx:15-18 | With no route over 1000, the distance total is the plain sum. |
| Summary.CostTotalIsFuelTotalTimesPrice | src/components/wizard/Step3/components/SummaryTab.tsx:20-21 | If every route costs fuel × 1.75, so do the totals. |
| Export.TypeLabel | src/components/wizard/Step3/components/ExportTab.tsx:144 | The label is 'Polizeistation' iff a station, and 'Eigene Adresse' iff a custom address. |
| Export.Row | src/components/wizard/Step3/components/ExportTab.tsx:142-151 | A row has as many cells as the header. |
| Export.CsvLines | src/components/wizard/Step3/components/ExportTab.tsx:140-152 | When no cell holds a line feed, splitting the CSV at LF gives the header line followed by one line per result, in input order. |
| Export.LineAvoidsNewline | src/components/wizard/Step3/components/ExportTab.tsx:152 | A line of cells without line feeds has no line feed. |
| Export.ParseCorrectedLine | src/components/wizard/Step3/components/ExportTab.tsx:152 | Corrected, an RFC 4180 reader reads a line back as exactly its cells. |
| Export.ReadEscaped | src/components/wizard/Step3/components/ExportTab.tsx:152 | A quote-doubled field followed by its closing quote reads back as the field. |
| Export.AsWrittenLineAmbiguous | src/components/wizard/Step3/components/ExportTab.tsx:152 | As written, the one-cell row `a","b` and the two-cell row `a`, `b` give the same line. |
| Export.CorrectedLinesDiffer | src/components/wizard/Step3/components/ExportTab.tsx:152 | Corrected, those two rows give different lines. |
| Export.VersionsAgreeWithoutQuotes | src/components/wizard/Step3/components/ExportTab.tsx:152 | On cells without quotes, both versions quote identically. |
| Export.SheetTotals | src/components/wizard/Step3/components/ExportTab.tsx:59-64 | The spreadsheet's count is the list length, and its distance (normalised) and duration totals are the reference sums. |
| Export.SheetAgreesWithSummary | src/components/wizard/Step3/components/ExportTab.tsx:59-64 | The spreadsheet's count and four totals equal the summary tab's. |

## Left out

- HTTP and JSON are modelled as given replies. This covers `fetch`, the 10 s `AbortSignal` timeout, URL building and the JSON parsing of provider replies. `Routing.Network` gives each call's reply, with "unreachable" standing for a thrown `fetch`.
- Haversine is a given function (`Network.haversineKm`). Its trigonometry is floating point.
- Concurrency: the `Promise.allSettled` fan-out is a sequential map. Every task is independent and catches its own errors, and `Promise.allSettled` gives the results back in input order whatever the completion order, so the sequential map yields the same list.
- Floating point: distances, durations, fuel and cost are exact reals. `Math.round(x)` is `floor(x + 0.5)`.
- Number formatting (`toFixed`, `${n}`, `toLocaleString`) is a given function (`Export.NumberFormat`, the `toFixed2` argument of `Summary.CostPerRouteText`).
- Polyline.ReadValue: integers are unbounded. JavaScript's 32-bit `|=`/`<<`/`>>` wrap-around for values beyond 31 bits is not modelled.
- Polyline: reading past the end of a truncated string is modelled as the JavaScript `NaN` arithmetic gives it, as a zero group that ends the value. Valhalla's documented 6-digit precision is not used, because the code divides by 1e5.
- The cache key is modelled as a record of its five parts, not as the `JSON.stringify` string. Two keys are equal iff the strings would be, except for number-to-text formatting.
- The clock is passed in. `Batch.CalculateRoutes` takes the time of the `get` and the time of the later `set` as separate inputs.
- `Math.random` is passed in: `Step1State.HandleSubmit` takes the two random numbers as arguments.
- The application store (`addCustomAddress`, `deleteCustomAddress`, `setWizardStep`, `setStartAddress`) is not part of this model. Calls into it are returned as effects, or as the fields they set.
- Rendering, toasts, console logging, speech-recognition and keyboard plumbing, React effects and memoisation, `worker.terminate()`, the spreadsheet and PDF file writing, Blob downloads and the Excel header rows are all presentation or browser APIs.
- The admin form, backend routes and the context-only components are outside this model.
- Lower-casing folds ASCII and Latin-1 letters only. Letters outside Latin-1, such as ẞ, are not folded, so `Step2Data.FilterPraesidien` and `UltraModern.Classify` treat them case-sensitively.
- Strings are sequences of code points, not UTF-16 code units. `Polyline.ReadValue` therefore reads a character outside the Basic Multilingual Plane as one value, where `charCodeAt` would read two surrogate halves. Encoded polylines are ASCII, so this only affects malformed input.
- The wizard store of src/store/useWizardStore.ts:4-15 declares no `selectedStations` or `selectedCustomAddresses`, although the selection components read them from it (src/components/wizard/UltraModernStep2.tsx:87). The model therefore takes both selection lists as parameters instead of store fields.
- Step2Data.TotalSelected: the contract states that the total is zero iff both lists are empty, not the sum formula itself, which is the body.
- Export.Row: the contract states only the row width. The cell contents follow from the definition, and `CsvLines` and `ParseCorrectedLine` recover them from the text.
- Worker.HandleRequest: the model's batch never throws, so the request handler always answers `success`. The `error` branch of the worker is covered by `Worker.Respond` for an arbitrary thrown value.
- The station, custom, expansion, delete and continue handlers of `UltraModernStep2.tsx` (lines 170-196, 218-223, 349-366) are the same rules as the hook's, so the model uses the `Step2Handlers` members for both.

Choices that follow the code:
- The cache key uses both id lists in the order given, not as sets.
- An empty batch is still cached.
- The worker's copy of the router has no Valhalla step.
- Straight-line fallbacks are labelled as OSRM routes (see Findings).

## Findings

| source | as written | input that shows it | evidently intended | confidence | as-written member | corrected member |
|---|---|---|---|---|---|---|
| src/utils/routing.ts:80, 97, 120 and src/lib/services/routing-service.ts:36, 54, 78 | The colour index is `results.length` of an array nothing is ever pushed to, so it is always 0. | Any batch of two or more routes: both are `#3B82F6`. | Each route gets its own palette colour, by position. | high (not executed) | Batch.ColoursNeverCycle | Batch.ColoursDistinctCorrected |
| src/lib/services/routing-service.ts:219-228 and src/utils/routing.ts:164-173 | `calculateSingleRoute` never throws, so the straight-line fallback goes through `formatRouteResult`. It is labelled `'OSRM'`/`'Schnellste'`, and `createFallbackResult` is unreachable. | All three mirrors (and Valhalla) fail: the Haversine result is labelled OSRM and fastest. | A straight-line result is labelled `'Direct'`/`'Kürzeste'`, as `createFallbackResult` does. | high (not executed) | Routing.AllFailLabelledOsrm | Routing.AllFailLabelledDirect |
| src/components/wizard/Step3/components/ExportTab.tsx:152 | Each cell is wrapped in `"` without doubling the quotes inside it, contrary to rule 7 of section 2 of RFC 4180. | The one-cell row `a","b` and the two-cell row `a`, `b` both produce `"a","b"`. | Embedded quotes are doubled, so every line reads back as its cells. | high (not executed) | Export.AsWrittenLineAmbiguous | Export.ParseCorrectedLine |

=== FILE: batch.dfy ===
/**
 * Batch assembly: one job per requested destination that can be found,
 * stations before custom addresses; every job routed and formatted; the
 * results sorted by distance. The worker's copy puts an LRU cache with
 * expiry in front of it.
 */
module Batch {
  import opened Wrappers
  import Seqs
  import LruCache
  import Converter
  import opened Routing

  /** A user-defined destination; its coordinates may be missing. */
  datatype CustomAddress = CustomAddress(id: string, name: string, address: string, coordinates: Option<Coordinates>)

  /** The fields of the start address that the batch reads. */
  datatype StartAddress = StartAddress(coordinates: Coordinates, fullAddress: string)

  /** One destination to route: what the formatter needs, and its position among the requested ids. */
  datatype Job = Job(target: Target, kind: DestinationKind, position: nat)

  /** `allStations.find(s => s.id === id)`. */
  function StationById(all: seq<Converter.AppStation>, id: string): (r: Option<Converter.AppStation>)
    ensures r.Some? ==> r.value.id == id
  {
    if |all| == 0 then None else if all[0].id == id then Some(all[0]) else StationById(all[1..], id)
  }

  /** `customAddresses.find(a => a.id === id)`. */
  function CustomById(customs: seq<CustomAddress>, id: string): (r: Option<CustomAddress>)
    ensures r.Some? ==> r.value.id == id
  {
    if |customs| == 0 then None else if customs[0].id == id then Some(customs[0]) else CustomById(customs[1..], id)
  }

  function StationIdIs(id: string): Converter.AppStation -> bool {
    (st: Converter.AppStation) => st.id == id
  }

  function CustomIdIs(id: string): CustomAddress -> bool {
    (a: CustomAddress) => a.id == id
  }

  /**
   * The station lookup is the generic first-match search, so it misses
   * exactly when no station has the id and otherwise returns the first
   * station that does.
   */
  lemma {:induction false} StationByIdIsFind(all: seq<Converter.AppStation>, id: string)
    ensures StationById(all, id) == Seqs.FindFirst(all, StationIdIs(id))
    decreases |all|
  {
    if |all| > 0 && all[0].id != id {
      StationByIdIsFind(all[1..], id);
    }
  }

  /** The custom-address lookup is the generic first-match search. */
  lemma {:induction false} CustomByIdIsFind(customs: seq<CustomAddress>, id: string)
    ensures CustomById(customs, id) == Seqs.FindFirst(customs, CustomIdIs(id))
    decreases |customs|
  {
    if |customs| > 0 && customs[0].id != id {
      CustomByIdIsFind(customs[1..], id);
    }
  }

  /** Station ids that produce a job: the id is found. */
  function StationFound(all: seq<Converter.AppStation>): string -> bool {
    id => StationById(all, id).Some?
  }

  /** Custom ids that produce a job: the first address with the id has coordinates. */
  function CustomRoutable(customs: seq<CustomAddress>): string -> bool {
    id => CustomById(customs, id).Some? && CustomById(customs, id).value.coordinates.Some?
  }

  function StationTarget(s: Converter.AppStation): Target {
    Target(s.id, s.name, s.address, s.coordinates)
  }

  function CustomTarget(a: CustomAddress): Target
    requires a.coordinates.Some?
  {
    Target(a.id, a.name, a.address, a.coordinates.value)
  }

  /** The destination id of each job, in order. */
  function JobIds(js: seq<Job>): (r: seq<string>)
    ensures |r| == |js|
    ensures forall k :: 0 <= k < |js| ==> r[k] == js[k].target.id
  {
    if |js| == 0 then [] else [js[0].target.id] + JobIds(js[1..])
  }

  lemma {:induction false} JobIdsAppend(a: seq<Job>, b: seq<Job>)
    ensures JobIds(a + b) == JobIds(a) + JobIds(b)
  {
    if |a| > 0 {
      assert (a + b)[1..] == a[1..] + b;
      JobIdsAppend(a[1..], b);
    }
  }

  predicate PositionsAscending(js: seq<Job>) {
    forall i, j :: 0 <= i < j < |js| ==> js[i].position < js[j].position
  }

  predicate PositionsWithin(js: seq<Job>, lo: nat, hi: nat) {
    forall i :: 0 <= i < |js| ==> lo <= js[i].position < hi
  }

  /** A job for the first station carrying the job's id. */
  predicate StationJob(j: Job, all: seq<Converter.AppStation>) {
    && j.kind == StationKind
    && StationById(all, j.target.id).Some?
    && j.target == StationTarget(StationById(all, j.target.id).value)
  }

  predicate AllStationJobs(js: seq<Job>, all: seq<Converter.AppStation>) {
    forall i :: 0 <= i < |js| ==> StationJob(js[i], all)
  }

  /**
   * The station half of the batch: ids that are not found are dropped
   * (`return null`), the others become jobs in request order.
   */
  function StationJobs(ids: seq<string>, all: seq<Converter.AppStation>, from: nat): (r: seq<Job>)
    ensures forall i :: 0 <= i < |r| ==> r[i].kind == StationKind
    ensures PositionsAscending(r) && PositionsWithin(r, from, from + |ids|)
    decreases |ids|
  {
    if |ids| == 0 then []
    else
      var rest := StationJobs(ids[1..], all, from + 1);
      match StationById(all, ids[0])
      case None => rest
      case Some(s) =>
        var r := [Job(StationTarget(s), StationKind, from)] + rest;
        assert r[1..] == rest;
        assert forall i :: 1 <= i < |r| ==> r[i] == rest[i - 1];
        r
  }

  /** A job for the first custom address carrying the job's id, which has coordinates. */
  predicate CustomJob(j: Job, customs: seq<CustomAddress>) {
    && j.kind == CustomKind
    && CustomById(customs, j.target.id).Some?
    && CustomById(customs, j.target.id).value.coordinates.Some?
    && j.target == CustomTarget(CustomById(customs, j.target.id).value)
  }

  /** The station jobs are exactly the found station ids, in order. */
  lemma {:induction false} StationJobsIds(ids: seq<string>, all: seq<Converter.AppStation>, from: nat)
    ensures JobIds(StationJobs(ids, all, from)) == Seqs.Filter(ids, StationFound(all))
    decreases |ids|
  {
    if |ids| > 0 {
      StationJobsIds(ids[1..], all, from + 1);
      var p := StationFound(all);
      var r := StationJobs(ids, all, from);
      var rest := StationJobs(ids[1..], all, from + 1);
      if p(ids[0]) {
        assert Seqs.Filter(ids, p) == [ids[0]] + Seqs.Filter(ids[1..], p);
        assert r[1..] == rest;
        assert JobIds(r) == [ids[0]] + JobIds(rest);
      } else {
        assert Seqs.Filter(ids, p) == Seqs.Filter(ids[1..], p);
        assert r == rest;
      }
    }
  }

  /** Each station job carries the fields of the first station with its id. */
  lemma {:induction false} StationJobsTargets(ids: seq<string>, all: seq<Converter.AppStation>, from: nat)
    ensures AllStationJobs(StationJobs(ids, all, from), all)
    decreases |ids|
  {
    if |ids| > 0 {
      StationJobsTargets(ids[1..], all, from + 1);
      var r := StationJobs(ids, all, from);
      var rest := StationJobs(ids[1..], all, from + 1);
      assert forall i :: 0 <= i < |rest| ==> StationJob(rest[i], all);
      if StationFound(all)(ids[0]) {
        assert forall i :: 1 <= i < |r| ==> r[i] == rest[i - 1];
      } else {
        assert r == rest;
      }
    }
  }

  predicate AllCustomJobs(js: seq<Job>, customs: seq<CustomAddress>) {
    forall i :: 0 <= i < |js| ==> CustomJob(js[i], customs)
  }

  /**
   * The custom half: ids whose first matching address is missing or has no
   * coordinates are dropped (`if (!customAddress?.coordinates) return null`).
   */
  function CustomJobs(ids: seq<string>, customs: seq<CustomAddress>, from: nat): (r: seq<Job>)
    ensures forall i :: 0 <= i < |r| ==> r[i].kind == CustomKind
    ensures PositionsAscending(r) && PositionsWithin(r, from, from + |ids|)
    decreases |ids|
  {
    if |ids| == 0 then []
    else
      var rest := CustomJobs(ids[1..], customs, from + 1);
      if !CustomRoutable(customs)(ids[0]) then rest
      else
        var r := [Job(CustomTarget(CustomById(customs, ids[0]).value), CustomKind, from)] + rest;
        assert r[1..] == rest;
        assert forall i :: 1 <= i < |r| ==> r[i] == rest[i - 1];
        r
  }

  /** The custom jobs are exactly the routable custom ids, in order. */
  lemma {:induction false} CustomJobsIds(ids: seq<string>, customs: seq<CustomAddress>, from: nat)
    ensures JobIds(CustomJobs(ids, customs, from)) == Seqs.Filter(ids, CustomRoutable(customs))
    decreases |ids|
  {
    if |ids| > 0 {
      CustomJobsIds(ids[1..], customs, from + 1);
      var p := CustomRoutable(customs);
      var r := CustomJobs(ids, customs, from);
      var rest := CustomJobs(ids[1..], customs, from + 1);
      if p(ids[0]) {
        assert Seqs.Filter(ids, p) == [ids[0]] + Seqs.Filter(ids[1..], p);
        assert r[1..] == rest;
        assert JobIds(r) == [ids[0]] + JobIds(rest);
      } else {
        assert Seqs.Filter(ids, p) == Seqs.Filter(ids[1..], p);
        assert r == rest;
      }
    }
  }

  /** Each custom job carries the fields of the first custom address with its id. */
  lemma {:induction false} CustomJobsTargets(ids: seq<string>, customs: seq<CustomAddress>, from: nat)
    ensures AllCustomJobs(CustomJobs(ids, customs, from), customs)
    decreases |ids|
  {
    if |ids| > 0 {
      CustomJobsTargets(ids[1..], customs, from + 1);
      var r := CustomJobs(ids, customs, from);
      var rest := CustomJobs(ids[1..], customs, from + 1);
      assert forall i :: 0 <= i < |rest| ==> CustomJob(rest[i], customs);
      if CustomRoutable(customs)(ids[0]) {
        assert r[0].target.id == ids[0];
        assert CustomJob(r[0], customs);
        assert forall i :: 1 <= i < |r| ==> r[i] == rest[i - 1];
      } else {
        assert r == rest;
      }
    }
  }

  /** `[...stationPromises, ...customPromises]`: station jobs first, positions counted across both lists. */
  function Jobs(stationIds: seq<string>, customIds: seq<string>,
                all: seq<Converter.AppStation>, customs: seq<CustomAddress>): (r: seq<Job>)
    ensures PositionsAscending(r) && PositionsWithin(r, 0, |stationIds| + |customIds|)
  {
    var a := StationJobs(stationIds, all, 0);
    var b := CustomJobs(customIds, customs, |stationIds|);
    forall i | 0 <= i < |a + b|
      ensures (a + b)[i].position == if i < |a| then a[i].position else b[i - |a|].position
    {
    }
    a + b
  }

  /**
   * The destinations of a batch, in request order: the station ids that
   * were found, then the custom ids that are routable; every other id is
   * dropped.
   */
  lemma JobsIds(stationIds: seq<string>, customIds: seq<string>,
                all: seq<Converter.AppStation>, customs: seq<CustomAddress>)
    ensures JobIds(Jobs(stationIds, customIds, all, customs))
            == Seqs.Filter(stationIds, StationFound(all)) + Seqs.Filter(customIds, CustomRoutable(customs))
  {
    StationJobsIds(stationIds, all, 0);
    CustomJobsIds(customIds, customs, |stationIds|);
    JobIdsAppend(StationJobs(stationIds, all, 0), CustomJobs(customIds, customs, |stationIds|));
  }

  /** The first `n` jobs are for stations, the rest for custom addresses. */
  predicate StationsFirst(js: seq<Job>, n: nat) {
    forall i :: 0 <= i < |js| ==> js[i].kind == if i < n then StationKind else CustomKind
  }

  /** The jobs for stations come first, those for custom addresses after them. */
  lemma JobsKinds(stationIds: seq<string>, customIds: seq<string>,
                  all: seq<Converter.AppStation>, customs: seq<CustomAddress>)
    ensures StationsFirst(Jobs(stationIds, customIds, all, customs), |Seqs.Filter(stationIds, StationFound(all))|)
  {
    var a: seq<Job> := StationJobs(stationIds, all, 0);
    var b: seq<Job> := CustomJobs(customIds, customs, |stationIds|);
    StationJobsIds(stationIds, all, 0);
    assert |a| == |JobIds(a)| == |Seqs.Filter(stationIds, StationFound(all))|;
    KindsAppend(a, b);
  }

  /** Station jobs followed by custom jobs have the stations first. */
  lemma KindsAppend(a: seq<Job>, b: seq<Job>)
    requires forall i :: 0 <= i < |a| ==> a[i].kind == StationKind
    requires forall i :: 0 <= i < |b| ==> b[i].kind == CustomKind
    ensures StationsFirst(a + b, |a|)
  {
    forall i | 0 <= i < |a + b|
      ensures (a + b)[i].kind == if i < |a| then StationKind else CustomKind
    {
      if i >= |a| { assert (a + b)[i] == b[i - |a|]; }
    }
  }

  /** Routes every job in order (the `Promise.allSettled` fan-out, each task independent). */
  function RunJobs(net: Network, router: Router, v: Variant, start: Coordinates, jobs: seq<Job>)
    : (r: (seq<RouteResult>, seq<Attempt>))
    ensures |r.0| == |jobs|
    ensures forall k :: 0 <= k < |jobs| ==>
              && Describes(r.0[k], jobs[k].target, jobs[k].kind, ColourIndex(v, jobs[k].position))
              && Costed(r.0[k])
    decreases |jobs|
  {
    if |jobs| == 0 then ([], [])
    else
      var j := jobs[0];
      var (first, tried) := RouteTo(net, router, v, start, j.target, j.kind, j.position);
      var rest := RunJobs(net, router, v, start, jobs[1..]);
      ([first] + rest.0, tried + rest.1)
  }

  // ---- Sorting by distance ----

  predicate SortedByDistance(rs: seq<RouteResult>) {
    forall i, j :: 0 <= i < j < |rs| ==> rs[i].distance <= rs[j].distance
  }

  /** Inserts `x` before the first element that is strictly farther, so equal distances keep their order. */
  function Insert(x: RouteResult, rs: seq<RouteResult>): (r: seq<RouteResult>)
    requires SortedByDistance(rs)
    ensures SortedByDistance(r)
    ensures multiset(r) == multiset(rs) + multiset{x}
    ensures |r| == |rs| + 1
    decreases |rs|
  {
    if |rs| == 0 || x.distance <= rs[0].distance then
      ConsSorted(x, rs);
      [x] + rs
    else
      assert rs == [rs[0]] + rs[1..];
      var tail := Insert(x, rs[1..]);
      assert tail[0] in multiset(rs[1..]) + multiset{x} by {
        assert tail[0] in multiset(tail);
      }
      ConsSorted(rs[0], tail);
      [rs[0]] + tail
  }

  /** A result no farther than the head of a sorted list can go in front of it. */
  lemma ConsSorted(h: RouteResult, t: seq<RouteResult>)
    requires SortedByDistance(t)
    requires |t| == 0 || h.distance <= t[0].distance
    ensures SortedByDistance([h] + t)
  {
  }

  /** `.sort((a, b) => a.distance - b.distance)`, a stable sort. */
  function SortByDistance(rs: seq<RouteResult>): (r: seq<RouteResult>)
    ensures SortedByDistance(r)
    ensures multiset(r) == multiset(rs)
    ensures |r| == |rs|
    decreases |rs|
  {
    if |rs| == 0 then []
    else
      assert rs == [rs[0]] + rs[1..];
      Insert(rs[0], SortByDistance(rs[1..]))
  }

  /** Sorting an already sorted list leaves it unchanged. */
  lemma {:induction false} SortSortedIsIdentity(rs: seq<RouteResult>)
    requires SortedByDistance(rs)
    ensures SortByDistance(rs) == rs
    decreases |rs|
  {
    if |rs| > 0 {
      assert SortedByDistance(rs[1..]);
      SortSortedIsIdentity(rs[1..]);
    }
  }

  /**
   * The routing of one batch, without the cache: jobs, routes, sort. The
   * results are a permutation of the per-job results, sorted by distance.
   */
  function Compute(net: Network, router: Router, v: Variant, start: StartAddress,
                   stationIds: seq<string>, customIds: seq<string>,
                   all: seq<Converter.AppStation>, customs: seq<CustomAddress>)
    : (r: (seq<RouteResult>, seq<Attempt>))
    ensures SortedByDistance(r.0)
    ensures multiset(r.0) == multiset(RunJobs(net, router, v, start.coordinates,
                                              Jobs(stationIds, customIds, all, customs)).0)
    ensures |r.0| == |Seqs.Filter(stationIds, StationFound(all))| + |Seqs.Filter(customIds, CustomRoutable(customs))|
  {
    var jobs := Jobs(stationIds, customIds, all, customs);
    JobsIds(stationIds, customIds, all, customs);
    var (results, tried) := RunJobs(net, router, v, start.coordinates, jobs);
    (SortByDistance(results), tried)
  }

  /** `calculateMultipleRoutes` of the main-thread service. */
  function CalculateMultipleRoutes(net: Network, v: Variant, start: StartAddress,
                                   stationIds: seq<string>, customIds: seq<string>,
                                   all: seq<Converter.AppStation>, customs: seq<CustomAddress>)
    : (r: seq<RouteResult>)
    ensures SortedByDistance(r)
    ensures forall x :: x in r ==> Costed(x)
    ensures forall x :: x in r ==> (x.destinationType == StationKind && StationFound(all)(x.destinationId))
                                   || (x.destinationType == CustomKind && CustomRoutable(customs)(x.destinationId))
  {
    var r := Compute(net, MainThread, v, start, stationIds, customIds, all, customs).0;
    BatchMembers(net, MainThread, v, start, stationIds, customIds, all, customs);
    r
  }

  /** A result for a requested station that was found, or for a requested routable custom address. */
  predicate ForRoutableId(x: RouteResult, stationIds: seq<string>, customIds: seq<string>,
                          all: seq<Converter.AppStation>, customs: seq<CustomAddress>) {
    || (x.destinationType == StationKind && x.destinationId in Seqs.Filter(stationIds, StationFound(all)))
    || (x.destinationType == CustomKind && x.destinationId in Seqs.Filter(customIds, CustomRoutable(customs)))
  }

  predicate AllForRoutableIds(rs: seq<RouteResult>, stationIds: seq<string>, customIds: seq<string>,
                              all: seq<Converter.AppStation>, customs: seq<CustomAddress>) {
    forall x :: x in rs ==> Costed(x) && ForRoutableId(x, stationIds, customIds, all, customs)
  }

  /**
   * Every result of a batch is costed and belongs to a requested, routable
   * destination; with `JobsIds` this gives one result per routable id.
   */
  lemma BatchMembers(net: Network, router: Router, v: Variant, start: StartAddress,
                     stationIds: seq<string>, customIds: seq<string>,
                     all: seq<Converter.AppStation>, customs: seq<CustomAddress>)
    ensures AllForRoutableIds(Compute(net, router, v, start, stationIds, customIds, all, customs).0,
                              stationIds, customIds, all, customs)
  {
    JobResultsRoutable(net, router, v, start.coordinates, stationIds, customIds, all, customs);
    RoutableIdsPermutation(RunJobs(net, router, v, start.coordinates, Jobs(stationIds, customIds, all, customs)).0,
                           Compute(net, router, v, start, stationIds, customIds, all, customs).0,
                           stationIds, customIds, all, customs);
  }

  /** Before sorting: every routed job's result is costed and for a routable requested id. */
  lemma JobResultsRoutable(net: Network, router: Router, v: Variant, start: Coordinates,
                           stationIds: seq<string>, customIds: seq<string>,
                           all: seq<Converter.AppStation>, customs: seq<CustomAddress>)
    ensures AllForRoutableIds(RunJobs(net, router, v, start, Jobs(stationIds, customIds, all, customs)).0,
                              stationIds, customIds, all, customs)
  {
    var jobs := Jobs(stationIds, customIds, all, customs);
    JobsIds(stationIds, customIds, all, customs);
    JobsKinds(stationIds, customIds, all, customs);
    RunJobsFollowJobs(net, router, v, start, jobs);
    ResultsForIds(RunJobs(net, router, v, start, jobs).0, jobs,
                  Seqs.Filter(stationIds, StationFound(all)), Seqs.Filter(customIds, CustomRoutable(customs)));
  }

  /** The k-th result carries the k-th job's id and type, and is costed. */
  lemma RunJobsFollowJobs(net: Network, router: Router, v: Variant, start: Coordinates, jobs: seq<Job>)
    ensures |RunJobs(net, router, v, start, jobs).0| == |jobs|
    ensures forall k :: 0 <= k < |jobs| ==>
              && RunJobs(net, router, v, start, jobs).0[k].destinationId == jobs[k].target.id
              && RunJobs(net, router, v, start, jobs).0[k].destinationType == jobs[k].kind
              && Costed(RunJobs(net, router, v, start, jobs).0[k])
  {
  }

  /** Reordering keeps every result costed and routable. */
  lemma RoutableIdsPermutation(a: seq<RouteResult>, b: seq<RouteResult>,
                               stationIds: seq<string>, customIds: seq<string>,
                               all: seq<Converter.AppStation>, customs: seq<CustomAddress>)
    requires multiset(a) == multiset(b) && AllForRoutableIds(a, stationIds, customIds, all, customs)
    ensures AllForRoutableIds(b, stationIds, customIds, all, customs)
  {
    forall x | x in b ensures Costed(x) && ForRoutableId(x, stationIds, customIds, all, customs) {
      assert x in multiset(b);
    }
  }

  /** Results that follow the jobs position by position carry the jobs' ids and types. */
  lemma ResultsForIds(results: seq<RouteResult>, jobs: seq<Job>, sf: seq<string>, cf: seq<string>)
    requires |results| == |jobs| && JobIds(jobs) == sf + cf
    requires StationsFirst(jobs, |sf|)
    requires forall k :: 0 <= k < |jobs| ==>
               results[k].destinationId == jobs[k].target.id && results[k].destinationType == jobs[k].kind
    requires forall k :: 0 <= k < |results| ==> Costed(results[k])
    ensures forall x :: x in results ==>
              && Costed(x)
              && (|| (x.destinationType == StationKind && x.destinationId in sf)
                  || (x.destinationType == CustomKind && x.destinationId in cf))
  {
    forall x | x in results
      ensures && Costed(x)
              && (|| (x.destinationType == StationKind && x.destinationId in sf)
                  || (x.destinationType == CustomKind && x.destinationId in cf))
    {
      var k :| 0 <= k < |results| && results[k] == x;
      assert JobIds(jobs)[k] == jobs[k].target.id;
      IdAtSplit(sf, cf, k);
    }
  }

  /** Position `k` of `sf + cf` lies in `sf` below `|sf|` and in `cf` from there on. */
  lemma IdAtSplit(sf: seq<string>, cf: seq<string>, k: nat)
    requires k < |sf| + |cf|
    ensures k < |sf| ==> (sf + cf)[k] in sf
    ensures k >= |sf| ==> (sf + cf)[k] in cf
  {
    if k < |sf| {
      assert (sf + cf)[k] == sf[k];
    } else {
      assert (sf + cf)[k] == cf[k - |sf|];
    }
  }

  predicate AllColoured(rs: seq<RouteResult>, colour: string) {
    forall x :: x in rs ==> x.color == colour
  }

  /** No two results share a colour. */
  predicate ColoursDistinct(rs: seq<RouteResult>) {
    forall i, j :: 0 <= i < j < |rs| ==> rs[i].color != rs[j].color
  }

  /** As written, every result of a batch gets the first palette colour. */
  lemma ColoursNeverCycle(net: Network, router: Router, start: StartAddress,
                          stationIds: seq<string>, customIds: seq<string>,
                          all: seq<Converter.AppStation>, customs: seq<CustomAddress>)
    ensures AllColoured(Compute(net, router, AsWritten, start, stationIds, customIds, all, customs).0, "#3B82F6")
  {
    var jobs := Jobs(stationIds, customIds, all, customs);
    var results := RunJobs(net, router, AsWritten, start.coordinates, jobs).0;
    AsWrittenFirstColour(net, router, start.coordinates, jobs);
    AllColouredPermutation(results, Compute(net, router, AsWritten, start, stationIds, customIds, all, customs).0, "#3B82F6");
  }

  /** Every job run as written is given the colour of position 0. */
  lemma AsWrittenFirstColour(net: Network, router: Router, start: Coordinates, jobs: seq<Job>)
    ensures AllColoured(RunJobs(net, router, AsWritten, start, jobs).0, "#3B82F6")
  {
    var results := RunJobs(net, router, AsWritten, start, jobs).0;
    assert GenerateRouteColor(0) == "#3B82F6";
    forall x | x in results ensures x.color == "#3B82F6" {
      var k :| 0 <= k < |results| && results[k] == x;
    }
  }

  /** Reordering keeps every colour. */
  lemma AllColouredPermutation(a: seq<RouteResult>, b: seq<RouteResult>, colour: string)
    requires multiset(a) == multiset(b) && AllColoured(a, colour)
    ensures AllColoured(b, colour)
  {
    forall x | x in b ensures x.color == colour {
      assert x in multiset(b);
    }
  }

  /**
   * Corrected, the colour follows the request position, so a batch of at
   * most ten requested ids never shows two routes in the same colour.
   */
  lemma ColoursDistinctCorrected(net: Network, router: Router, start: StartAddress,
                                 stationIds: seq<string>, customIds: seq<string>,
                                 all: seq<Converter.AppStation>, customs: seq<CustomAddress>)
    requires |stationIds| + |customIds| <= |Palette|
    ensures ColoursDistinct(Compute(net, router, Corrected, start, stationIds, customIds, all, customs).0)
  {
    JobColoursDistinct(net, router, start.coordinates, stationIds, customIds, all, customs);
    ColoursDistinctPermutation(RunJobs(net, router, Corrected, start.coordinates, Jobs(stationIds, customIds, all, customs)).0,
                               Compute(net, router, Corrected, start, stationIds, customIds, all, customs).0);
  }

  /** Before sorting, corrected: the routed jobs' colours are pairwise distinct. */
  lemma JobColoursDistinct(net: Network, router: Router, start: Coordinates,
                           stationIds: seq<string>, customIds: seq<string>,
                           all: seq<Converter.AppStation>, customs: seq<CustomAddress>)
    requires |stationIds| + |customIds| <= |Palette|
    ensures ColoursDistinct(RunJobs(net, router, Corrected, start, Jobs(stationIds, customIds, all, customs)).0)
  {
    var jobs := Jobs(stationIds, customIds, all, customs);
    var results := RunJobs(net, router, Corrected, start, jobs).0;
    assert forall k :: 0 <= k < |jobs| ==> results[k].color == GenerateRouteColor(jobs[k].position);
    ColoursByPosition(results, jobs, |stationIds| + |customIds|);
  }

  /** Reordering keeps colours pairwise distinct. */
  lemma ColoursDistinctPermutation(a: seq<RouteResult>, b: seq<RouteResult>)
    requires multiset(a) == multiset(b) && ColoursDistinct(a)
    ensures ColoursDistinct(b)
  {
    Seqs.PermutationKeepsDistinctImages(a, b, (x: RouteResult) => x.color);
  }

  /** Colours picked by distinct positions below ten are distinct. */
  lemma ColoursByPosition(results: seq<RouteResult>, jobs: seq<Job>, n: nat)
    requires |results| == |jobs|
    requires PositionsAscending(jobs) && PositionsWithin(jobs, 0, n) && n <= |Palette|
    requires forall k :: 0 <= k < |jobs| ==> results[k].color == GenerateRouteColor(jobs[k].position)
    ensures ColoursDistinct(results)
  {
    forall i, j | 0 <= i < j < |results| ensures results[i].color != results[j].color {
      var p, q := jobs[i].position, jobs[j].position;
      assert p < q < |Palette|;
      ColourBelowTen(p);
      ColourBelowTen(q);
      PaletteDistinct(p, q);
    }
  }

  lemma ColourBelowTen(p: nat)
    requires p < |Palette|
    ensures GenerateRouteColor(p) == Palette[p]
  {
    assert |Palette| == 10;
    assert p % 10 == p;
  }

  lemma PaletteDistinct(p: nat, q: nat)
    requires p < q < |Palette|
    ensures Palette[p] != Palette[q]
  {
  }

  // ---- The worker's cached batch ----

  /**
   * The cache key: start coordinates, full address, and both id lists in
   * the order given.
   */
  datatype BatchKey = BatchKey(lat: real, lng: real, fullAddress: string,
                               stationIds: seq<string>, customIds: seq<string>)

  type RouteCache = LruCache.Cache<BatchKey, seq<RouteResult>>

  /** The module-level cache of the worker: 100 entries, five minutes. */
  function InitialRouteCache(): (r: RouteCache)
    ensures LruCache.Valid(r) && r.max == 100 && r.ttl == 300000
  {
    LruCache.Empty(LruCache.RouteCacheMax, LruCache.RouteCacheTtl)
  }

  function CacheKey(start: StartAddress, stationIds: seq<string>, customIds: seq<string>): BatchKey {
    BatchKey(start.coordinates.lat, start.coordinates.lng, start.fullAddress, stationIds, customIds)
  }

  /** Every list in the cache is sorted by distance. */
  ghost predicate CacheSorted(c: RouteCache) {
    forall k :: LruCache.Lookup(c.entries, k).Some? ==> SortedByDistance(LruCache.Lookup(c.entries, k).value.value)
  }

  /** The cache invariant: well-formed, able to hold an entry, every list sorted. */
  ghost predicate Healthy(c: RouteCache) {
    LruCache.Valid(c) && c.max >= 1 && CacheSorted(c)
  }

  datatype CachedBatch = CachedBatch(results: seq<RouteResult>, cache: RouteCache, tried: seq<Attempt>)

  /**
   * `calculateRoutes` of the worker's service. The cache is read at `now`
   * and, on a miss, written at `later` (the clock is read again after the
   * routing calls).
   */
  function CalculateRoutes(cache: RouteCache, now: int, later: int, net: Network, v: Variant,
                           start: StartAddress, stationIds: seq<string>, customIds: seq<string>,
                           all: seq<Converter.AppStation>, customs: seq<CustomAddress>)
    : (r: CachedBatch)
    ensures var key := CacheKey(start, stationIds, customIds);
            LruCache.IsLive(cache, key, now) ==>
              && r.results == LruCache.Lookup(cache.entries, key).value.value
              && r.tried == []
    ensures var key := CacheKey(start, stationIds, customIds);
            !LruCache.IsLive(cache, key, now) ==>
              && (r.results, r.tried) == Compute(net, InWorker, v, start, stationIds, customIds, all, customs)
              && LruCache.Lookup(r.cache.entries, key) == Some(LruCache.Entry(key, r.results, later + cache.ttl))
    ensures Healthy(cache) ==> Healthy(r.cache) && SortedByDistance(r.results)
  {
    var key := CacheKey(start, stationIds, customIds);
    var (hit, afterGet) := LruCache.Get(cache, key, now);
    GetKeepsHealthy(cache, key, now);
    match hit
    case Some(results) => CachedBatch(results, afterGet, [])
    case None =>
      var (results, tried) := Compute(net, InWorker, v, start, stationIds, customIds, all, customs);
      SetKeepsHealthy(afterGet, key, results, later);
      LruCache.SetAfterGet(cache, key, results, now, later);
      CachedBatch(results, LruCache.Set(afterGet, key, results, later), tried)
  }

  /** A `get` keeps the cache invariant, and what it returns is sorted. */
  lemma GetKeepsHealthy(c: RouteCache, key: BatchKey, now: int)
    ensures Healthy(c) ==> Healthy(LruCache.Get(c, key, now).1)
    ensures Healthy(c) && LruCache.Get(c, key, now).0.Some? ==> SortedByDistance(LruCache.Get(c, key, now).0.value)
  {
    if Healthy(c) {
      var after := LruCache.Get(c, key, now).1;
      forall k | LruCache.Lookup(after.entries, k).Some?
        ensures SortedByDistance(LruCache.Lookup(after.entries, k).value.value)
      {
        assert LruCache.Lookup(after.entries, k) == LruCache.Lookup(c.entries, k);
      }
    }
  }

  /** A `set` of a sorted list keeps the cache invariant. */
  lemma SetKeepsHealthy(c: RouteCache, key: BatchKey, value: seq<RouteResult>, now: int)
    ensures Healthy(c) && SortedByDistance(value) ==> Healthy(LruCache.Set(c, key, value, now))
  {
    if Healthy(c) && SortedByDistance(value) {
      var after := LruCache.Set(c, key, value, now);
      forall k | LruCache.Lookup(after.entries, k).Some?
        ensures SortedByDistance(LruCache.Lookup(after.entries, k).value.value)
      {
        if k != key {
          assert LruCache.Lookup(after.entries, k) == LruCache.Lookup(c.entries, k);
        }
      }
    }
  }

  /**
   * A repeated request within the lifetime of the entry the first call
   * stored is answered from the cache with the same list and no provider
   * call.
   */
  lemma RepeatServedFromCache(cache: RouteCache, now: int, later: int, now2: int, later2: int,
                              net: Network, v: Variant, start: StartAddress,
                              stationIds: seq<string>, customIds: seq<string>,
                              all: seq<Converter.AppStation>, customs: seq<CustomAddress>)
    requires !LruCache.IsLive(cache, CacheKey(start, stationIds, customIds), now)
    requires now2 <= later + cache.ttl
    ensures var first := CalculateRoutes(cache, now, later, net, v, start, stationIds, customIds, all, customs);
            var second := CalculateRoutes(first.cache, now2, later2, net, v, start, stationIds, customIds, all, customs);
            second.results == first.results && second.tried == []
  {
  }

  /**
   * An empty request routes nothing, yet the empty list is still stored
   * under its key.
   */
  lemma EmptyRequestIsCached(cache: RouteCache, now: int, later: int, net: Network, v: Variant,
                             start: StartAddress, all: seq<Converter.AppStation>, customs: seq<CustomAddress>)
    requires !LruCache.IsLive(cache, CacheKey(start, [], []), now)
    ensures var r := CalculateRoutes(cache, now, later, net, v, start, [], [], all, customs);
            && r.results == [] && r.tried == []
            && LruCache.Lookup(r.cache.entries, CacheKey(start, [], [])).Some?
  {
  }
}

=== FILE: converter.dfy ===
/**
 * The two station records and `convertStationType`, which maps the
 * administrative record (`station.types.ts`) to the application record
 * that the routing code reads.
 */
module Converter {
  import opened Wrappers
  import Routing

  datatype StationKind = Praesidium | Revier

  /** The administrative record; `coordinates` is `[lat, lng]`. */
  datatype Station = Station(
    id: string,
    name: string,
    kind: StationKind,
    parentId: Option<string>,
    city: string,
    address: string,
    coordinates: (real, real),
    telefon: string,
    notdienst24h: bool,
    isActive: bool,
    lastModified: int)

  /** The application record; `stationType` is the display label. */
  datatype AppStation = AppStation(
    id: string,
    name: string,
    address: string,
    coordinates: Routing.Coordinates,
    phone: string,
    email: string,
    stationType: string,
    city: string,
    district: string,
    openingHours: string,
    emergency24h: bool)

  /** The display label of a kind. */
  function TypeLabel(k: StationKind): (r: string)
    ensures r == "Präsidium" <==> k == Praesidium
    ensures r == "Revier" <==> k == Revier
  {
    match k
    case Praesidium => "Präsidium"
    case Revier => "Revier"
  }

  /**
   * `convertStationType`: identity and address fields copied, the pair
   * read as `[lat, lng]`, contact fields renamed, and the three fields the
   * administrative record lacks left empty.
   */
  function Convert(s: Station): (r: AppStation)
    ensures r.id == s.id && r.name == s.name && r.address == s.address && r.city == s.city
    ensures r.coordinates.lat == s.coordinates.0 && r.coordinates.lng == s.coordinates.1
    ensures r.phone == s.telefon && r.emergency24h == s.notdienst24h
    ensures r.email == "" && r.district == "" && r.openingHours == ""
    ensures r.stationType == (if s.kind == Praesidium then "Präsidium" else "Revier")
  {
    AppStation(s.id, s.name, s.address, Routing.Coordinates(s.coordinates.0, s.coordinates.1),
               s.telefon, "", TypeLabel(s.kind), s.city, "", "", s.notdienst24h)
  }

  /** Stations differing only in the fields the application record drops convert alike. */
  lemma ConvertForgets(s: Station, t: Station)
    requires s.(parentId := t.parentId, isActive := t.isActive,
                lastModified := t.lastModified) == t
    ensures Convert(s) == Convert(t)
  {
  }

  /** The conversion keeps enough to recover every field it copies: it is injective on them. */
  lemma ConvertInjective(s: Station, t: Station)
    requires Convert(s) == Convert(t)
    ensures s.id == t.id && s.name == t.name && s.kind == t.kind && s.city == t.city
    ensures s.address == t.address && s.coordinates == t.coordinates
    ensures s.telefon == t.telefon && s.notdienst24h == t.notdienst24h
  {
    assert TypeLabel(s.kind) == TypeLabel(t.kind);
  }
}

=== FILE: export.dfy ===
/**
 * The export tab: the CSV text built from the results, and the totals of
 * the spreadsheet's summary block. Number formatting (`toFixed`, the
 * default number-to-text conversion) is taken as given functions.
 */
module Export {
  import opened Wrappers
  import Text
  import opened Routing
  import Summary

  const Header: seq<string> :=
    ["Ziel", "Typ", "Adresse", "Entfernung (km)", "Fahrzeit (min)", "Kraftstoff (L)", "Kosten (€)", "Route-Typ"]

  /** The two number renderings the CSV uses. */
  datatype NumberFormat = NumberFormat(toFixed1: real -> string, show: real -> string)

  /** The type column: stations and custom addresses. */
  function TypeLabel(k: DestinationKind): (r: string)
    ensures r == "Polizeistation" <==> k == StationKind
    ensures r == "Eigene Adresse" <==> k == CustomKind
  {
    match k
    case StationKind => "Polizeistation"
    case CustomKind => "Eigene Adresse"
  }

  /**
   * The eight cells of one result, in header order; the distance is
   * normalised as in the summary before being rounded to one decimal.
   */
  function Row(r: RouteResult, fmt: NumberFormat): (cells: seq<string>)
    ensures |cells| == |Header|
  {
    [ r.destinationName,
      TypeLabel(r.destinationType),
      r.address,
      fmt.toFixed1(Summary.NormaliseKm(r.distance)),
      fmt.show(r.duration as real),
      fmt.show(r.estimatedFuel),
      fmt.show(r.estimatedCost),
      r.routeType.Label() ]
  }

  /** A quote character doubled, as RFC 4180 (section 2, rule 7) asks inside a quoted field. */
  function Escape(c: string): (r: string)
    ensures '"' !in c ==> r == c
  {
    if |c| == 0 then ""
    else (if c[0] == '"' then "\"\"" else [c[0]]) + Escape(c[1..])
  }

  /**
   * A cell wrapped in quotes. As written the text goes in unchanged; the
   * corrected cell doubles embedded quotes.
   */
  function QuoteCell(v: Variant, c: string): (r: string)
    ensures |r| >= 2 && r[0] == '"' && r[|r| - 1] == '"'
  {
    "\"" + (if v == AsWritten then c else Escape(c)) + "\""
  }

  function QuoteAll(v: Variant, cells: seq<string>): (r: seq<string>)
    ensures |r| == |cells|
  {
    if |cells| == 0 then [] else [QuoteCell(v, cells[0])] + QuoteAll(v, cells[1..])
  }

  /** One CSV line: quoted cells joined by commas. */
  function Line(v: Variant, cells: seq<string>): string {
    Text.Join(QuoteAll(v, cells), ',')
  }

  function RowLines(v: Variant, results: seq<RouteResult>, fmt: NumberFormat): (r: seq<string>)
    ensures |r| == |results|
    ensures forall i :: 0 <= i < |results| ==> r[i] == Line(v, Row(results[i], fmt))
  {
    if |results| == 0 then [] else [Line(v, Row(results[0], fmt))] + RowLines(v, results[1..], fmt)
  }

  /** `exportToCSV`: the header line, then one line per result, joined by LF with no trailing newline. */
  function Csv(v: Variant, results: seq<RouteResult>, fmt: NumberFormat): string {
    Text.Join([Line(v, Header)] + RowLines(v, results, fmt), '\n')
  }

  /** Joining parts none of which holds `c`, with a separator other than `c`, gives a text without `c`. */
  lemma {:induction false} JoinAvoids(parts: seq<string>, sep: char, c: char)
    requires sep != c
    requires forall i :: 0 <= i < |parts| ==> c !in parts[i]
    ensures c !in Text.Join(parts, sep)
    decreases |parts|
  {
    if |parts| > 1 {
      JoinAvoids(parts[1..], sep, c);
    }
  }

  lemma {:induction false} EscapeAvoids(cell: string, c: char)
    requires c != '"' && c !in cell
    ensures c !in Escape(cell)
    decreases |cell|
  {
    if |cell| > 0 {
      EscapeAvoids(cell[1..], c);
    }
  }

  /** No cell holds a line feed. */
  predicate SingleLine(cells: seq<string>) {
    forall j :: 0 <= j < |cells| ==> '\n' !in cells[j]
  }

  /** A line of cells without line feeds has no line feed. */
  lemma LineAvoidsNewline(v: Variant, cells: seq<string>)
    requires SingleLine(cells)
    ensures '\n' !in Line(v, cells)
  {
    forall j | 0 <= j < |cells| ensures '\n' !in QuoteAll(v, cells)[j] {
      QuoteAllAt(v, cells, j);
      EscapeAvoids(cells[j], '\n');
    }
    JoinAvoids(QuoteAll(v, cells), ',', '\n');
  }

  lemma {:induction false} QuoteAllAt(v: Variant, cells: seq<string>, j: int)
    requires 0 <= j < |cells|
    ensures QuoteAll(v, cells)[j] == QuoteCell(v, cells[j])
    decreases |cells|
  {
    if j > 0 {
      QuoteAllAt(v, cells[1..], j - 1);
    }
  }

  /** The header line has no line feed, whichever version writes it. */
  lemma HeaderLineSingle(v: Variant)
    ensures '\n' !in Line(v, Header)
  {
    assert SingleLine(Header);
    LineAvoidsNewline(v, Header);
  }

  /**
   * When no cell holds a line feed, splitting the CSV at line feeds gives
   * back the header line followed by one line per result, in order.
   */
  lemma CsvLines(v: Variant, results: seq<RouteResult>, fmt: NumberFormat)
    requires forall i :: 0 <= i < |results| ==> SingleLine(Row(results[i], fmt))
    ensures Text.Split(Csv(v, results, fmt), '\n') == [Line(v, Header)] + RowLines(v, results, fmt)
  {
    var rows := RowLines(v, results, fmt);
    var lines := [Line(v, Header)] + rows;
    HeaderLineSingle(v);
    forall i | 0 <= i < |rows| ensures '\n' !in rows[i] {
      LineAvoidsNewline(v, Row(results[i], fmt));
    }
    assert forall i :: 0 <= i < |lines| ==> '\n' !in lines[i] by {
      forall i | 0 <= i < |lines| ensures '\n' !in lines[i] {
        if i > 0 {
          assert lines[i] == rows[i - 1];
        }
      }
    }
    Text.SplitJoin(lines, '\n');
  }

  // Reading a line back (RFC 4180 quoted fields)

  /**
   * Reads a quoted field whose opening quote has been consumed: a doubled
   * quote stands for one quote, a single quote ends the field. Returns
   * the field and what follows the closing quote.
   */
  function ReadQuoted(s: string): (r: Option<(string, string)>)
    ensures r.Some? ==> |r.value.1| < |s|
    decreases |s|
  {
    if |s| == 0 then None
    else if s[0] == '"' then
      if |s| >= 2 && s[1] == '"' then
        match ReadQuoted(s[2..])
        case None => None
        case Some((c, rest)) => Some(("\"" + c, rest))
      else Some(("", s[1..]))
    else
      match ReadQuoted(s[1..])
      case None => None
      case Some((c, rest)) => Some(([s[0]] + c, rest))
  }

  /** Reads a line of quoted fields separated by commas. */
  function ParseLine(s: string): (r: Option<seq<string>>)
    ensures r.Some? ==> |r.value| >= 1
    decreases |s|
  {
    if |s| == 0 || s[0] != '"' then None
    else
      match ReadQuoted(s[1..])
      case None => None
      case Some((c, rest)) =>
        if |rest| == 0 then Some([c])
        else if rest[0] != ',' then None
        else
          match ParseLine(rest[1..])
          case None => None
          case Some(cs) => Some([c] + cs)
  }

  /** A doubled quote in front of a readable field reads as one quote. */
  lemma ReadQuotedDoubled(t: string, c: string, rest: string)
    requires ReadQuoted(t) == Some((c, rest))
    ensures ReadQuoted("\"\"" + t) == Some(("\"" + c, rest))
  {
    assert ("\"\"" + t)[2..] == t;
  }

  /** Any other character in front of a readable field is kept. */
  lemma ReadQuotedPlain(ch: char, t: string, c: string, rest: string)
    requires ch != '"' && ReadQuoted(t) == Some((c, rest))
    ensures ReadQuoted([ch] + t) == Some(([ch] + c, rest))
  {
    assert ([ch] + t)[1..] == t;
  }

  /** An escaped field followed by a closing quote reads back as the field. */
  lemma {:induction false} ReadEscaped(c: string, rest: string)
    requires |rest| == 0 || rest[0] != '"'
    ensures ReadQuoted(Escape(c) + "\"" + rest) == Some((c, rest))
    decreases |c|
  {
    if |c| == 0 {
      var s := Escape(c) + "\"" + rest;
      assert s == "\"" + rest;
      assert s[1..] == rest;
    } else {
      var t := Escape(c[1..]) + "\"" + rest;
      ReadEscaped(c[1..], rest);
      if c[0] == '"' {
        assert Escape(c) + "\"" + rest == "\"\"" + t;
        ReadQuotedDoubled(t, c[1..], rest);
        assert c == "\"" + c[1..];
      } else {
        assert Escape(c) + "\"" + rest == [c[0]] + t;
        ReadQuotedPlain(c[0], t, c[1..], rest);
        assert c == [c[0]] + c[1..];
      }
    }
  }

  /** One quoted cell reads back as a line of that cell alone. */
  lemma ParseOneCell(c: string)
    ensures ParseLine(QuoteCell(Corrected, c)) == Some([c])
  {
    var s := QuoteCell(Corrected, c);
    assert s[1..] == Escape(c) + "\"" + "";
    ReadEscaped(c, "");
  }

  /** A quoted cell, a comma and a readable line read back as that cell before the line's cells. */
  lemma ParseCellThen(c: string, tail: string, cs: seq<string>)
    requires ParseLine(tail) == Some(cs)
    ensures ParseLine(QuoteCell(Corrected, c) + [','] + tail) == Some([c] + cs)
  {
    var s := QuoteCell(Corrected, c) + [','] + tail;
    assert s[1..] == Escape(c) + "\"" + ([','] + tail);
    ReadEscaped(c, [','] + tail);
    assert ([','] + tail)[1..] == tail;
  }

  /** The corrected line reads back as exactly its cells. */
  lemma {:induction false} ParseCorrectedLine(cells: seq<string>)
    requires |cells| >= 1
    ensures ParseLine(Line(Corrected, cells)) == Some(cells)
    decreases |cells|
  {
    var quoted := QuoteAll(Corrected, cells);
    if |cells| == 1 {
      assert Line(Corrected, cells) == QuoteCell(Corrected, cells[0]);
      ParseOneCell(cells[0]);
      assert cells == [cells[0]];
    } else {
      assert quoted[1..] == QuoteAll(Corrected, cells[1..]);
      var tail := Line(Corrected, cells[1..]);
      assert Line(Corrected, cells) == QuoteCell(Corrected, cells[0]) + [','] + tail;
      ParseCorrectedLine(cells[1..]);
      ParseCellThen(cells[0], tail, cells[1..]);
      assert cells == [cells[0]] + cells[1..];
    }
  }

  /**
   * As written a quote inside a cell is not doubled, so two different
   * rows can give the same line: one cell holding `a","b` and the two
   * cells `a` and `b` both produce `"a","b"`.
   */
  lemma AsWrittenLineAmbiguous()
    ensures Line(AsWritten, ["a\",\"b"]) == Line(AsWritten, ["a", "b"])
  {
    assert QuoteAll(AsWritten, ["a", "b"])[1..] == QuoteAll(AsWritten, ["b"]);
    assert Line(AsWritten, ["a", "b"]) == "\"a\"" + [','] + "\"b\"";
  }

  /** The corrected line tells the two rows apart. */
  lemma CorrectedLinesDiffer()
    ensures Line(Corrected, ["a\",\"b"]) != Line(Corrected, ["a", "b"])
  {
    ParseCorrectedLine(["a\",\"b"]);
    ParseCorrectedLine(["a", "b"]);
  }

  /** On cells without quotes the two versions write the same line. */
  lemma {:induction false} VersionsAgreeWithoutQuotes(cells: seq<string>)
    requires forall j :: 0 <= j < |cells| ==> '"' !in cells[j]
    ensures QuoteAll(AsWritten, cells) == QuoteAll(Corrected, cells)
    decreases |cells|
  {
    if |cells| > 0 {
      VersionsAgreeWithoutQuotes(cells[1..]);
    }
  }

  /** The summary block of the spreadsheet: count and the four totals, before formatting. */
  datatype SheetSummary = SheetSummary(count: nat, distanceKm: real, durationMin: real, fuel: real, cost: real)

  /** The totals the spreadsheet's summary block computes with its own `reduce` calls. */
  function SheetTotals(rs: seq<RouteResult>): (r: SheetSummary)
    ensures r.count == |rs|
    ensures r.distanceKm == Summary.Sum(rs, Summary.DistanceKm)
    ensures r.durationMin == Summary.Sum(rs, Summary.DurationMin)
  {
    SheetSummary(|rs|, Summary.Reduce(0.0, rs, Summary.DistanceKm), Summary.Reduce(0.0, rs, Summary.DurationMin),
                 Summary.Reduce(0.0, rs, Summary.Fuel), Summary.Reduce(0.0, rs, Summary.Cost))
  }

  /** The spreadsheet's totals are the summary tab's totals. */
  lemma SheetAgreesWithSummary(rs: seq<RouteResult>)
    ensures var sheet := SheetTotals(rs);
            var stats := Summary.CalculateStats(rs);
            && sheet.count == stats.totalRoutes && sheet.distanceKm == stats.totalDistance
            && sheet.durationMin == stats.totalDuration && sheet.fuel == stats.totalFuel
            && sheet.cost == stats.totalCost
  {
  }
}

=== FILE: lrucache.dfy ===
/**
 * The worker's route cache: a least-recently-used map with a per-entry
 * expiry time, kept in a JavaScript `Map` whose insertion order is the
 * recency order (front = least recently used). Expiry is checked lazily,
 * on reads only. The clock is a parameter (`now`, in milliseconds).
 */
module LruCache {
  import opened Wrappers
  import Seqs

  datatype Entry<K, V> = Entry(key: K, value: V, expiry: int)

  /** `entries` in `Map` iteration order; `max` entries at most, each living `ttl` ms. */
  datatype Cache<K, V> = Cache(entries: seq<Entry<K, V>>, max: nat, ttl: int)

  /** Capacity and time-to-live of the worker's route cache (100 entries, 5 minutes). */
  const RouteCacheMax: nat := 100
  const RouteCacheTtl: int := 1000 * 60 * 5

  /** `new LRUCache(max, ttl)`: an empty map. */
  function Empty<K, V>(max: nat, ttl: int): Cache<K, V> {
    Cache([], max, ttl)
  }

  /** `map.get(key)` on the underlying `Map`. */
  function Lookup<K(==,!new), V>(es: seq<Entry<K, V>>, key: K): (r: Option<Entry<K, V>>)
    ensures r.Some? ==> r.value in es && r.value.key == key
  {
    if |es| == 0 then None
    else if es[0].key == key then Some(es[0])
    else Lookup(es[1..], key)
  }

  /** A lookup misses exactly when no entry carries the key. */
  lemma {:induction false} LookupMissIffAbsent<K(!new), V(!new)>(es: seq<Entry<K, V>>, key: K)
    ensures Lookup(es, key).None? <==> forall i :: 0 <= i < |es| ==> es[i].key != key
  {
    if |es| > 0 {
      LookupMissIffAbsent(es[1..], key);
      assert forall i :: 1 <= i < |es| ==> es[i] == es[1..][i - 1];
    }
  }

  /** No key occurs twice: what a `Map` guarantees. */
  predicate UniqueKeys<K(==,!new), V>(es: seq<Entry<K, V>>) {
    |es| == 0 || (Lookup(es[1..], es[0].key).None? && UniqueKeys(es[1..]))
  }

  predicate Valid<K(==,!new), V>(c: Cache<K, V>) {
    UniqueKeys(c.entries) && |c.entries| <= c.max
  }

  /** `map.delete(key)`. */
  function Delete<K(==,!new), V>(es: seq<Entry<K, V>>, key: K): (r: seq<Entry<K, V>>)
    ensures Lookup(r, key).None?
    ensures forall k :: k != key ==> Lookup(r, k) == Lookup(es, k)
    ensures UniqueKeys(es) ==> UniqueKeys(r)
    ensures UniqueKeys(es) ==> |r| == if Lookup(es, key).Some? then |es| - 1 else |es|
    ensures |r| <= |es|
  {
    if |es| == 0 then []
    else if es[0].key == key then Delete(es[1..], key)
    else [es[0]] + Delete(es[1..], key)
  }

  /** `map.set(key, e)` for a key not in the map: appends at the most-recent end. */
  function Push<K(==,!new), V>(es: seq<Entry<K, V>>, e: Entry<K, V>): (r: seq<Entry<K, V>>)
    ensures r == es + [e]
    ensures forall k :: Lookup(r, k) == if Lookup(es, k).Some? then Lookup(es, k)
                                        else if e.key == k then Some(e) else None
    ensures UniqueKeys(es) && Lookup(es, e.key).None? ==> UniqueKeys(r)
  {
    if |es| == 0 then [e] else [es[0]] + Push(es[1..], e)
  }

  /** The entry test "carries a key other than `key`". */
  function KeyIsNot<K(==), V>(key: K): Entry<K, V> -> bool {
    (e: Entry<K, V>) => e.key != key
  }

  /** The entries for every key but `key`, in recency order. */
  function Others<K(==,!new), V(==,!new)>(es: seq<Entry<K, V>>, key: K): seq<Entry<K, V>> {
    Seqs.Filter(es, KeyIsNot(key))
  }

  /** `map.delete(key)` keeps every other entry where it was: it is the filter on the key. */
  lemma {:induction false} DeleteKeepsOrder<K(!new), V(!new)>(es: seq<Entry<K, V>>, key: K)
    ensures Delete(es, key) == Others(es, key)
    decreases |es|
  {
    if |es| > 0 {
      DeleteKeepsOrder(es[1..], key);
      if es[0].key == key {
        assert !KeyIsNot(key)(es[0]);
        assert Others(es, key) == Others(es[1..], key);
      } else {
        assert KeyIsNot(key)(es[0]);
        assert Others(es, key) == [es[0]] + Others(es[1..], key);
      }
    }
  }

  /** Deleting `key` leaves the other entries in their order. */
  lemma DeleteKeepsOthers<K(!new), V(!new)>(es: seq<Entry<K, V>>, key: K)
    ensures Others(Delete(es, key), key) == Others(es, key)
  {
    DeleteKeepsOrder(es, key);
    Seqs.FilterKeepsAll(Delete(es, key), KeyIsNot(key));
  }

  /** Moving the entry for `key` to the end leaves the other entries in their order. */
  lemma MoveKeepsOthers<K(!new), V(!new)>(es: seq<Entry<K, V>>, key: K, e: Entry<K, V>)
    requires e.key == key
    ensures Others(Push(Delete(es, key), e), key) == Others(es, key)
  {
    var d := Delete(es, key);
    DeleteKeepsOthers(es, key);
    Seqs.FilterAppend(d, [e], KeyIsNot(key));
    assert Others([e], key) == [];
  }

  /** Deleting a key that is absent changes nothing. */
  lemma {:induction false} DeleteAbsent<K(!new), V(!new)>(es: seq<Entry<K, V>>, key: K)
    requires Lookup(es, key).None?
    ensures Delete(es, key) == es
    decreases |es|
  {
    if |es| > 0 {
      DeleteAbsent(es[1..], key);
      assert es == [es[0]] + es[1..];
    }
  }

  /** When no entry carries `key`, every entry is another key's. */
  lemma {:induction false} OthersOfAbsent<K(!new), V(!new)>(es: seq<Entry<K, V>>, key: K)
    requires Lookup(es, key).None?
    ensures Others(es, key) == es
    decreases |es|
  {
    if |es| > 0 {
      OthersOfAbsent(es[1..], key);
      assert es == [es[0]] + es[1..];
    }
  }

  /**
   * Evicting the front entry of a map with unique keys and then adding a
   * new key leaves exactly the entries after the front, in their order.
   */
  lemma EvictKeepsOthers<K(!new), V(!new)>(es: seq<Entry<K, V>>, key: K, e: Entry<K, V>)
    requires UniqueKeys(es) && |es| > 0 && Lookup(es, key).None? && e.key == key
    ensures Others(Push(Delete(es, es[0].key), e), key) == es[1..]
  {
    var rest := es[1..];
    DeleteAbsent(rest, es[0].key);
    assert Delete(es, es[0].key) == rest;
    assert Lookup(rest, key).None?;
    OthersOfAbsent(rest, key);
    Seqs.FilterAppend(rest, [e], KeyIsNot(key));
    assert Others([e], key) == [];
  }

  /** The entry for `key` is present and not past its expiry (`now > expiry` means expired). */
  predicate IsLive<K(==,!new), V>(c: Cache<K, V>, key: K, now: int) {
    Lookup(c.entries, key).Some? && now <= Lookup(c.entries, key).value.expiry
  }

  /**
   * `get(key)`: a miss on an absent key changes nothing; an expired entry
   * is deleted and reported as a miss; a live entry is moved to the
   * most-recent end, keeping its expiry, and its value returned.
   */
  function Get<K(==,!new), V(==,!new)>(c: Cache<K, V>, key: K, now: int): (r: (Option<V>, Cache<K, V>))
    ensures r.1.max == c.max && r.1.ttl == c.ttl
    ensures Valid(c) ==> Valid(r.1)
    ensures Lookup(c.entries, key).None? ==> r == (None, c)
    ensures forall k :: k != key ==> Lookup(r.1.entries, k) == Lookup(c.entries, k)
    ensures r.0.Some? <==> IsLive(c, key, now)
    ensures IsLive(c, key, now) ==>
              && r.0.value == Lookup(c.entries, key).value.value
              && Lookup(r.1.entries, key) == Lookup(c.entries, key)
              && |r.1.entries| > 0 && r.1.entries[|r.1.entries| - 1] == Lookup(c.entries, key).value
    ensures Lookup(c.entries, key).Some? && !IsLive(c, key, now) ==> Lookup(r.1.entries, key).None?
    ensures Valid(c) ==> |r.1.entries| == if Lookup(c.entries, key).Some? && !IsLive(c, key, now)
                                          then |c.entries| - 1 else |c.entries|
    ensures Others(r.1.entries, key) == Others(c.entries, key)
  {
    match Lookup(c.entries, key)
    case None => (None, c)
    case Some(e) =>
      if now > e.expiry then
        DeleteKeepsOthers(c.entries, key);
        (None, c.(entries := Delete(c.entries, key)))
      else
        MoveKeepsOthers(c.entries, key, e);
        (Some(e.value), c.(entries := Push(Delete(c.entries, key), e)))
  }

  /**
   * What `set` keeps before adding the new entry: an existing key's entry
   * is deleted; for a new key in a full map the front entry is evicted.
   */
  function Kept<K(==,!new), V>(c: Cache<K, V>, key: K): seq<Entry<K, V>> {
    if Lookup(c.entries, key).Some? then Delete(c.entries, key)
    else if |c.entries| >= c.max && |c.entries| > 0 then Delete(c.entries, c.entries[0].key)
    else c.entries
  }

  /** Without an eviction the other entries keep their order; an eviction drops exactly the front one. */
  lemma SetKeepsOthers<K(!new), V(!new)>(c: Cache<K, V>, key: K, e: Entry<K, V>)
    requires e.key == key
    ensures Lookup(c.entries, key).Some? || |c.entries| < c.max || |c.entries| == 0 ==>
              Others(Push(Kept(c, key), e), key) == Others(c.entries, key)
    ensures Valid(c) && Lookup(c.entries, key).None? && |c.entries| >= c.max && |c.entries| > 0 ==>
              Others(Push(Kept(c, key), e), key) == c.entries[1..]
  {
    if Lookup(c.entries, key).Some? || |c.entries| < c.max || |c.entries| == 0 {
      if Lookup(c.entries, key).None? {
        DeleteAbsent(c.entries, key);
      }
      MoveKeepsOthers(c.entries, key, e);
    } else if Valid(c) {
      EvictKeepsOthers(c.entries, key, e);
    }
  }

  /**
   * `set(key, value)`: an existing key is deleted and re-inserted at the
   * most-recent end; a new key, when the map already holds `max` entries,
   * first evicts the least recently used (front) entry. The new entry
   * expires `ttl` after `now`.
   */
  function Set<K(==,!new), V(==,!new)>(c: Cache<K, V>, key: K, value: V, now: int): (r: Cache<K, V>)
    ensures r.max == c.max && r.ttl == c.ttl
    ensures |r.entries| > 0 && r.entries[|r.entries| - 1] == Entry(key, value, now + c.ttl)
    ensures Lookup(r.entries, key) == Some(Entry(key, value, now + c.ttl))
    ensures Valid(c) && c.max >= 1 ==> Valid(r)
    ensures Valid(c) && Lookup(c.entries, key).Some? ==>
              |r.entries| == |c.entries| && forall k :: k != key ==> Lookup(r.entries, k) == Lookup(c.entries, k)
    ensures Valid(c) && Lookup(c.entries, key).None? && |c.entries| < c.max ==>
              |r.entries| == |c.entries| + 1 && forall k :: k != key ==> Lookup(r.entries, k) == Lookup(c.entries, k)
    ensures Valid(c) && Lookup(c.entries, key).None? && |c.entries| >= c.max && |c.entries| > 0 ==>
              && |r.entries| == |c.entries|
              && Lookup(r.entries, c.entries[0].key).None?
              && forall k :: k != key && k != c.entries[0].key ==> Lookup(r.entries, k) == Lookup(c.entries, k)
    ensures Lookup(c.entries, key).Some? || |c.entries| < c.max || |c.entries| == 0 ==>
              Others(r.entries, key) == Others(c.entries, key)
    ensures Valid(c) && Lookup(c.entries, key).None? && |c.entries| >= c.max && |c.entries| > 0 ==>
              Others(r.entries, key) == c.entries[1..]
  {
    SetKeepsOthers(c, key, Entry(key, value, now + c.ttl));
    c.(entries := Push(Kept(c, key), Entry(key, value, now + c.ttl)))
  }

  /** A `set` after a `get` of the same key stores the new entry, expiring `ttl` after the second clock reading. */
  lemma SetAfterGet<K(!new), V(!new)>(c: Cache<K, V>, key: K, value: V, now: int, later: int)
    ensures Lookup(Set(Get(c, key, now).1, key, value, later).entries, key) == Some(Entry(key, value, later + c.ttl))
  {
  }

  /** What `set` stored is served by any `get` up to and including its expiry time. */
  lemma SetThenGet<K(!new), V(!new)>(c: Cache<K, V>, key: K, value: V, now: int, later: int)
    requires later <= now + c.ttl
    ensures Get(Set(c, key, value, now), key, later).0 == Some(value)
  {
  }

  /** A `get` exactly at the expiry time still serves the entry; one millisecond later it is gone. */
  lemma ExpiryBoundary<K(!new), V(!new)>(c: Cache<K, V>, key: K, e: Entry<K, V>)
    requires Lookup(c.entries, key) == Some(e)
    ensures Get(c, key, e.expiry).0 == Some(e.value)
    ensures Get(c, key, e.expiry + 1).0 == None
    ensures Lookup(Get(c, key, e.expiry + 1).1.entries, key).None?
  {
  }

  /** Once full, every insertion of a new key evicts exactly the front key and the size stays at `max`. */
  lemma FullCacheStaysFull<K(!new), V(!new)>(c: Cache<K, V>, key: K, value: V, now: int)
    requires Valid(c) && c.max >= 1 && |c.entries| == c.max
    requires Lookup(c.entries, key).None?
    ensures |Set(c, key, value, now).entries| == c.max
    ensures Lookup(Set(c, key, value, now).entries, c.entries[0].key).None?
    ensures forall i :: 1 <= i < |c.entries| ==>
              Lookup(Set(c, key, value, now).entries, c.entries[i].key) == Some(c.entries[i])
  {
    var r := Set(c, key, value, now);
    forall i | 1 <= i < |c.entries|
      ensures Lookup(r.entries, c.entries[i].key) == Some(c.entries[i])
    {
      UniqueAt(c.entries, i);
    }
  }

  /**
   * Least recently used: in a full map of at least two entries, a key that
   * was just read is not the one the next insertion of a new key evicts.
   */
  lemma ReadKeyNotEvictedNext<K(!new), V(!new)>(c: Cache<K, V>, k: K, key: K, value: V, now: int, later: int)
    requires Valid(c) && c.max >= 2 && |c.entries| == c.max
    requires IsLive(c, k, now) && key != k && Lookup(c.entries, key).None?
    ensures Lookup(Set(Get(c, k, now).1, key, value, later).entries, k) == Lookup(c.entries, k)
  {
    var g := Get(c, k, now).1;
    var n := |g.entries|;
    assert n == c.max;
    assert g.entries[n - 1].key == k;
    UniqueAt(g.entries, n - 1);
  }

  /** In a map with unique keys, looking up the key at position `i` finds that entry. */
  lemma {:induction false} UniqueAt<K(!new), V(!new)>(es: seq<Entry<K, V>>, i: nat)
    requires UniqueKeys(es) && i < |es|
    ensures Lookup(es, es[i].key) == Some(es[i])
    ensures i > 0 ==> es[i].key != es[0].key
    decreases i
  {
    if i > 0 {
      UniqueAt(es[1..], i - 1);
      assert es[1..][i - 1] == es[i];
    }
  }
}

=== FILE: polyline.dfy ===
/**
 * Decoder for the Encoded Polyline Algorithm Format used by Valhalla's
 * `shape` field: each coordinate delta is zig-zag encoded and written as
 * 5-bit groups, least significant first, each offset by 63, with 0x20
 * marking "more groups follow". Values are unbounded integers here.
 *
 * Reading past the end of the string is modelled as JavaScript does it:
 * `charCodeAt` yields NaN, `NaN & 0x1f` is 0 and `NaN >= 0x20` is false,
 * so a missing character contributes nothing and ends the value.
 */
module Polyline {

  /** Coordinates are divided by 1e5 (five decimal places). */
  const Precision: real := 100000.0

  /** One decoded point, in the `[lng, lat]` order the router returns. */
  type Point = (real, real)

  /**
   * Reads one value starting at index `i`: `(value, next index)`.
   * `b & 0x1f` on the 32-bit integer `b` equals `b % 32` (Euclidean).
   */
  function ReadValue(s: string, i: nat): (r: (int, nat))
    ensures r.1 > i
    ensures r.0 >= 0
    decreases |s| - i
  {
    if i >= |s| then (0, i + 1)
    else
      var b := s[i] as int - 63;
      if b >= 0x20 then
        var rest := ReadValue(s, i + 1);
        (b % 32 + 32 * rest.0, rest.1)
      else (b % 32, i + 1)
  }

  /** `(r & 1) ? ~(r >> 1) : (r >> 1)` for a non-negative `r`; `~x` is `-x - 1`. */
  function ZigZagDecode(r: nat): int {
    if r % 2 == 1 then -(r / 2) - 1 else r / 2
  }

  /** Decodes the rest of the string from index `i`, given the running sums so far. */
  function DecodeFrom(s: string, i: nat, lat: int, lng: int): (r: seq<Point>)
    decreases |s| - i
  {
    if i >= |s| then []
    else
      var (dLat, i1) := ReadValue(s, i);
      var lat' := lat + ZigZagDecode(dLat);
      var (dLng, i2) := ReadValue(s, i1);
      var lng' := lng + ZigZagDecode(dLng);
      [(lng' as real / Precision, lat' as real / Precision)] + DecodeFrom(s, i2, lat', lng')
  }

  /** `decodePolyline(encoded)`. */
  function Decode(s: string): seq<Point> {
    DecodeFrom(s, 0, 0, 0)
  }

  // ---- The standard encoder, the decoder's partner ----

  /** Zig-zag: non-negative `v` becomes `2v`, negative `v` becomes `-2v - 1`. */
  function ZigZagEncode(v: int): (r: nat)
    ensures ZigZagDecode(r) == v
  {
    if v < 0 then -2 * v - 1 else 2 * v
  }

  /** The 5-bit groups of `v`, least significant first, each offset by 63, 0x20 on all but the last. */
  function EncodeValue(v: nat): (r: string)
    ensures |r| >= 1
  {
    if v >= 0x20 then [(v % 32 + 0x20 + 63) as char] + EncodeValue(v / 32)
    else [(v + 63) as char]
  }

  /** A point delta: latitude then longitude, in units of 1e-5 degrees. */
  type Delta = (int, int)

  function EncodeDeltas(ds: seq<Delta>): string {
    if |ds| == 0 then ""
    else EncodeValue(ZigZagEncode(ds[0].0)) + EncodeValue(ZigZagEncode(ds[0].1)) + EncodeDeltas(ds[1..])
  }

  /** The points the deltas describe: running sums from `(lat, lng)`, emitted as `[lng, lat]` / 1e5. */
  function PrefixPoints(ds: seq<Delta>, lat: int, lng: int): (r: seq<Point>)
    ensures |r| == |ds|
  {
    if |ds| == 0 then []
    else
      var lat' := lat + ds[0].0;
      var lng' := lng + ds[0].1;
      [(lng' as real / Precision, lat' as real / Precision)] + PrefixPoints(ds[1..], lat', lng')
  }

  /** Reading an encoded value back, wherever it sits in the string, yields the value and the index after it. */
  lemma {:induction false} ReadEncoded(s: string, i: nat, v: nat)
    requires i + |EncodeValue(v)| <= |s|
    requires s[i..i + |EncodeValue(v)|] == EncodeValue(v)
    ensures ReadValue(s, i) == (v, i + |EncodeValue(v)|)
    decreases v
  {
    var e := EncodeValue(v);
    assert s[i] == e[0];
    if v >= 0x20 {
      var e' := EncodeValue(v / 32);
      assert e[1..] == e';
      assert s[i + 1..i + 1 + |e'|] == s[i..i + |e|][1..];
      ReadEncoded(s, i + 1, v / 32);
      var b := s[i] as int - 63;
      assert b == v % 32 + 32;
      assert b % 32 == v % 32;
      assert v == v % 32 + 32 * (v / 32);
    } else {
      assert s[i] as int - 63 == v;
    }
  }

  /** `ReadEncoded` with the encoding named. */
  lemma ReadEncodedAt(s: string, i: nat, v: nat, e: string)
    requires e == EncodeValue(v) && i + |e| <= |s| && s[i..i + |e|] == e
    ensures ReadValue(s, i).0 == v && ReadValue(s, i).1 == i + |e|
  {
    ReadEncoded(s, i, v);
  }

  /** One step of the decoding loop: read the latitude delta, then the longitude delta, emit a point. */
  lemma DecodeStep(s: string, i: nat, lat: int, lng: int, a: nat, i1: nat, b: nat, i2: nat)
    requires i < |s|
    requires ReadValue(s, i).0 == a && ReadValue(s, i).1 == i1
    requires ReadValue(s, i1).0 == b && ReadValue(s, i1).1 == i2
    ensures DecodeFrom(s, i, lat, lng)
            == [((lng + ZigZagDecode(b)) as real / Precision, (lat + ZigZagDecode(a)) as real / Precision)]
               + DecodeFrom(s, i2, lat + ZigZagDecode(a), lng + ZigZagDecode(b))
  {
  }

  /** The second and third parts of a four-part concatenation, sliced back out. */
  lemma SliceParts(a: string, b: string, c: string, d: string)
    ensures (a + b + c + d)[|a|..|a| + |b|] == b
    ensures (a + b + c + d)[|a| + |b|..|a| + |b| + |c|] == c
  {
  }

  /** An encoded list is its first delta pair's two values followed by the rest. */
  lemma EncodedSplit(pre: string, ds: seq<Delta>, e1: string, e2: string)
    requires |ds| > 0
    requires e1 == EncodeValue(ZigZagEncode(ds[0].0)) && e2 == EncodeValue(ZigZagEncode(ds[0].1))
    ensures pre + EncodeDeltas(ds) == pre + e1 + e2 + EncodeDeltas(ds[1..])
  {
    var tail := EncodeDeltas(ds[1..]);
    assert EncodeDeltas(ds) == e1 + e2 + tail;
    Regroup(pre, e1, e2, tail);
  }

  /** Concatenation regrouped: the one fact of associativity the proofs above need. */
  lemma Regroup(p: string, x: string, y: string, t: string)
    ensures p + (x + y + t) == p + x + y + t
  {
  }

  /** The first value of an encoded list `s` is read back from just after `pre`. */
  lemma ReadFirstValue(s: string, pre: string, ds: seq<Delta>, e1: string, e2: string)
    requires |ds| > 0 && s == pre + EncodeDeltas(ds)
    requires e1 == EncodeValue(ZigZagEncode(ds[0].0)) && e2 == EncodeValue(ZigZagEncode(ds[0].1))
    ensures ReadValue(s, |pre|).0 == ZigZagEncode(ds[0].0)
    ensures ReadValue(s, |pre|).1 == |pre| + |e1|
  {
    EncodedSplit(pre, ds, e1, e2);
    SliceParts(pre, e1, e2, EncodeDeltas(ds[1..]));
    ReadEncodedAt(s, |pre|, ZigZagEncode(ds[0].0), e1);
  }

  /** The second value follows straight after the first. */
  lemma ReadSecondValue(s: string, pre: string, ds: seq<Delta>, e1: string, e2: string)
    requires |ds| > 0 && s == pre + EncodeDeltas(ds)
    requires e1 == EncodeValue(ZigZagEncode(ds[0].0)) && e2 == EncodeValue(ZigZagEncode(ds[0].1))
    ensures ReadValue(s, |pre| + |e1|).0 == ZigZagEncode(ds[0].1)
    ensures ReadValue(s, |pre| + |e1|).1 == |pre| + |e1| + |e2|
  {
    EncodedSplit(pre, ds, e1, e2);
    SliceParts(pre, e1, e2, EncodeDeltas(ds[1..]));
    ReadEncodedAt(s, |pre| + |e1|, ZigZagEncode(ds[0].1), e2);
  }

  /** Decoding an encoded list emits the first delta's point, then carries on after its two values. */
  lemma DecodeHead(pre: string, pre': string, ds: seq<Delta>, lat: int, lng: int)
    requires |ds| > 0
    requires pre' == pre + EncodeValue(ZigZagEncode(ds[0].0)) + EncodeValue(ZigZagEncode(ds[0].1))
    ensures DecodeFrom(pre + EncodeDeltas(ds), |pre|, lat, lng)
            == [((lng + ds[0].1) as real / Precision, (lat + ds[0].0) as real / Precision)]
               + DecodeFrom(pre' + EncodeDeltas(ds[1..]), |pre'|, lat + ds[0].0, lng + ds[0].1)
  {
    var e1 := EncodeValue(ZigZagEncode(ds[0].0));
    var e2 := EncodeValue(ZigZagEncode(ds[0].1));
    var s := pre + EncodeDeltas(ds);
    EncodedSplit(pre, ds, e1, e2);
    ReadFirstValue(s, pre, ds, e1, e2);
    ReadSecondValue(s, pre, ds, e1, e2);
    DecodeStep(s, |pre|, lat, lng, ZigZagEncode(ds[0].0), |pre| + |e1|, ZigZagEncode(ds[0].1), |pre'|);
  }

  /** If the rest decodes to its running sums, so does the whole list. */
  lemma DecodeHeadThenRest(pre: string, pre': string, ds: seq<Delta>, lat: int, lng: int)
    requires |ds| > 0
    requires pre' == pre + EncodeValue(ZigZagEncode(ds[0].0)) + EncodeValue(ZigZagEncode(ds[0].1))
    requires DecodeFrom(pre' + EncodeDeltas(ds[1..]), |pre'|, lat + ds[0].0, lng + ds[0].1)
             == PrefixPoints(ds[1..], lat + ds[0].0, lng + ds[0].1)
    ensures DecodeFrom(pre + EncodeDeltas(ds), |pre|, lat, lng) == PrefixPoints(ds, lat, lng)
  {
    DecodeHead(pre, pre', ds, lat, lng);
  }

  /** Nothing is decoded once the index reaches the end. */
  lemma DecodeNothingMore(pre: string, lat: int, lng: int)
    ensures DecodeFrom(pre + EncodeDeltas([]), |pre|, lat, lng) == []
  {
    assert pre + EncodeDeltas([]) == pre;
  }

  lemma {:induction false} DecodeEncodedFrom(pre: string, ds: seq<Delta>, lat: int, lng: int)
    ensures DecodeFrom(pre + EncodeDeltas(ds), |pre|, lat, lng) == PrefixPoints(ds, lat, lng)
    decreases |ds|
  {
    if |ds| > 0 {
      var lat', lng' := lat + ds[0].0, lng + ds[0].1;
      var pre' := pre + EncodeValue(ZigZagEncode(ds[0].0)) + EncodeValue(ZigZagEncode(ds[0].1));
      DecodeEncodedFrom(pre', ds[1..], lat', lng');
      DecodeHeadThenRest(pre, pre', ds, lat, lng);
    } else {
      DecodeNothingMore(pre, lat, lng);
    }
  }

  /** Decoding the standard encoding of a delta list yields its running sums, scaled by 1e-5, as `[lng, lat]`. */
  lemma DecodeEncoded(ds: seq<Delta>)
    ensures Decode(EncodeDeltas(ds)) == PrefixPoints(ds, 0, 0)
  {
    assert "" + EncodeDeltas(ds) == EncodeDeltas(ds);
    DecodeEncodedFrom("", ds, 0, 0);
  }

  /** One decoded point per encoded delta pair. */
  lemma DecodedLength(ds: seq<Delta>)
    ensures |Decode(EncodeDeltas(ds))| == |ds|
  {
    DecodeEncoded(ds);
  }

  /** A value is continued while the character code is at least 63 + 0x20, i.e. `'_'` (95) or above. */
  lemma ReadSingleGroup(s: string, i: nat)
    requires i < |s| && 63 <= s[i] as int < 95
    ensures ReadValue(s, i) == (s[i] as int - 63, i + 1)
  {
  }

  /** The reference example of the format: `_p~iF~ps|U_ulLnnqC_mqNvxq`@` decodes to the `[lng, lat]` points (-120.2, 38.5), (-120.95, 40.7), (-126.453, 43.252). */
  lemma ReferenceExample()
    ensures Decode("_p~iF~ps|U_ulLnnqC_mqNvxq`@")
            == [(-120.2, 38.5), (-120.95, 40.7), (-126.453, 43.252)]
  {
    var ds: seq<Delta> := [(3850000, -12020000), (220000, -75000), (255200, -550300)];
    ReferenceEncoding();
    DecodeEncoded(ds);
    assert PrefixPoints(ds, 0, 0) == [(-120.2, 38.5), (-120.95, 40.7), (-126.453, 43.252)];
  }

  /** The delta list behind the reference example encodes to the reference string. */
  lemma ReferenceEncoding()
    ensures EncodeDeltas([(3850000, -12020000), (220000, -75000), (255200, -550300)])
            == "_p~iF~ps|U_ulLnnqC_mqNvxq`@"
  {
    var ds: seq<Delta> := [(3850000, -12020000), (220000, -75000), (255200, -550300)];
    FirstPointValues();
    EncodeLastTwo();
    assert ZigZagEncode(ds[0].0) == 7700000 && ZigZagEncode(ds[0].1) == 24039999;
    assert ds[1..] == [(220000, -75000), (255200, -550300)];
  }

  lemma EncodeLastTwo()
    ensures EncodeDeltas([(220000, -75000), (255200, -550300)]) == "_ulLnnqC_mqNvxq`@"
  {
    var ds: seq<Delta> := [(220000, -75000), (255200, -550300)];
    SecondPointValues();
    EncodeLastOne();
    assert ds[1..] == [(255200, -550300)];
  }

  lemma EncodeLastOne()
    ensures EncodeDeltas([(255200, -550300)]) == "_mqNvxq`@"
  {
    var ds: seq<Delta> := [(255200, -550300)];
    ThirdPointValues();
    assert ds[1..] == [];
  }

  /** The two values of each reference point, unrolled one point at a time. */
  lemma FirstPointValues()
    ensures EncodeValue(7700000) == "_p~iF" && EncodeValue(24039999) == "~ps|U"
  {
    assert EncodeValue(7700000) == "_p~iF";
  }

  lemma SecondPointValues()
    ensures EncodeValue(440000) == "_ulL" && EncodeValue(149999) == "nnqC"
  {
    assert EncodeValue(440000) == "_ulL";
  }

  lemma ThirdPointValues()
    ensures EncodeValue(510400) == "_mqN" && EncodeValue(1100599) == "vxq`@"
  {
    assert EncodeValue(510400) == "_mqN";
  }
}

=== FILE: routing.dfy ===
/**
 * Route resolution and formatting, shared by the main-thread routing
 * service and the worker's copy of it.
 *
 * The network is an input: `Network` gives, for every provider call, the
 * reply that call receives (an unreachable host or a timeout included),
 * and the Haversine distance in kilometres between two points. Requests
 * are therefore deterministic and every function here is total.
 */
module Routing {
  import opened Wrappers
  import Polyline

  datatype Coordinates = Coordinates(lat: real, lng: real)

  /** A driving route: `[lng, lat]` points, metres and seconds. */
  datatype RouteResponse = RouteResponse(coordinates: seq<Polyline.Point>, distance: real, duration: real)

  /** One element of an OSRM reply's `routes` array. */
  datatype OsrmRoute = OsrmRoute(coordinates: seq<Polyline.Point>, distance: real, duration: real)

  /** What an OSRM `GET` yields: no usable reply at all, or an HTTP status and the parsed `routes`. */
  datatype OsrmReply = OsrmUnreachable | OsrmReply(ok: bool, routes: Option<seq<OsrmRoute>>)

  /** One element of a Valhalla reply's `trip.legs`: encoded shape, kilometres, seconds. */
  datatype ValhallaLeg = ValhallaLeg(shape: string, length: real, time: real)

  /** What a Valhalla `POST` yields; `legs` is `None` when `trip` or `trip.legs` is missing. */
  datatype ValhallaReply = ValhallaUnreachable | ValhallaReply(ok: bool, legs: Option<seq<ValhallaLeg>>)

  datatype Network = Network(
    osrm: (string, Coordinates, Coordinates) -> OsrmReply,
    valhalla: (Coordinates, Coordinates) -> ValhallaReply,
    haversineKm: (Coordinates, Coordinates) -> real)

  /** The OSRM mirrors, in the order they are tried. */
  const OsrmMirrors: seq<string> := [
    "https://router.project-osrm.org/route/v1/driving",
    "https://osrm.router.place/route/v1/driving",
    "https://routing.openstreetmap.de/routed-car/route/v1/driving"
  ]

  /** `calculateWithOSRM`: fails on a non-OK status or a missing or empty `routes`, else takes `routes[0]`. */
  function CallOsrm(reply: OsrmReply): (r: Option<RouteResponse>)
    ensures r.Some? <==> reply.OsrmReply? && reply.ok && reply.routes.Some? && |reply.routes.value| > 0
    ensures r.Some? ==> var first := reply.routes.value[0];
                        r.value == RouteResponse(first.coordinates, first.distance, first.duration)
  {
    match reply
    case OsrmUnreachable => None
    case OsrmReply(ok, routes) =>
      if !ok || routes.None? || |routes.value| == 0 then None
      else Some(RouteResponse(routes.value[0].coordinates, routes.value[0].distance, routes.value[0].duration))
  }

  /**
   * `calculateWithValhalla`: fails like OSRM; otherwise the first leg's
   * decoded shape, its length converted from kilometres to metres, and its time.
   */
  function CallValhalla(reply: ValhallaReply): (r: Option<RouteResponse>)
    ensures r.Some? <==> reply.ValhallaReply? && reply.ok && reply.legs.Some? && |reply.legs.value| > 0
    ensures r.Some? ==> var leg := reply.legs.value[0];
                        && r.value.distance == leg.length * 1000.0
                        && r.value.duration == leg.time
                        && r.value.coordinates == Polyline.Decode(leg.shape)
  {
    match reply
    case ValhallaUnreachable => None
    case ValhallaReply(ok, legs) =>
      if !ok || legs.None? || |legs.value| == 0 then None
      else
        var leg := legs.value[0];
        Some(RouteResponse(Polyline.Decode(leg.shape), leg.length * 1000.0, leg.time))
  }

  /** A provider call that was made. */
  datatype Attempt = TriedOsrm(url: string) | TriedValhalla

  /** Which step of the fallback chain produced the route. */
  datatype Source = ViaOsrm(mirror: nat) | ViaValhalla | ViaDirect

  datatype Resolution = Resolution(route: RouteResponse, source: Source, tried: seq<Attempt>)

  predicate OsrmFails(net: Network, url: string, start: Coordinates, end: Coordinates) {
    CallOsrm(net.osrm(url, start, end)).None?
  }

  /** `tried` is exactly one OSRM attempt per mirror of `mirrors[..n]`, in order. */
  predicate TriedMirrors(tried: seq<Attempt>, mirrors: seq<string>, n: nat) {
    n <= |mirrors| && |tried| == n && forall j :: 0 <= j < n ==> tried[j] == TriedOsrm(mirrors[j])
  }

  /**
   * The `for ... of` loop over the mirrors: the first success is returned
   * with its position, and no later mirror is called.
   */
  function TryMirrors(net: Network, mirrors: seq<string>, start: Coordinates, end: Coordinates)
    : (r: (Option<(RouteResponse, nat)>, seq<Attempt>))
    ensures r.0.None? ==> TriedMirrors(r.1, mirrors, |mirrors|)
                          && forall j :: 0 <= j < |mirrors| ==> OsrmFails(net, mirrors[j], start, end)
    ensures r.0.Some? ==> var k := r.0.value.1;
                          && k < |mirrors| && TriedMirrors(r.1, mirrors, k + 1)
                          && CallOsrm(net.osrm(mirrors[k], start, end)) == Some(r.0.value.0)
                          && forall j :: 0 <= j < k ==> OsrmFails(net, mirrors[j], start, end)
    decreases |mirrors|
  {
    if |mirrors| == 0 then (None, [])
    else
      match CallOsrm(net.osrm(mirrors[0], start, end))
      case Some(route) => (Some((route, 0)), [TriedOsrm(mirrors[0])])
      case None =>
        var rest := TryMirrors(net, mirrors[1..], start, end);
        var found := if rest.0.Some? then Some((rest.0.value.0, rest.0.value.1 + 1)) else None;
        var tried := [TriedOsrm(mirrors[0])] + rest.1;
        assert forall j :: 1 <= j < |tried| ==> tried[j] == rest.1[j - 1];
        (found, tried)
  }

  /** The straight line used when no provider answers: `km * 1000` metres and 2 minutes (120 s) per km. */
  function DirectRoute(net: Network, start: Coordinates, end: Coordinates): (r: RouteResponse)
    ensures |r.coordinates| == 2
    ensures r.coordinates[0] == (start.lng, start.lat) && r.coordinates[1] == (end.lng, end.lat)
    ensures r.distance / 1000.0 == net.haversineKm(start, end)
    ensures r.duration == 120.0 * (r.distance / 1000.0)
  {
    var km := net.haversineKm(start, end);
    RouteResponse([(start.lng, start.lat), (end.lng, end.lat)], km * 1000.0, km * 120.0)
  }

  /** The trace of a resolution that reached Valhalla: all three mirrors, then Valhalla. */
  function FullTrace(): seq<Attempt> {
    [TriedOsrm(OsrmMirrors[0]), TriedOsrm(OsrmMirrors[1]), TriedOsrm(OsrmMirrors[2]), TriedValhalla]
  }

  /**
   * `calculateSingleRoute` of the main-thread service: the OSRM mirrors in
   * order, then Valhalla, then the straight line. It never fails.
   */
  function ResolveMain(net: Network, start: Coordinates, end: Coordinates): (r: Resolution)
    ensures r.source.ViaOsrm? ==> var k := r.source.mirror;
              && k < |OsrmMirrors| && TriedMirrors(r.tried, OsrmMirrors, k + 1)
              && CallOsrm(net.osrm(OsrmMirrors[k], start, end)) == Some(r.route)
              && forall j :: 0 <= j < k ==> OsrmFails(net, OsrmMirrors[j], start, end)
    ensures !r.source.ViaOsrm? ==>
              && r.tried == FullTrace()
              && forall j :: 0 <= j < |OsrmMirrors| ==> OsrmFails(net, OsrmMirrors[j], start, end)
    ensures r.source.ViaValhalla? ==> CallValhalla(net.valhalla(start, end)) == Some(r.route)
    ensures r.source.ViaDirect? <==> !r.source.ViaOsrm? && CallValhalla(net.valhalla(start, end)).None?
    ensures r.source.ViaDirect? ==> r.route == DirectRoute(net, start, end)
  {
    var (osrm, tried) := TryMirrors(net, OsrmMirrors, start, end);
    if osrm.Some? then Resolution(osrm.value.0, ViaOsrm(osrm.value.1), tried)
    else
      assert tried == FullTrace()[..3];
      match CallValhalla(net.valhalla(start, end))
      case Some(route) => Resolution(route, ViaValhalla, tried + [TriedValhalla])
      case None => Resolution(DirectRoute(net, start, end), ViaDirect, tried + [TriedValhalla])
  }

  /**
   * `calculateSingleRoute` of the worker's copy: the OSRM mirrors in order,
   * then the straight line. Valhalla is never called.
   */
  function ResolveWorker(net: Network, start: Coordinates, end: Coordinates): (r: Resolution)
    ensures !r.source.ViaValhalla? && TriedValhalla !in r.tried
    ensures r.source.ViaOsrm? ==> var k := r.source.mirror;
              && k < |OsrmMirrors| && TriedMirrors(r.tried, OsrmMirrors, k + 1)
              && CallOsrm(net.osrm(OsrmMirrors[k], start, end)) == Some(r.route)
              && forall j :: 0 <= j < k ==> OsrmFails(net, OsrmMirrors[j], start, end)
    ensures r.source.ViaDirect? <==> forall j :: 0 <= j < |OsrmMirrors| ==> OsrmFails(net, OsrmMirrors[j], start, end)
    ensures r.source.ViaDirect? ==> r.route == DirectRoute(net, start, end)
                                    && TriedMirrors(r.tried, OsrmMirrors, |OsrmMirrors|)
  {
    var (osrm, tried) := TryMirrors(net, OsrmMirrors, start, end);
    if osrm.Some? then Resolution(osrm.value.0, ViaOsrm(osrm.value.1), tried)
    else Resolution(DirectRoute(net, start, end), ViaDirect, tried)
  }

  /** Which copy of the service resolves the routes. */
  datatype Router = MainThread | InWorker

  function Resolve(router: Router, net: Network, start: Coordinates, end: Coordinates): Resolution {
    match router
    case MainThread => ResolveMain(net, start, end)
    case InWorker => ResolveWorker(net, start, end)
  }

  // ---- Result records ----

  datatype DestinationKind = StationKind | CustomKind

  /** `'Schnellste'` (fastest) or `'Kürzeste'` (shortest). */
  datatype RouteType = Fastest | Shortest {
    function Label(): string {
      match this
      case Fastest => "Schnellste"
      case Shortest => "Kürzeste"
    }
  }

  /** `'OSRM'` or `'Direct'`. */
  datatype Provider = ProviderOsrm | ProviderDirect {
    function Label(): string {
      match this
      case ProviderOsrm => "OSRM"
      case ProviderDirect => "Direct"
    }
  }

  /** The fields of a station or custom address the formatter reads, resolved by the caller. */
  datatype Target = Target(id: string, name: string, address: string, coordinates: Coordinates)

  datatype RouteResult = RouteResult(
    id: string,
    destinationId: string,
    destinationName: string,
    destinationType: DestinationKind,
    address: string,
    coordinates: Coordinates,
    color: string,
    routeType: RouteType,
    provider: Provider,
    distance: real,
    duration: int,
    estimatedFuel: real,
    estimatedCost: real,
    route: RouteResponse)

  /** Litres of fuel per kilometre and price per litre. */
  const FuelPerKm: real := 0.095
  const PricePerLitre: real := 1.75

  const Palette: seq<string> := [
    "#3B82F6", "#EF4444", "#10B981", "#F59E0B", "#8B5CF6",
    "#06B6D4", "#84CC16", "#F97316", "#EC4899", "#6366F1"
  ]

  /** `Math.round`: halves round up. */
  function Round(x: real): (r: int)
    ensures x - 0.5 < r as real <= x + 0.5
  {
    (x + 0.5).Floor
  }

  /** `generateRouteColor(index)`: the palette, cycling every ten. */
  function GenerateRouteColor(index: nat): (r: string)
    ensures r in Palette
  {
    Palette[index % |Palette|]
  }

  /** `id` of a result: `station-<id>` or `custom-<id>`. */
  function ResultId(kind: DestinationKind, id: string): string {
    (if kind == StationKind then "station-" else "custom-") + id
  }

  /** Fuel and cost follow from the distance: `fuel = km * 0.095` and `cost = fuel * 1.75`. */
  predicate Costed(r: RouteResult) {
    r.estimatedFuel == r.distance * FuelPerKm && r.estimatedCost == r.estimatedFuel * PricePerLitre
  }

  /** The identifying fields copied from the destination, and the colour for `index`. */
  predicate Describes(r: RouteResult, t: Target, kind: DestinationKind, index: nat) {
    && r.id == ResultId(kind, t.id) && r.destinationId == t.id && r.destinationName == t.name
    && r.destinationType == kind && r.address == t.address && r.coordinates == t.coordinates
    && r.color == GenerateRouteColor(index)
  }

  /**
   * `formatRouteResult`: metres to kilometres, seconds to whole minutes,
   * labelled fastest via OSRM. The branch for a missing route gives a
   * zero-length result labelled `Direct`.
   */
  function FormatRouteResult(t: Target, route: Option<RouteResponse>, kind: DestinationKind, index: nat)
    : (r: RouteResult)
    ensures Describes(r, t, kind, index) && Costed(r) && r.routeType == Fastest
    ensures route.Some? ==> && r.distance == route.value.distance / 1000.0
                            && r.duration == Round(route.value.duration / 60.0)
                            && r.provider == ProviderOsrm && r.route == route.value
    ensures route.None? ==> r.distance == 0.0 && r.duration == 0 && r.provider == ProviderDirect
  {
    match route
    case Some(rt) =>
      var km := rt.distance / 1000.0;
      RouteResult(ResultId(kind, t.id), t.id, t.name, kind, t.address, t.coordinates,
                  GenerateRouteColor(index), Fastest, ProviderOsrm,
                  km, Round(rt.duration / 60.0), km * FuelPerKm, km * FuelPerKm * PricePerLitre, rt)
    case None =>
      var here := (t.coordinates.lng, t.coordinates.lat);
      RouteResult(ResultId(kind, t.id), t.id, t.name, kind, t.address, t.coordinates,
                  GenerateRouteColor(index), Fastest, ProviderDirect,
                  0.0, Round(0.0 * 2.0), 0.0 * FuelPerKm, 0.0 * FuelPerKm * PricePerLitre,
                  RouteResponse([here, here], 0.0 * 1000.0, 0.0 * 120.0))
  }

  /**
   * `createFallbackResult`: the straight-line distance, 2 minutes per km,
   * labelled shortest via `Direct`.
   */
  function CreateFallbackResult(net: Network, t: Target, start: Coordinates, kind: DestinationKind, index: nat)
    : (r: RouteResult)
    ensures Describes(r, t, kind, index) && Costed(r)
    ensures r.distance == net.haversineKm(start, t.coordinates)
    ensures r.duration == Round(2.0 * r.distance)
    ensures r.routeType == Shortest && r.provider == ProviderDirect
    ensures r.route == DirectRoute(net, start, t.coordinates)
  {
    var km := net.haversineKm(start, t.coordinates);
    RouteResult(ResultId(kind, t.id), t.id, t.name, kind, t.address, t.coordinates,
                GenerateRouteColor(index), Shortest, ProviderDirect,
                km, Round(km * 2.0), km * FuelPerKm, km * FuelPerKm * PricePerLitre,
                RouteResponse([(start.lng, start.lat), (t.coordinates.lng, t.coordinates.lat)],
                              km * 1000.0, km * 120.0))
  }

  /**
   * Formatting the router's own straight-line route gives exactly the
   * catch path's result except for the two labels: `round(km*120/60)` is
   * `round(km*2)` and `(km*1000)/1000` is `km`.
   */
  lemma DirectFormattingAgrees(net: Network, t: Target, start: Coordinates, kind: DestinationKind, index: nat)
    ensures FormatRouteResult(t, Some(DirectRoute(net, start, t.coordinates)), kind, index)
            == CreateFallbackResult(net, t, start, kind, index).(routeType := Fastest, provider := ProviderOsrm)
  {
    var km := net.haversineKm(start, t.coordinates);
    assert (km * 1000.0) / 1000.0 == km;
    assert (km * 120.0) / 60.0 == km * 2.0;
  }

  /** Cost equals fuel times 1.75 exactly, whichever way the result was built. */
  lemma CostIsFuelTimesPrice(t: Target, route: Option<RouteResponse>, kind: DestinationKind, index: nat)
    ensures var r := FormatRouteResult(t, route, kind, index);
            r.estimatedCost == r.estimatedFuel * 1.75 && r.estimatedFuel == r.distance * 0.095
  {
  }

  // ---- One destination, as each copy of the service handles it ----

  /**
   * How the code is read: `AsWritten` reproduces it; `Corrected` applies the
   * evidently intended behaviour (cycling colours; straight-line results
   * labelled as such).
   */
  datatype Variant = AsWritten | Corrected

  /**
   * The colour index a result receives. As written it is `results.length`
   * of an array nothing is ever pushed to, so always 0; corrected it is the
   * destination's position among the requested ids.
   */
  function ColourIndex(v: Variant, position: nat): nat {
    match v
    case AsWritten => 0
    case Corrected => position
  }

  /**
   * The per-destination task of the batch: resolve, then format. The
   * `catch` that would call `createFallbackResult` is unreachable because
   * resolution never fails; the corrected variant uses that function for
   * straight-line resolutions instead.
   */
  function RouteTo(net: Network, router: Router, v: Variant, start: Coordinates, t: Target,
                   kind: DestinationKind, position: nat): (r: (RouteResult, seq<Attempt>))
    ensures r.1 == Resolve(router, net, start, t.coordinates).tried
    ensures Describes(r.0, t, kind, ColourIndex(v, position)) && Costed(r.0)
    ensures r.0.distance == Resolve(router, net, start, t.coordinates).route.distance / 1000.0
  {
    var res := Resolve(router, net, start, t.coordinates);
    var index := ColourIndex(v, position);
    if v == Corrected && res.source.ViaDirect? then
      DirectFormattingAgrees(net, t, start, kind, index);
      (CreateFallbackResult(net, t, start, kind, index), res.tried)
    else (FormatRouteResult(t, Some(res.route), kind, index), res.tried)
  }

  predicate AllProvidersFail(net: Network, router: Router, start: Coordinates, end: Coordinates) {
    && (forall j :: 0 <= j < |OsrmMirrors| ==> OsrmFails(net, OsrmMirrors[j], start, end))
    && (router == MainThread ==> CallValhalla(net.valhalla(start, end)).None?)
  }

  /**
   * As written, a destination no provider could route is still labelled
   * fastest via OSRM, although its distance is the straight line.
   */
  lemma AllFailLabelledOsrm(net: Network, router: Router, start: Coordinates, t: Target,
                            kind: DestinationKind, position: nat)
    requires AllProvidersFail(net, router, start, t.coordinates)
    ensures var r := RouteTo(net, router, AsWritten, start, t, kind, position).0;
            && r.provider == ProviderOsrm && r.routeType == Fastest
            && r.distance == net.haversineKm(start, t.coordinates)
  {
    var res := Resolve(router, net, start, t.coordinates);
    assert res.source.ViaDirect?;
  }

  /**
   * Corrected, the same destination is labelled shortest via `Direct`, with
   * the same distance, duration and geometry as the as-written result.
   */
  lemma AllFailLabelledDirect(net: Network, router: Router, start: Coordinates, t: Target,
                              kind: DestinationKind, position: nat)
    requires AllProvidersFail(net, router, start, t.coordinates)
    ensures var r := RouteTo(net, router, Corrected, start, t, kind, position).0;
            && r.provider == ProviderDirect && r.routeType == Shortest
            && r.distance == net.haversineKm(start, t.coordinates)
            && r.duration == Round(2.0 * r.distance)
            && r.route == DirectRoute(net, start, t.coordinates)
  {
    var res := Resolve(router, net, start, t.coordinates);
    assert res.source.ViaDirect?;
  }

  /** Outside straight-line resolutions the two readings produce the same labels and figures. */
  lemma VariantsAgreeOnProviderRoutes(net: Network, router: Router, start: Coordinates, t: Target,
                                      kind: DestinationKind, position: nat)
    requires !Resolve(router, net, start, t.coordinates).source.ViaDirect?
    ensures var a := RouteTo(net, router, AsWritten, start, t, kind, position).0;
            var c := RouteTo(net, router, Corrected, start, t, kind, position).0;
            a == c.(color := a.color)
  {
  }

  /**
   * A single destination whose first mirror answers HTTP 500 and whose
   * second answers 12 345 m in 900 s: 12.345 km, 15 minutes, via OSRM,
   * and the third mirror and Valhalla are never called.
   */
  lemma SecondMirrorScenario(net: Network, start: Coordinates, t: Target)
    requires net.osrm(OsrmMirrors[0], start, t.coordinates) == OsrmReply(false, None)
    requires net.osrm(OsrmMirrors[1], start, t.coordinates)
             == OsrmReply(true, Some([OsrmRoute([], 12345.0, 900.0)]))
    ensures var (r, tried) := RouteTo(net, MainThread, AsWritten, start, t, StationKind, 0);
            && r.distance == 12.345 && r.duration == 15 && r.provider == ProviderOsrm
            && tried == [TriedOsrm(OsrmMirrors[0]), TriedOsrm(OsrmMirrors[1])]
  {
    var res := ResolveMain(net, start, t.coordinates);
    assert res.source == ViaOsrm(1);
    assert (900.0 / 60.0 + 0.5).Floor == 15;
  }
}

=== FILE: seqs.dfy ===
/**
 * Sequences used as ordered sets: the array idioms the wizard relies on
 * (`filter`, `find`, `includes`, `[...new Set(xs)]`, "remove if present,
 * else append").
 */
module Seqs {
  import opened Wrappers

  /** `r` is obtained from `s` by deleting elements, keeping the order. */
  predicate IsSubsequence<T(==,!new)>(r: seq<T>, s: seq<T>)
    decreases |s|
  {
    if |r| == 0 then true
    else if |s| == 0 then false
    else (r[0] == s[0] && IsSubsequence(r[1..], s[1..])) || IsSubsequence(r, s[1..])
  }

  /** No element occurs twice. */
  predicate NoDuplicates<T(==,!new)>(s: seq<T>) {
    forall i, j :: 0 <= i < j < |s| ==> s[i] != s[j]
  }

  /** No duplicates means every element occurs at most once, and conversely. */
  lemma {:induction false} DistinctIffSingleCounts<T(!new)>(s: seq<T>)
    ensures NoDuplicates(s) <==> forall x :: multiset(s)[x] <= 1
  {
    if NoDuplicates(s) {
      SingleCounts(s);
    }
    if forall x :: multiset(s)[x] <= 1 {
      forall i, j | 0 <= i < j < |s| ensures s[i] != s[j] {
        assert s == s[..i] + [s[i]] + s[i + 1..j] + [s[j]] + s[j + 1..];
        assert multiset(s)[s[i]] >= multiset([s[i]] + s[i + 1..j] + [s[j]])[s[i]];
      }
    }
  }

  lemma {:induction false} SingleCounts<T(!new)>(s: seq<T>)
    requires NoDuplicates(s)
    ensures forall x :: multiset(s)[x] <= 1
  {
    if |s| > 0 {
      assert s == [s[0]] + s[1..];
      assert NoDuplicates(s[1..]) by {
        forall i, j | 0 <= i < j < |s[1..]| ensures s[1..][i] != s[1..][j] {
          assert s[1..][i] == s[i + 1] && s[1..][j] == s[j + 1];
        }
      }
      SingleCounts(s[1..]);
      forall k | 0 <= k < |s[1..]| ensures s[1..][k] != s[0] {
        assert s[1..][k] == s[k + 1];
      }
      assert s[0] !in s[1..];
    }
  }

  /** Reordering a sequence keeps its elements' images under `f` pairwise distinct. */
  lemma PermutationKeepsDistinctImages<T(!new), U>(a: seq<T>, b: seq<T>, f: T -> U)
    requires multiset(a) == multiset(b)
    requires forall i, j :: 0 <= i < j < |a| ==> f(a[i]) != f(a[j])
    ensures forall i, j :: 0 <= i < j < |b| ==> f(b[i]) != f(b[j])
  {
    assert NoDuplicates(a);
    DistinctIffSingleCounts(a);
    DistinctIffSingleCounts(b);
    forall i, j | 0 <= i < j < |b| ensures f(b[i]) != f(b[j]) {
      assert b[i] in multiset(a) && b[j] in multiset(a);
      var x :| 0 <= x < |a| && a[x] == b[i];
      var y :| 0 <= y < |a| && a[y] == b[j];
      assert b[i] != b[j];
      assert x != y;
      if x > y {
        assert f(a[y]) != f(a[x]);
      }
    }
  }

  /** `Array.prototype.filter`: keeps, in order, the elements satisfying `p`. */
  function Filter<T(==,!new)>(s: seq<T>, p: T -> bool): (r: seq<T>)
    ensures |r| <= |s|
    ensures forall x :: x in r <==> x in s && p(x)
    ensures forall x :: multiset(r)[x] == if p(x) then multiset(s)[x] else 0
    ensures IsSubsequence(r, s)
  {
    if |s| == 0 then []
    else
      assert s == [s[0]] + s[1..];
      if p(s[0]) then [s[0]] + Filter(s[1..], p) else Filter(s[1..], p)
  }

  lemma {:induction false} FilterAppend<T(!new)>(a: seq<T>, b: seq<T>, p: T -> bool)
    ensures Filter(a + b, p) == Filter(a, p) + Filter(b, p)
    decreases |a|
  {
    if |a| == 0 {
      assert a + b == b;
    } else {
      assert (a + b)[0] == a[0];
      assert (a + b)[1..] == a[1..] + b;
      FilterAppend(a[1..], b, p);
    }
  }

  lemma {:induction false} FilterKeepsAll<T(!new)>(s: seq<T>, p: T -> bool)
    requires forall x :: x in s ==> p(x)
    ensures Filter(s, p) == s
    decreases |s|
  {
    if |s| > 0 {
      assert s[0] in s;
      forall x | x in s[1..] ensures p(x) {
        assert x in s;
      }
      FilterKeepsAll(s[1..], p);
      assert s == [s[0]] + s[1..];
    }
  }

  /** Filtering by a test and by its negation splits the list between the two results. */
  lemma FilterComplement<T(!new)>(s: seq<T>, p: T -> bool, q: T -> bool)
    requires forall x :: q(x) == !p(x)
    ensures multiset(Filter(s, p)) + multiset(Filter(s, q)) == multiset(s)
  {
    var a := multiset(Filter(s, p));
    var b := multiset(Filter(s, q));
    forall x
      ensures (a + b)[x] == multiset(s)[x]
    {
      assert a[x] == if p(x) then multiset(s)[x] else 0;
      assert b[x] == if q(x) then multiset(s)[x] else 0;
    }
  }

  /** Filtering with two predicates that agree on every element gives the same list. */
  lemma {:induction false} FilterCongruent<T(!new)>(s: seq<T>, p: T -> bool, q: T -> bool)
    requires forall x :: x in s ==> p(x) == q(x)
    ensures Filter(s, p) == Filter(s, q)
    decreases |s|
  {
    if |s| > 0 {
      assert s[0] in s;
      forall x | x in s[1..] ensures p(x) == q(x) {
        assert x in s;
      }
      FilterCongruent(s[1..], p, q);
    }
  }

  /** `s.filter(y => y !== x)`: every occurrence of `x` removed. */
  function RemoveAll<T(==,!new)>(s: seq<T>, x: T): (r: seq<T>)
    ensures x !in r
    ensures forall y :: y != x ==> multiset(r)[y] == multiset(s)[y]
    ensures IsSubsequence(r, s)
  {
    Filter(s, y => y != x)
  }

  /** The test `y => !xs.includes(y)`. */
  function NotIn<T(==,!new)>(xs: seq<T>): T -> bool {
    y => y !in xs
  }

  /** Filtering out every element gives the empty list. */
  lemma {:induction false} FilterNone<T(!new)>(s: seq<T>, p: T -> bool)
    requires forall x :: x in s ==> !p(x)
    ensures Filter(s, p) == []
    decreases |s|
  {
    if |s| > 0 {
      assert s[0] in s;
      forall x | x in s[1..] ensures !p(x) {
        assert x in s;
      }
      FilterNone(s[1..], p);
    }
  }

  /** `s.filter(y => !xs.includes(y))`: every occurrence of every `xs` element removed. */
  function RemoveEach<T(==,!new)>(s: seq<T>, xs: seq<T>): (r: seq<T>)
    ensures forall y :: multiset(r)[y] == if y in xs then 0 else multiset(s)[y]
    ensures forall y :: y in r <==> y in s && y !in xs
    ensures IsSubsequence(r, s)
  {
    Filter(s, NotIn(xs))
  }

  /** "Remove if present, else append": the toggle every selection list uses. */
  function Toggle<T(==,!new)>(s: seq<T>, x: T): (r: seq<T>)
    ensures x in r <==> x !in s
    ensures forall y :: y != x ==> multiset(r)[y] == multiset(s)[y]
    ensures x !in s ==> |r| == |s| + 1 && r[..|s|] == s
    ensures x in s ==> IsSubsequence(r, s)
  {
    if x in s then RemoveAll(s, x) else s + [x]
  }

  /** Toggling an absent element twice restores the list exactly. */
  lemma ToggleTwice<T(!new)>(s: seq<T>, x: T)
    requires x !in s
    ensures Toggle(Toggle(s, x), x) == s
  {
    var p := (y: T) => y != x;
    FilterAppend(s, [x], p);
    FilterKeepsAll(s, p);
    assert Filter([x], p) == [];
  }

  /**
   * Appends to `acc`, in order, each element of `s` not already present:
   * the insertion loop behind `new Set(...)`.
   */
  function AppendNew<T(==,!new)>(acc: seq<T>, s: seq<T>): (r: seq<T>)
    ensures forall x :: x in r <==> x in acc || x in s
    ensures NoDuplicates(acc) ==> NoDuplicates(r)
    ensures |acc| <= |r| && r[..|acc|] == acc
    decreases |s|
  {
    if |s| == 0 then acc
    else
      var acc' := if s[0] in acc then acc else acc + [s[0]];
      assert s == [s[0]] + s[1..];
      var r := AppendNew(acc', s[1..]);
      assert r[..|acc|] == r[..|acc'|][..|acc|];
      r
  }

  /** `[...new Set(s)]`: first occurrences, in order. */
  function Dedup<T(==,!new)>(s: seq<T>): (r: seq<T>)
    ensures NoDuplicates(r)
    ensures forall x :: x in r <==> x in s
    ensures |r| <= |s|
    ensures IsSubsequence(r, s)
  {
    DedupShorter([], s);
    AppendNewInOrder([], s);
    assert AppendNew([], s)[0..] == AppendNew([], s);
    AppendNew([], s)
  }

  /** What `AppendNew` adds after `acc` is taken from `s` in order. */
  lemma {:induction false} AppendNewInOrder<T(!new)>(acc: seq<T>, s: seq<T>)
    ensures IsSubsequence(AppendNew(acc, s)[|acc|..], s)
    decreases |s|
  {
    if |s| > 0 {
      var r := AppendNew(acc, s);
      if s[0] in acc {
        AppendNewInOrder(acc, s[1..]);
      } else {
        var acc' := acc + [s[0]];
        AppendNewInOrder(acc', s[1..]);
        assert r[..|acc'|] == acc';
        assert r[|acc|..][0] == s[0];
        assert r[|acc|..][1..] == r[|acc'|..];
      }
    }
  }

  lemma {:induction false} DedupShorter<T(!new)>(acc: seq<T>, s: seq<T>)
    ensures |AppendNew(acc, s)| <= |acc| + |s|
    decreases |s|
  {
    if |s| > 0 {
      var acc' := if s[0] in acc then acc else acc + [s[0]];
      DedupShorter(acc', s[1..]);
    }
  }

  lemma {:induction false} AppendNewConcat<T(!new)>(acc: seq<T>, a: seq<T>, b: seq<T>)
    ensures AppendNew(acc, a + b) == AppendNew(AppendNew(acc, a), b)
    decreases |a|
  {
    if |a| == 0 {
      assert a + b == b;
    } else {
      var acc' := if a[0] in acc then acc else acc + [a[0]];
      assert (a + b)[0] == a[0];
      assert (a + b)[1..] == a[1..] + b;
      AppendNewConcat(acc', a[1..], b);
    }
  }

  lemma {:induction false} AppendNewDistinct<T(!new)>(acc: seq<T>, s: seq<T>)
    requires NoDuplicates(acc + s)
    ensures AppendNew(acc, s) == acc + s
    decreases |s|
  {
    if |s| == 0 {
      assert acc + s == acc;
    } else {
      assert (acc + s)[|acc|] == s[0];
      forall i | 0 <= i < |acc| ensures acc[i] != s[0] {
        assert (acc + s)[i] == acc[i];
      }
      assert (acc + [s[0]]) + s[1..] == acc + s;
      AppendNewDistinct(acc + [s[0]], s[1..]);
    }
  }

  /** A list without duplicates is its own `[...new Set(...)]`. */
  lemma DedupDistinct<T(!new)>(s: seq<T>)
    requires NoDuplicates(s)
    ensures Dedup(s) == s
  {
    assert [] + s == s;
    AppendNewDistinct([], s);
  }

  /**
   * `[...new Set([...a, ...b])]`: every element of `a` and `b` exactly
   * once, with the de-duplicated `a` kept in front in its own order.
   */
  function UnionDedup<T(==,!new)>(a: seq<T>, b: seq<T>): (r: seq<T>)
    ensures NoDuplicates(r)
    ensures forall x :: x in r <==> x in a || x in b
    ensures |Dedup(a)| <= |r| && r[..|Dedup(a)|] == Dedup(a)
    ensures forall x :: x in r[|Dedup(a)|..] ==> x in b && x !in a
  {
    AppendNewConcat([], a, b);
    var r := Dedup(a + b);
    var d := Dedup(a);
    assert r == AppendNew(d, b);
    FreshAfterPrefix(r, d);
    r
  }

  /** In a list without duplicates, nothing after a prefix occurs in that prefix. */
  lemma FreshAfterPrefix<T(!new)>(r: seq<T>, d: seq<T>)
    requires NoDuplicates(r) && |d| <= |r| && r[..|d|] == d
    ensures forall x :: x in r[|d|..] ==> x in r && x !in d
  {
    forall x | x in r[|d|..] ensures x in r && x !in d {
      var k :| |d| <= k < |r| && r[k] == x;
      forall i | 0 <= i < |d| ensures d[i] != x {
        assert r[i] == d[i];
      }
    }
  }

  /**
   * Merging `b` into a list without duplicates and then removing every
   * element of `b` leaves exactly the list with `b` removed.
   */
  lemma UnionThenRemove<T(!new)>(a: seq<T>, b: seq<T>)
    requires NoDuplicates(a)
    ensures RemoveEach(UnionDedup(a, b), b) == RemoveEach(a, b)
  {
    DedupDistinct(a);
    var u := UnionDedup(a, b);
    var tail := u[|a|..];
    assert u == a + tail;
    FilterAppend(a, tail, NotIn(b));
    FilterNone(tail, NotIn(b));
  }

  /** `s.find(p)`: the first element satisfying `p`, if any. */
  function FindFirst<T(==,!new)>(s: seq<T>, p: T -> bool): (r: Option<T>)
    ensures r.None? <==> forall x :: x in s ==> !p(x)
    ensures r.Some? ==> exists i :: 0 <= i < |s| && s[i] == r.value && p(s[i])
                                     && forall j :: 0 <= j < i ==> !p(s[j])
  {
    if |s| == 0 then None
    else if p(s[0]) then Some(s[0])
    else
      var r := FindFirst(s[1..], p);
      assert s == [s[0]] + s[1..];
      if r.Some? then
        var i :| 0 <= i < |s[1..]| && s[1..][i] == r.value && p(s[1..][i])
                 && forall j :: 0 <= j < i ==> !p(s[1..][j]);
        assert s[i + 1] == r.value;
        assert forall j :: 0 <= j < i + 1 ==> !p(s[j]) by {
          forall j | 0 <= j < i + 1 ensures !p(s[j]) {
            if j > 0 { assert s[j] == s[1..][j - 1]; }
          }
        }
        r
      else r
  }

  /** `xs.flatMap(f)`. */
  function FlatMap<T(!new), U(!new)>(xs: seq<T>, f: T -> seq<U>): (r: seq<U>)
    ensures forall x, u :: x in xs && u in f(x) ==> u in r
    ensures forall u :: u in r ==> exists x :: x in xs && u in f(x)
  {
    if |xs| == 0 then []
    else
      var rest := FlatMap(xs[1..], f);
      assert xs == [xs[0]] + xs[1..];
      f(xs[0]) + rest
  }
}

=== FILE: stationstore.dfy ===
/**
 * The station store: the loaded station list with its loading flag and
 * error, the load state machine, reset, and three selectors.
 */
module StationStore {
  import opened Wrappers
  import Seqs
  import opened Converter

  datatype StoreState = StoreState(stations: seq<Station>, isLoading: bool, error: Option<string>)

  const UnknownError: string := "Unknown error"

  const Initial: StoreState := StoreState([], false, None)

  /** How the station service's fetch ended: data, a thrown `Error`, or some other thrown value. */
  datatype Fetch = Fetched(data: seq<Station>) | FailedWith(message: string) | FailedOther

  /**
   * The synchronous part of `loadStations`: a call while a load is running
   * does nothing (and `started` is false); otherwise the store is marked
   * loading with no error and the fetch begins.
   */
  function BeginLoad(s: StoreState): (r: (StoreState, bool))
    ensures s.isLoading ==> r.0 == s && !r.1
    ensures !s.isLoading ==> r.1 && r.0.isLoading && r.0.error.None? && r.0.stations == s.stations
  {
    if s.isLoading then (s, false) else (s.(isLoading := true, error := None), true)
  }

  /**
   * The completion of a started load: data replaces the stations; a
   * failure records its message (or "Unknown error") and keeps the stations.
   * Either way loading stops.
   */
  function FinishLoad(s: StoreState, f: Fetch): (r: StoreState)
    ensures !r.isLoading
    ensures f.Fetched? ==> r.stations == f.data && r.error == s.error
    ensures f.FailedWith? ==> r.stations == s.stations && r.error == Some(f.message)
    ensures f.FailedOther? ==> r.stations == s.stations && r.error == Some(UnknownError)
  {
    match f
    case Fetched(data) => s.(stations := data, isLoading := false)
    case FailedWith(m) => s.(error := Some(m), isLoading := false)
    case FailedOther => s.(error := Some(UnknownError), isLoading := false)
  }

  /** A whole `loadStations` call with no other call interleaved. */
  function LoadStations(s: StoreState, f: Fetch): (r: StoreState)
    ensures s.isLoading ==> r == s
    ensures !s.isLoading ==> !r.isLoading
    ensures !s.isLoading && f.Fetched? ==> r == StoreState(f.data, false, None)
    ensures !s.isLoading && !f.Fetched? ==> r.stations == s.stations
    ensures !s.isLoading && f.FailedWith? ==> r.error == Some(f.message)
    ensures !s.isLoading && f.FailedOther? ==> r.error == Some(UnknownError)
  {
    var (begun, started) := BeginLoad(s);
    if started then FinishLoad(begun, f) else begun
  }

  /**
   * A failure leaves nothing behind that a retry can see: a successful load
   * after a failed one gives the store a direct successful load gives, the
   * recorded error included, because every load starts by clearing it.
   */
  lemma RetryAfterFailure(s: StoreState, failure: Fetch, data: seq<Station>)
    requires !s.isLoading && !failure.Fetched?
    ensures LoadStations(s, failure).error.Some?
    ensures LoadStations(LoadStations(s, failure), Fetched(data)) == LoadStations(s, Fetched(data))
  {
  }

  /** `resetStations`. */
  function ResetStations(s: StoreState): (r: StoreState)
    ensures r.stations == [] && !r.isLoading && r.error.None?
  {
    Initial
  }

  /** `getStationsByType`: the stations of that kind, in store order. */
  function StationsByType(s: StoreState, k: StationKind): (r: seq<Station>)
    ensures Seqs.IsSubsequence(r, s.stations)
    ensures forall st :: st in r <==> st in s.stations && st.kind == k
  {
    Seqs.Filter(s.stations, OfKind(k))
  }

  /** The kind test `station.type === type`. */
  function OfKind(k: StationKind): Station -> bool {
    (st: Station) => st.kind == k
  }

  /** `getReviereByPraesidium`: the stations whose parent is the id, whatever their kind. */
  function ReviereByPraesidium(s: StoreState, praesidiumId: string): (r: seq<Station>)
    ensures Seqs.IsSubsequence(r, s.stations)
    ensures forall st :: st in r <==> st in s.stations && st.parentId == Some(praesidiumId)
    ensures forall st :: multiset(r)[st] == if st.parentId == Some(praesidiumId) then multiset(s.stations)[st] else 0
  {
    Seqs.Filter(s.stations, (st: Station) => st.parentId == Some(praesidiumId))
  }

  /** `getPraesidiumById`: the first station with that id that is a Präsidium. */
  function PraesidiumById(s: StoreState, id: string): (r: Option<Station>)
    ensures r.Some? ==> r.value in s.stations && r.value.id == id && r.value.kind == Praesidium
  {
    FirstPraesidium(s.stations, id)
  }

  function FirstPraesidium(stations: seq<Station>, id: string): (r: Option<Station>)
    ensures r.Some? ==> r.value in stations && r.value.id == id && r.value.kind == Praesidium
  {
    if |stations| == 0 then None
    else if stations[0].id == id && stations[0].kind == Praesidium then Some(stations[0])
    else FirstPraesidium(stations[1..], id)
  }

  /**
   * The lookup misses exactly when no station has both the id and the
   * Präsidium kind, and a hit is the first such station.
   */
  lemma {:induction false} FirstPraesidiumIsFirst(stations: seq<Station>, id: string)
    ensures FirstPraesidium(stations, id).None? <==>
            forall i :: 0 <= i < |stations| ==> !(stations[i].id == id && stations[i].kind == Praesidium)
    ensures FirstPraesidium(stations, id).Some? ==>
            exists i :: 0 <= i < |stations| && stations[i] == FirstPraesidium(stations, id).value
                        && forall j :: 0 <= j < i ==> !(stations[j].id == id && stations[j].kind == Praesidium)
    decreases |stations|
  {
    if |stations| > 0 && !(stations[0].id == id && stations[0].kind == Praesidium) {
      FirstPraesidiumIsFirst(stations[1..], id);
      assert forall i :: 1 <= i < |stations| ==> stations[i] == stations[1..][i - 1];
      if FirstPraesidium(stations, id).Some? {
        var i :| 0 <= i < |stations[1..]| && stations[1..][i] == FirstPraesidium(stations, id).value
                 && forall j :: 0 <= j < i ==> !(stations[1..][j].id == id && stations[1..][j].kind == Praesidium);
        assert stations[i + 1] == FirstPraesidium(stations, id).value;
        forall j | 0 <= j < i + 1
          ensures !(stations[j].id == id && stations[j].kind == Praesidium)
        {
          if j > 0 {
            assert stations[j] == stations[1..][j - 1];
          }
        }
      }
    } else if |stations| > 0 {
      assert stations[0] == FirstPraesidium(stations, id).value;
    }
  }

  /** The two kind selectors split the store: together they hold each station exactly as often. */
  lemma ByTypePartitions(s: StoreState)
    ensures multiset(StationsByType(s, Praesidium)) + multiset(StationsByType(s, Revier)) == multiset(s.stations)
    ensures |StationsByType(s, Praesidium)| + |StationsByType(s, Revier)| == |s.stations|
  {
    Seqs.FilterComplement(s.stations, OfKind(Praesidium), OfKind(Revier));
    assert |multiset(StationsByType(s, Praesidium)) + multiset(StationsByType(s, Revier))| == |multiset(s.stations)|;
  }

  /**
   * The parent selector does not look at the kind: a Präsidium that names
   * a parent is listed among that parent's Reviere.
   */
  lemma ParentSelectorIgnoresKind(s: StoreState, p: Station, parent: string)
    requires p in s.stations && p.kind == Praesidium && p.parentId == Some(parent)
    ensures p in ReviereByPraesidium(s, parent)
  {
  }

  /** Reset ignores the state it is applied to. */
  lemma ResetForgets(s: StoreState, t: StoreState)
    ensures ResetStations(s) == ResetStations(t) == Initial
  {
  }
}

=== FILE: step1state.dfy ===
/**
 * The start-address step: submitting a typed or demo address. Geocoding
 * is simulated by jittering a fixed Stuttgart point with two random
 * numbers, which the model takes as inputs.
 */
module Step1State {
  import opened Wrappers
  import Text
  import opened Routing

  datatype AddressData = AddressData(
    street: string,
    houseNumber: string,
    zipCode: string,
    city: string,
    fullAddress: string,
    coordinates: Coordinates,
    accuracy: int)

  /**
   * The local input text and the two application-store fields the step
   * writes (the store itself is not part of this model).
   */
  datatype Step1 = Step1(address: string, startAddress: Option<AddressData>, wizardStep: int)

  const CentreLat: real := 48.7758
  const CentreLng: real := 9.1829
  const Spread: real := 0.1

  /** The street: the text before the first comma, or the whole input when that is empty. */
  function Street(input: string): (r: string)
    ensures Text.Split(input, ',')[0] != "" ==> r == Text.Split(input, ',')[0] && ',' !in r && Text.IsPrefix(r, input)
    ensures Text.Split(input, ',')[0] == "" ==> r == input
  {
    Text.SplitFirstField(input, ',');
    var first := Text.Split(input, ',')[0];
    if first != "" then first else input
  }

  /** A comma-free input is its own street; an input starting with a comma keeps the whole text. */
  lemma StreetCases(input: string)
    ensures ',' !in input ==> Street(input) == input
    ensures |input| > 0 && input[0] == ',' ==> Street(input) == input
  {
    if ',' !in input {
      Text.SplitWithout(input, ',');
    }
    if |input| > 0 && input[0] == ',' {
      Text.SplitFirstField(input, ',');
    }
  }

  /** A point jittered around the centre by `(random - 0.5) * 0.1` in each axis. */
  function Jitter(randomLat: real, randomLng: real): (r: Coordinates)
    ensures 0.0 <= randomLat < 1.0 ==> CentreLat - 0.05 <= r.lat < CentreLat + 0.05
    ensures 0.0 <= randomLng < 1.0 ==> CentreLng - 0.05 <= r.lng < CentreLng + 0.05
  {
    Coordinates(CentreLat + (randomLat - 0.5) * Spread, CentreLng + (randomLng - 0.5) * Spread)
  }

  /**
   * `handleSubmit`: blank input is refused and nothing changes; otherwise
   * the address record is stored, the wizard moves to step 2 and the
   * result is true.
   */
  function HandleSubmit(s: Step1, input: string, randomLat: real, randomLng: real): (r: (Step1, bool))
    ensures Text.IsBlank(input) ==> r == (s, false)
    ensures !Text.IsBlank(input) ==>
              && r.1 && r.0.wizardStep == 2 && r.0.address == s.address
              && r.0.startAddress.Some?
              && r.0.startAddress.value.fullAddress == input
              && r.0.startAddress.value.street == Street(input)
              && r.0.startAddress.value.houseNumber == ""
              && r.0.startAddress.value.zipCode == "70173"
              && r.0.startAddress.value.city == "Stuttgart"
              && r.0.startAddress.value.accuracy == 95
              && r.0.startAddress.value.coordinates == Jitter(randomLat, randomLng)
  {
    Text.TrimEmptyIffBlank(input);
    if Text.Trim(input) == "" then (s, false)
    else
      var data := AddressData(Street(input), "", "70173", "Stuttgart", input, Jitter(randomLat, randomLng), 95);
      (s.(startAddress := Some(data), wizardStep := 2), true)
  }

  /** Only a submit that succeeds moves the wizard on, and it always moves it to step 2. */
  lemma SubmitMovesIffAccepted(s: Step1, input: string, randomLat: real, randomLng: real)
    requires s.wizardStep != 2
    ensures HandleSubmit(s, input, randomLat, randomLng).0.wizardStep == 2 <==> HandleSubmit(s, input, randomLat, randomLng).1
  {
  }

  /** `handleDemoAddress`: the demo text becomes the input, then is submitted. */
  function HandleDemoAddress(s: Step1, demo: string, randomLat: real, randomLng: real): (r: (Step1, bool))
    ensures r.0.address == demo
    ensures r.1 == !Text.IsBlank(demo)
  {
    HandleSubmit(s.(address := demo), demo, randomLat, randomLng)
  }

  /** A demo pick stores the same address a typed submit of that text would. */
  lemma DemoIsSubmit(s: Step1, demo: string, randomLat: real, randomLng: real)
    ensures HandleDemoAddress(s, demo, randomLat, randomLng).0.startAddress
         == HandleSubmit(s, demo, randomLat, randomLng).0.startAddress
    ensures HandleDemoAddress(s, demo, randomLat, randomLng).0.wizardStep
         == HandleSubmit(s, demo, randomLat, randomLng).0.wizardStep
  {
  }
}

=== FILE: step2data.dfy ===
/**
 * The derived data of the destination-selection step: each Präsidium with
 * its Reviere, whether it is expanded and how many of its Reviere are
 * selected; the search filter over that list; and the selection total.
 */
module Step2Data {
  import Seqs
  import Text
  import opened Converter
  import StationStore

  datatype PraesidiumWithDetails = PraesidiumWithDetails(
    station: Station,
    reviere: seq<Station>,
    isExpanded: bool,
    selectedCount: nat)

  /** The number of stations in `rs` whose id is selected, counted one by one. */
  function CountSelected(rs: seq<Station>, selected: seq<string>): (r: nat)
    ensures r <= |rs|
  {
    if |rs| == 0 then 0
    else (if rs[0].id in selected then 1 else 0) + CountSelected(rs[1..], selected)
  }

  /** The details of one Präsidium as the derivation builds them. */
  function Details(store: StationStore.StoreState, p: Station, expanded: set<string>, selected: seq<string>)
    : PraesidiumWithDetails
  {
    var reviere := StationStore.ReviereByPraesidium(store, p.id);
    PraesidiumWithDetails(p, reviere, p.id in expanded,
                          |Seqs.Filter(reviere, (st: Station) => st.id in selected)|)
  }

  /** One entry's fields: the station, its Reviere, its expansion flag and its selected count. */
  lemma DetailsFields(store: StationStore.StoreState, p: Station, expanded: set<string>, selected: seq<string>)
    ensures var d := Details(store, p, expanded, selected);
            && d.station == p
            && d.reviere == StationStore.ReviereByPraesidium(store, p.id)
            && (d.isExpanded <==> p.id in expanded)
            && d.selectedCount == CountSelected(d.reviere, selected)
  {
    DetailsCount(store, p, expanded, selected);
  }

  /**
   * `praesidiumWithReviere`: one entry per Präsidium of the store, in
   * store order, carrying its Reviere (by parent id), its expansion flag
   * and the count of its selected Reviere.
   */
  function Derive(store: StationStore.StoreState, expanded: set<string>, selected: seq<string>)
    : (r: seq<PraesidiumWithDetails>)
    ensures |r| == |StationStore.StationsByType(store, Praesidium)|
    ensures forall k :: 0 <= k < |r| ==>
              && r[k].station == StationStore.StationsByType(store, Praesidium)[k]
              && r[k].reviere == StationStore.ReviereByPraesidium(store, r[k].station.id)
              && (r[k].isExpanded <==> r[k].station.id in expanded)
              && r[k].selectedCount == CountSelected(r[k].reviere, selected)
  {
    var ps := StationStore.StationsByType(store, Praesidium);
    var r := seq(|ps|, k requires 0 <= k < |ps| => Details(store, ps[k], expanded, selected));
    forall k | 0 <= k < |ps|
      ensures && r[k].station == ps[k]
              && r[k].reviere == StationStore.ReviereByPraesidium(store, ps[k].id)
              && (r[k].isExpanded <==> ps[k].id in expanded)
              && r[k].selectedCount == CountSelected(r[k].reviere, selected)
    {
      DetailsFields(store, ps[k], expanded, selected);
    }
    r
  }

  /** The filter-based count agrees with counting one by one. */
  lemma {:induction false} FilterCountsSelected(rs: seq<Station>, selected: seq<string>)
    ensures |Seqs.Filter(rs, (st: Station) => st.id in selected)| == CountSelected(rs, selected)
    decreases |rs|
  {
    if |rs| > 0 {
      FilterCountsSelected(rs[1..], selected);
    }
  }

  /** Each entry's count is the number of its Reviere that are selected, and never more than it has. */
  lemma DetailsCount(store: StationStore.StoreState, p: Station, expanded: set<string>, selected: seq<string>)
    ensures Details(store, p, expanded, selected).selectedCount
            == CountSelected(Details(store, p, expanded, selected).reviere, selected)
    ensures Details(store, p, expanded, selected).selectedCount <= |Details(store, p, expanded, selected).reviere|
  {
    FilterCountsSelected(Details(store, p, expanded, selected).reviere, selected);
  }

  /**
   * The Präsidium's own id does not contribute to its count: selecting or
   * deselecting it leaves the count alone, as long as none of its Reviere
   * carries the same id.
   */
  lemma OwnIdNotCounted(store: StationStore.StoreState, p: Station, expanded: set<string>, selected: seq<string>)
    requires forall st :: st in StationStore.ReviereByPraesidium(store, p.id) ==> st.id != p.id
    ensures Details(store, p, expanded, selected + [p.id]).selectedCount
            == Details(store, p, expanded, selected).selectedCount
    ensures Details(store, p, expanded, Seqs.RemoveAll(selected, p.id)).selectedCount
            == Details(store, p, expanded, selected).selectedCount
  {
    var reviere := StationStore.ReviereByPraesidium(store, p.id);
    Seqs.FilterCongruent(reviere, (st: Station) => st.id in selected + [p.id], (st: Station) => st.id in selected);
    Seqs.FilterCongruent(reviere, (st: Station) => st.id in Seqs.RemoveAll(selected, p.id),
                         (st: Station) => st.id in selected);
  }

  /** The search rule: an empty query, or the lower-cased query inside a name or the city. */
  predicate MatchesQuery(p: PraesidiumWithDetails, query: string) {
    var q := Text.Lower(query);
    || query == ""
    || Text.Contains(Text.Lower(p.station.name), q)
    || Text.Contains(Text.Lower(p.station.city), q)
    || exists i :: 0 <= i < |p.reviere| && Text.Contains(Text.Lower(p.reviere[i].name), q)
  }

  /** `filteredPraesidien`: the entries that match the query, in order. */
  function FilterPraesidien(list: seq<PraesidiumWithDetails>, query: string): (r: seq<PraesidiumWithDetails>)
    ensures Seqs.IsSubsequence(r, list)
    ensures forall p :: p in r <==> p in list && MatchesQuery(p, query)
    ensures forall p :: multiset(r)[p] == if MatchesQuery(p, query) then multiset(list)[p] else 0
  {
    Seqs.Filter(list, p => MatchesQuery(p, query))
  }

  /** An empty query keeps every entry. */
  lemma EmptyQueryKeepsAll(list: seq<PraesidiumWithDetails>)
    ensures FilterPraesidien(list, "") == list
  {
    Seqs.FilterKeepsAll(list, p => MatchesQuery(p, ""));
  }

  /** The filter ignores the case of the query. */
  lemma FilterIgnoresQueryCase(list: seq<PraesidiumWithDetails>, query: string)
    ensures FilterPraesidien(list, Text.Lower(query)) == FilterPraesidien(list, query)
  {
    Text.LowerIdempotent(query);
    assert Text.Lower(query) == "" <==> query == "";
    Seqs.FilterCongruent(list, p => MatchesQuery(p, Text.Lower(query)), p => MatchesQuery(p, query));
  }

  /** A query found in an entry's own name keeps that entry. */
  lemma NameMatchKept(list: seq<PraesidiumWithDetails>, p: PraesidiumWithDetails, query: string)
    requires p in list
    requires Text.Contains(Text.Lower(p.station.name), Text.Lower(query))
    ensures p in FilterPraesidien(list, query)
  {
  }

  /** `totalSelected`: the two selection lists' lengths added. */
  function TotalSelected(stations: seq<string>, customs: seq<string>): (r: nat)
    ensures r == 0 <==> stations == [] && customs == []
  {
    |stations| + |customs|
  }
}

=== FILE: step2handlers.dfy ===
/**
 * The selection handlers of the destination-selection step: the
 * Präsidium group toggle, the single toggles, the expansion toggle, adding
 * and deleting a custom address, and continuing to the results step.
 * Calls into the application store come back as effects.
 */
module Step2Handlers {
  import opened Wrappers
  import Seqs
  import opened Step2State
  import opened Step2Data

  /** Calls into the application store, which is not part of this model. */
  datatype AppEffect = AddCustomAddress(form: FormData) | DeleteCustomAddress(id: string) | SetWizardStep(step: int)

  /** The two selection lists the handlers receive and replace. */
  datatype Selection = Selection(stations: seq<string>, customs: seq<string>)

  /** The Präsidium's id followed by its Reviere's ids. */
  function GroupIds(p: PraesidiumWithDetails): (r: seq<string>)
    ensures |r| == |p.reviere| + 1 && r[0] == p.station.id
    ensures forall i :: 0 <= i < |p.reviere| ==> r[i + 1] == p.reviere[i].id
  {
    [p.station.id] + seq(|p.reviere|, i requires 0 <= i < |p.reviere| => p.reviere[i].id)
  }

  /** `praesidiumWithReviere.find(p => p.id === id)`. */
  function FindPraesidium(list: seq<PraesidiumWithDetails>, id: string): (r: Option<PraesidiumWithDetails>)
    ensures r.Some? ==> r.value in list && r.value.station.id == id
    ensures r.None? <==> forall p :: p in list ==> p.station.id != id
  {
    if |list| == 0 then None
    else if list[0].station.id == id then Some(list[0])
    else
      assert forall p :: p in list[1..] ==> p in list;
      FindPraesidium(list[1..], id)
  }

  function PraesidiumIdIs(id: string): PraesidiumWithDetails -> bool {
    (p: PraesidiumWithDetails) => p.station.id == id
  }

  /**
   * The lookup is the generic first-match search, so a hit is the first
   * entry carrying the id and no earlier entry carries it.
   */
  lemma {:induction false} FindPraesidiumIsFind(list: seq<PraesidiumWithDetails>, id: string)
    ensures FindPraesidium(list, id) == Seqs.FindFirst(list, PraesidiumIdIs(id))
    decreases |list|
  {
    if |list| > 0 && list[0].station.id != id {
      FindPraesidiumIsFind(list[1..], id);
    }
  }

  /** `ids.every(id => selected.includes(id))`. */
  predicate AllSelected(ids: seq<string>, selected: seq<string>) {
    forall i :: 0 <= i < |ids| ==> ids[i] in selected
  }

  /** The group rule shared by both branches: remove the group if all of it is selected, else add it. */
  function GroupRule(selected: seq<string>, ids: seq<string>): seq<string> {
    if AllSelected(ids, selected) then Seqs.RemoveEach(selected, ids) else Seqs.UnionDedup(selected, ids)
  }

  /**
   * `togglePraesidiumWithReviere`. An unknown id changes nothing. A fully
   * selected group is removed, other ids keeping their order and
   * multiplicity; otherwise the group is merged in without duplicates,
   * after the existing ids. Either way the Präsidium becomes the last
   * selected id. `modifier` is whether Ctrl or Meta was held.
   */
  function TogglePraesidiumWithReviere(list: seq<PraesidiumWithDetails>, selected: seq<string>,
                                       lastSelectedId: Option<string>, id: string, modifier: bool)
    : (r: (seq<string>, Option<string>))
    ensures FindPraesidium(list, id).None? ==> r == (selected, lastSelectedId)
    ensures FindPraesidium(list, id).Some? ==> r.1 == Some(id)
    ensures FindPraesidium(list, id).Some? && AllSelected(GroupIds(FindPraesidium(list, id).value), selected) ==>
              var ids := GroupIds(FindPraesidium(list, id).value);
              && Seqs.IsSubsequence(r.0, selected)
              && (forall x :: x in r.0 <==> x in selected && x !in ids)
              && (forall x :: x !in ids ==> multiset(r.0)[x] == multiset(selected)[x])
    ensures FindPraesidium(list, id).Some? && !AllSelected(GroupIds(FindPraesidium(list, id).value), selected) ==>
              var ids := GroupIds(FindPraesidium(list, id).value);
              && Seqs.NoDuplicates(r.0)
              && (forall x :: x in r.0 <==> x in selected || x in ids)
              && |Seqs.Dedup(selected)| <= |r.0| && r.0[..|Seqs.Dedup(selected)|] == Seqs.Dedup(selected)
  {
    match FindPraesidium(list, id)
    case None => (selected, lastSelectedId)
    case Some(p) =>
      var ids := GroupIds(p);
      var next := if modifier then GroupRule(selected, ids) else GroupRule(selected, ids);
      (next, Some(id))
  }

  /** Holding Ctrl or Meta makes no difference. */
  lemma ModifierIrrelevant(list: seq<PraesidiumWithDetails>, selected: seq<string>,
                           lastSelectedId: Option<string>, id: string)
    ensures TogglePraesidiumWithReviere(list, selected, lastSelectedId, id, true)
         == TogglePraesidiumWithReviere(list, selected, lastSelectedId, id, false)
  {
  }

  /** After a toggle that adds, every id of the group is selected. */
  lemma AddedGroupFullySelected(list: seq<PraesidiumWithDetails>, selected: seq<string>,
                                lastSelectedId: Option<string>, id: string, modifier: bool)
    requires FindPraesidium(list, id).Some?
    requires !AllSelected(GroupIds(FindPraesidium(list, id).value), selected)
    ensures AllSelected(GroupIds(FindPraesidium(list, id).value),
                        TogglePraesidiumWithReviere(list, selected, lastSelectedId, id, modifier).0)
  {
  }

  /**
   * Toggling a partly selected group twice, from a list without
   * duplicates, removes the whole group and keeps everything else in order.
   */
  lemma GroupToggleTwice(list: seq<PraesidiumWithDetails>, selected: seq<string>,
                         lastSelectedId: Option<string>, id: string)
    requires FindPraesidium(list, id).Some?
    requires !AllSelected(GroupIds(FindPraesidium(list, id).value), selected)
    requires Seqs.NoDuplicates(selected)
    ensures var once := TogglePraesidiumWithReviere(list, selected, lastSelectedId, id, false);
            var twice := TogglePraesidiumWithReviere(list, once.0, once.1, id, false);
            twice.0 == Seqs.RemoveEach(selected, GroupIds(FindPraesidium(list, id).value))
  {
    var ids := GroupIds(FindPraesidium(list, id).value);
    var once := TogglePraesidiumWithReviere(list, selected, lastSelectedId, id, false);
    assert once.0 == Seqs.UnionDedup(selected, ids);
    assert AllSelected(ids, once.0);
    Seqs.UnionThenRemove(selected, ids);
  }

  /** `togglePraesidiumExpansion`: flips exactly one id of the expanded set. */
  function ToggleExpansion(expanded: set<string>, id: string): (r: set<string>)
    ensures id in r <==> id !in expanded
    ensures forall other :: other != id ==> (other in r <==> other in expanded)
  {
    if id in expanded then expanded - {id} else expanded + {id}
  }

  lemma ToggleExpansionTwice(expanded: set<string>, id: string)
    ensures ToggleExpansion(ToggleExpansion(expanded, id), id) == expanded
  {
  }

  /** `handleStationToggle`: the station list toggles the id; the custom list is untouched. */
  function ToggleStation(sel: Selection, id: string): (r: Selection)
    ensures id in r.stations <==> id !in sel.stations
    ensures forall y :: y != id ==> multiset(r.stations)[y] == multiset(sel.stations)[y]
    ensures id !in sel.stations ==> r.stations == sel.stations + [id]
    ensures r.customs == sel.customs
  {
    sel.(stations := Seqs.Toggle(sel.stations, id))
  }

  /** `handleCustomToggle`: the same rule on the custom list; the station list is untouched. */
  function ToggleCustom(sel: Selection, id: string): (r: Selection)
    ensures id in r.customs <==> id !in sel.customs
    ensures forall y :: y != id ==> multiset(r.customs)[y] == multiset(sel.customs)[y]
    ensures id !in sel.customs ==> r.customs == sel.customs + [id]
    ensures r.stations == sel.stations
  {
    sel.(customs := Seqs.Toggle(sel.customs, id))
  }

  /** Toggling an unselected id twice restores the selection, for either list. */
  lemma ToggleTwiceRestores(sel: Selection, id: string)
    ensures id !in sel.stations ==> ToggleStation(ToggleStation(sel, id), id) == sel
    ensures id !in sel.customs ==> ToggleCustom(ToggleCustom(sel, id), id) == sel
  {
    if id !in sel.stations {
      Seqs.ToggleTwice(sel.stations, id);
    }
    if id !in sel.customs {
      Seqs.ToggleTwice(sel.customs, id);
    }
  }

  /** Every field of the form is a non-empty string (no trimming). */
  predicate FormFilled(f: FormData) {
    f.name != "" && f.street != "" && f.zipCode != "" && f.city != ""
  }

  /**
   * `handleAddAddress`: a form with an empty field is rejected and nothing
   * changes; otherwise the form is handed to the application store, then
   * cleared and hidden.
   */
  function AddAddress(ui: UiState): (r: (UiState, seq<AppEffect>))
    ensures !FormFilled(ui.formData) ==> r == (ui, [])
    ensures FormFilled(ui.formData) ==>
              && r.1 == [AddCustomAddress(ui.formData)]
              && r.0.formData == BlankForm && !r.0.showAddForm
              && r.0.(formData := ui.formData, showAddForm := ui.showAddForm) == ui
  {
    if !FormFilled(ui.formData) then (ui, [])
    else (ui.(formData := BlankForm, showAddForm := false), [AddCustomAddress(ui.formData)])
  }

  /** `handleDeleteAddress`: the store deletes the address and the id leaves the custom selection. */
  function DeleteAddress(sel: Selection, id: string): (r: (Selection, seq<AppEffect>))
    ensures r.1 == [DeleteCustomAddress(id)]
    ensures id !in r.0.customs && Seqs.IsSubsequence(r.0.customs, sel.customs)
    ensures forall y :: y != id ==> multiset(r.0.customs)[y] == multiset(sel.customs)[y]
    ensures r.0.stations == sel.stations
  {
    (sel.(customs := Seqs.RemoveAll(sel.customs, id)), [DeleteCustomAddress(id)])
  }

  /** `handleContinue`: step 3 is requested exactly when something is selected. */
  function Continue(sel: Selection): (r: seq<AppEffect>)
    ensures r == [] <==> sel.stations == [] && sel.customs == []
    ensures r != [] ==> r == [SetWizardStep(3)]
  {
    if TotalSelected(sel.stations, sel.customs) == 0 then [] else [SetWizardStep(3)]
  }
}

=== FILE: step2state.dfy ===
/**
 * The local UI state of the destination-selection step: view, tab,
 * search text, the add-address form, the expanded Präsidien, the preview
 * and the last group selected, with the initial values and `resetStates`.
 */
module Step2State {
  import opened Wrappers

  datatype ViewType = Grid | List | MapView
  datatype Tab = StationsTab | CustomTab

  /** The add-address form. */
  datatype FormData = FormData(name: string, street: string, zipCode: string, city: string)

  const BlankForm: FormData := FormData("", "", "", "")

  datatype UiState = UiState(
    activeView: ViewType,
    activeTab: Tab,
    searchQuery: string,
    showAddForm: bool,
    expandedPraesidien: set<string>,
    showQuickPreview: bool,
    lastSelectedId: Option<string>,
    formData: FormData)

  /** The values the hook starts with. */
  const Initial: UiState := UiState(Grid, StationsTab, "", false, {}, false, None, BlankForm)

  /** `resetStates`: every field back to its starting value. */
  function ResetStates(s: UiState): (r: UiState)
    ensures r.activeView == Grid && r.activeTab == StationsTab && r.searchQuery == ""
    ensures !r.showAddForm && !r.showQuickPreview && r.lastSelectedId.None?
    ensures r.expandedPraesidien == {}
    ensures r.formData.name == "" && r.formData.street == "" && r.formData.zipCode == "" && r.formData.city == ""
  {
    s.(searchQuery := "", activeView := Grid, activeTab := StationsTab, showAddForm := false,
       expandedPraesidien := {}, showQuickPreview := false, lastSelectedId := None, formData := BlankForm)
  }

  /** Resetting yields the initial state whatever came before. */
  lemma ResetIsInitial(s: UiState)
    ensures ResetStates(s) == Initial
  {
  }

  /** Resetting twice is resetting once. */
  lemma ResetIdempotent(s: UiState)
    ensures ResetStates(ResetStates(s)) == ResetStates(s)
  {
  }
}

=== FILE: summary.dfy ===
/**
 * The result summary: route count, totals and averages over the
 * formatted results, with the ad-hoc rule that a distance above 1000 is
 * taken to be in metres.
 */
module Summary {
  import opened Routing

  /** `d > 1000 ? d / 1000 : d`. */
  function NormaliseKm(d: real): (r: real)
    ensures d > 1000.0 ==> r * 1000.0 == d
    ensures d <= 1000.0 ==> r == d
  {
    if d > 1000.0 then d / 1000.0 else d
  }

  /** The reference sum: `f` over the list, added from the right. */
  function Sum<T>(rs: seq<T>, f: T -> real): real {
    if |rs| == 0 then 0.0 else f(rs[0]) + Sum(rs[1..], f)
  }

  /** `rs.reduce((sum, r) => sum + f(r), acc)`: added from the left, as the code does. */
  function Reduce<T>(acc: real, rs: seq<T>, f: T -> real): (r: real)
    ensures r == acc + Sum(rs, f)
    decreases |rs|
  {
    if |rs| == 0 then acc else Reduce(acc + f(rs[0]), rs[1..], f)
  }

  lemma {:induction false} SumAppend<T>(a: seq<T>, b: seq<T>, f: T -> real)
    ensures Sum(a + b, f) == Sum(a, f) + Sum(b, f)
    decreases |a|
  {
    if |a| > 0 {
      assert (a + b)[1..] == a[1..] + b;
      SumAppend(a[1..], b, f);
    } else {
      assert a + b == b;
    }
  }

  /** Reordering a list does not change its sum. */
  lemma {:induction false} SumPermutation<T(!new)>(a: seq<T>, b: seq<T>, f: T -> real)
    requires multiset(a) == multiset(b)
    ensures Sum(a, f) == Sum(b, f)
    decreases |a|
  {
    if |a| > 0 {
      assert a[0] in multiset(b);
      var k :| 0 <= k < |b| && b[k] == a[0];
      var rest := b[..k] + b[k + 1..];
      assert b == b[..k] + [b[k]] + b[k + 1..];
      assert a == [a[0]] + a[1..];
      assert multiset(b) == multiset(b[..k]) + multiset([b[k]]) + multiset(b[k + 1..]);
      assert multiset(a) == multiset([a[0]]) + multiset(a[1..]);
      assert multiset(rest) == multiset(b[..k]) + multiset(b[k + 1..]);
      assert multiset(a[1..]) == multiset(a) - multiset([a[0]]);
      assert multiset(rest) == multiset(b) - multiset([b[k]]);
      SumPermutation(a[1..], rest, f);
      SumAppend(b[..k] + [b[k]], b[k + 1..], f);
      SumAppend(b[..k], [b[k]], f);
      SumAppend(b[..k], b[k + 1..], f);
      assert Sum([b[k]], f) == f(b[k]);
    }
  }

  function DistanceKm(r: RouteResult): real { NormaliseKm(r.distance) }
  function DurationMin(r: RouteResult): real { r.duration as real }
  function Fuel(r: RouteResult): real { r.estimatedFuel }
  function Cost(r: RouteResult): real { r.estimatedCost }

  datatype SummaryStats = SummaryStats(
    totalRoutes: nat,
    totalDistance: real,
    totalDuration: real,
    totalFuel: real,
    totalCost: real,
    averageDistance: real,
    averageDuration: real)

  /**
   * `calculateStats`: the count, the four totals (distance normalised per
   * route) and the two averages, which are 0 for an empty list.
   */
  function CalculateStats(rs: seq<RouteResult>): (r: SummaryStats)
    ensures r.totalRoutes == |rs|
    ensures r.totalDistance == Sum(rs, DistanceKm) && r.totalDuration == Sum(rs, DurationMin)
    ensures r.totalFuel == Sum(rs, Fuel) && r.totalCost == Sum(rs, Cost)
    ensures |rs| == 0 ==> r.averageDistance == 0.0 && r.averageDuration == 0.0
    ensures |rs| > 0 ==> r.averageDistance * |rs| as real == r.totalDistance
                         && r.averageDuration * |rs| as real == r.totalDuration
  {
    var n := |rs|;
    var totalDistance := Reduce(0.0, rs, DistanceKm);
    var totalDuration := Reduce(0.0, rs, DurationMin);
    var totalFuel := Reduce(0.0, rs, Fuel);
    var totalCost := Reduce(0.0, rs, Cost);
    SummaryStats(n, totalDistance, totalDuration, totalFuel, totalCost,
                 if n > 0 then totalDistance / n as real else 0.0,
                 if n > 0 then totalDuration / n as real else 0.0)
  }

  /** The per-route cost text: `'0.00'` when there are no routes, else the average cost formatted. */
  function CostPerRouteText(stats: SummaryStats, toFixed2: real -> string): (r: string)
    ensures stats.totalRoutes == 0 ==> r == "0.00"
    ensures stats.totalRoutes > 0 ==> r == toFixed2(stats.totalCost / stats.totalRoutes as real)
  {
    if stats.totalRoutes > 0 then toFixed2(stats.totalCost / stats.totalRoutes as real) else "0.00"
  }

  /** The statistics do not depend on the order of the results. */
  lemma StatsOrderIndependent(a: seq<RouteResult>, b: seq<RouteResult>)
    requires multiset(a) == multiset(b)
    ensures CalculateStats(a) == CalculateStats(b)
  {
    assert |a| == |multiset(a)| == |multiset(b)| == |b|;
    SumPermutation(a, b, DistanceKm);
    SumPermutation(a, b, DurationMin);
    SumPermutation(a, b, Fuel);
    SumPermutation(a, b, Cost);
  }

  /**
   * For routes no longer than 1000 km the normalisation does nothing, so
   * the distance total is the plain sum of the routes' kilometres.
   */
  lemma {:induction false} ShortRoutesSumPlainly(rs: seq<RouteResult>)
    requires forall i :: 0 <= i < |rs| ==> rs[i].distance <= 1000.0
    ensures CalculateStats(rs).totalDistance == Sum(rs, (r: RouteResult) => r.distance)
    decreases |rs|
  {
    if |rs| > 0 {
      ShortRoutesSumPlainly(rs[1..]);
    }
  }

  /** The fuel and cost totals keep the per-route ratio: total cost = total fuel × price per litre. */
  lemma {:induction false} CostTotalIsFuelTotalTimesPrice(rs: seq<RouteResult>)
    requires forall i :: 0 <= i < |rs| ==> rs[i].estimatedCost == rs[i].estimatedFuel * PricePerLitre
    ensures CalculateStats(rs).totalCost == CalculateStats(rs).totalFuel * PricePerLitre
    decreases |rs|
  {
    if |rs| > 0 {
      CostTotalIsFuelTotalTimesPrice(rs[1..]);
    }
  }
}

=== FILE: text.dfy ===
/**
 * The string operations the wizard applies to user input and labels:
 * `toLowerCase`, `includes`, `trim`, `split`, `join`, `replace` with a
 * string pattern and a global case-insensitive alternation.
 */
module Text {

  /** Characters `String.prototype.trim` strips (ECMAScript WhiteSpace and LineTerminator). */
  predicate IsWhitespace(c: char) {
    var n := c as int;
    n == 9 || n == 10 || n == 11 || n == 12 || n == 13 || n == 32 || n == 0xA0 || n == 0x1680
    || (0x2000 <= n <= 0x200A) || n == 0x2028 || n == 0x2029 || n == 0x202F || n == 0x205F
    || n == 0x3000 || n == 0xFEFF
  }

  /** Every character is whitespace (the empty string included). */
  predicate IsBlank(s: string) {
    forall i :: 0 <= i < |s| ==> IsWhitespace(s[i])
  }

  function TrimStart(s: string): (r: string)
    ensures |r| <= |s| && r == s[|s| - |r|..]
    ensures forall i :: 0 <= i < |s| - |r| ==> IsWhitespace(s[i])
    ensures |r| > 0 ==> !IsWhitespace(r[0])
  {
    if |s| > 0 && IsWhitespace(s[0]) then TrimStart(s[1..]) else s
  }

  function TrimEnd(s: string): (r: string)
    ensures |r| <= |s| && r == s[..|r|]
    ensures forall i :: |r| <= i < |s| ==> IsWhitespace(s[i])
    ensures |r| > 0 ==> !IsWhitespace(r[|r| - 1])
  {
    if |s| > 0 && IsWhitespace(s[|s| - 1]) then TrimEnd(s[..|s| - 1]) else s
  }

  /** `s.trim()`. */
  function Trim(s: string): (r: string)
    ensures |r| <= |s|
    ensures |r| > 0 ==> !IsWhitespace(r[0]) && !IsWhitespace(r[|r| - 1])
  {
    TrimEnd(TrimStart(s))
  }

  /** `s.trim()` is empty exactly when `s` is blank. */
  lemma TrimEmptyIffBlank(s: string)
    ensures Trim(s) == "" <==> IsBlank(s)
  {
    var t := TrimStart(s);
    if Trim(s) != "" {
      var r := Trim(s);
      assert r == t[..|r|];
      assert t[0] == s[|s| - |t|];
      assert !IsWhitespace(s[|s| - |t|]);
    }
  }

  /** `c.toLowerCase()` for one character: ASCII and Latin-1 capitals. */
  function LowerChar(c: char): (r: char)
    ensures 'A' <= c <= 'Z' ==> r as int == c as int + 32
    ensures !('A' <= c <= 'Z') && (c as int < 0xC0 || c as int > 0xDE || c as int == 0xD7) ==> r == c
  {
    var n := c as int;
    if 'A' <= c <= 'Z' || (0xC0 <= n <= 0xDE && n != 0xD7) then (n + 32) as char else c
  }

  /** `s.toLowerCase()`. */
  function Lower(s: string): (r: string)
    ensures |r| == |s|
    ensures forall i :: 0 <= i < |s| ==> r[i] == LowerChar(s[i])
  {
    seq(|s|, i requires 0 <= i < |s| => LowerChar(s[i]))
  }

  /** Lower-casing an already lower-cased string changes nothing. */
  lemma LowerIdempotent(s: string)
    ensures Lower(Lower(s)) == Lower(s)
  {
    forall i | 0 <= i < |s| ensures LowerChar(LowerChar(s[i])) == LowerChar(s[i]) {
      var c := s[i];
      if 'A' <= c <= 'Z' || (0xC0 <= c as int <= 0xDE && c as int != 0xD7) {
        assert LowerChar(c) as int == c as int + 32;
      }
    }
  }

  predicate IsPrefix(p: string, s: string) {
    |p| <= |s| && s[..|p|] == p
  }

  /** `h.includes(n)`. */
  predicate Contains(h: string, n: string)
    decreases |h|
  {
    IsPrefix(n, h) || (|h| > 0 && Contains(h[1..], n))
  }

  /** `n` occurs in `h` starting at position `i`. */
  predicate OccursAt(h: string, n: string, i: int) {
    0 <= i && i + |n| <= |h| && h[i..i + |n|] == n
  }

  /** `includes` holds exactly when `n` occurs at some position of `h`. */
  lemma {:induction false} ContainsIffOccurs(h: string, n: string)
    ensures Contains(h, n) <==> exists i :: OccursAt(h, n, i)
    decreases |h|
  {
    if IsPrefix(n, h) {
      assert OccursAt(h, n, 0);
    }
    if |h| > 0 {
      ContainsIffOccurs(h[1..], n);
      if Contains(h[1..], n) {
        var i :| OccursAt(h[1..], n, i);
        assert h[i + 1..i + 1 + |n|] == h[1..][i..i + |n|];
        assert OccursAt(h, n, i + 1);
      }
      if exists i :: OccursAt(h, n, i) {
        var i :| OccursAt(h, n, i);
        if i > 0 {
          assert h[1..][i - 1..i - 1 + |n|] == h[i..i + |n|];
          assert OccursAt(h[1..], n, i - 1);
        }
      }
    } else {
      if exists i :: OccursAt(h, n, i) {
        var i :| OccursAt(h, n, i);
        assert IsPrefix(n, h);
      }
    }
  }

  /** The empty string is contained in every string. */
  lemma ContainsEmpty(h: string)
    ensures Contains(h, "")
  {
  }

  /** The position of the first occurrence of `n` in `h`, or -1 (`h.indexOf(n)`). */
  function IndexOf(h: string, n: string): (r: int)
    ensures r >= -1
    ensures r >= 0 ==> OccursAt(h, n, r) && forall j :: 0 <= j < r ==> !OccursAt(h, n, j)
    ensures r == -1 ==> forall j :: !OccursAt(h, n, j)
    decreases |h|
  {
    if IsPrefix(n, h) then 0
    else if |h| == 0 then -1
    else
      var k := IndexOf(h[1..], n);
      assert forall j :: 1 <= j ==> (OccursAt(h, n, j) <==> OccursAt(h[1..], n, j - 1)) by {
        forall j | 1 <= j ensures OccursAt(h, n, j) <==> OccursAt(h[1..], n, j - 1) {
          if j + |n| <= |h| {
            assert h[1..][j - 1..j - 1 + |n|] == h[j..j + |n|];
          }
        }
      }
      if k == -1 then -1 else k + 1
  }

  /** `s.replace(pat, '')` with a string pattern: only the first occurrence is removed. */
  function RemoveFirst(s: string, pat: string): (r: string)
    ensures IndexOf(s, pat) == -1 ==> r == s
    ensures IndexOf(s, pat) >= 0 ==> |r| == |s| - |pat|
  {
    var k := IndexOf(s, pat);
    if k == -1 then s else s[..k] + s[k + |pat|..]
  }

  /** `p` (written in lower-case ASCII) matches at the front of `s`, ignoring ASCII case. */
  predicate MatchesFoldedAt(s: string, p: string) {
    |p| <= |s| && forall i :: 0 <= i < |p| ==> LowerChar(s[i]) == p[i]
  }

  /**
   * `s.replace(/p1|p2/gi, '')` for two lower-case ASCII words: scanning
   * left to right, every non-overlapping case-insensitive occurrence of
   * either word is deleted.
   */
  function RemoveWordsFolded(s: string, p1: string, p2: string): (r: string)
    requires |p1| > 0 && |p2| > 0
    ensures |r| <= |s|
    decreases |s|
  {
    if |s| == 0 then ""
    else if MatchesFoldedAt(s, p1) then RemoveWordsFolded(s[|p1|..], p1, p2)
    else if MatchesFoldedAt(s, p2) then RemoveWordsFolded(s[|p2|..], p1, p2)
    else [s[0]] + RemoveWordsFolded(s[1..], p1, p2)
  }

  /** Where neither word occurs at any position, the removal changes nothing. */
  lemma {:induction false} RemoveWordsAbsent(s: string, p1: string, p2: string)
    requires |p1| > 0 && |p2| > 0
    requires forall i :: 0 <= i < |s| ==> !MatchesFoldedAt(s[i..], p1) && !MatchesFoldedAt(s[i..], p2)
    ensures RemoveWordsFolded(s, p1, p2) == s
    decreases |s|
  {
    if |s| > 0 {
      assert s[0..] == s;
      forall i | 0 <= i < |s[1..]|
        ensures !MatchesFoldedAt(s[1..][i..], p1) && !MatchesFoldedAt(s[1..][i..], p2)
      {
        assert s[1..][i..] == s[i + 1..];
      }
      RemoveWordsAbsent(s[1..], p1, p2);
      assert s == [s[0]] + s[1..];
    }
  }

  /** `s.split(sep)` for a one-character separator. */
  function Split(s: string, sep: char): (r: seq<string>)
    ensures |r| >= 1
    decreases |s|
  {
    if |s| == 0 then [""]
    else
      var rest := Split(s[1..], sep);
      if s[0] == sep then [""] + rest else [[s[0]] + rest[0]] + rest[1..]
  }

  /** `parts.join(sep)` for a one-character separator. */
  function Join(parts: seq<string>, sep: char): (r: string)
    decreases |parts|
  {
    if |parts| == 0 then ""
    else if |parts| == 1 then parts[0]
    else parts[0] + [sep] + Join(parts[1..], sep)
  }

  lemma {:induction false} SplitWithout(s: string, sep: char)
    requires sep !in s
    ensures Split(s, sep) == [s]
    decreases |s|
  {
    if |s| > 0 {
      SplitWithout(s[1..], sep);
      assert s == [s[0]] + s[1..];
    }
  }

  lemma {:induction false} SplitAfterField(a: string, sep: char, b: string)
    requires sep !in a
    ensures Split(a + [sep] + b, sep) == [a] + Split(b, sep)
    decreases |a|
  {
    if |a| == 0 {
      assert a + [sep] + b == [sep] + b;
      assert ([sep] + b)[1..] == b;
    } else {
      var s := a + [sep] + b;
      assert s[1..] == a[1..] + [sep] + b;
      SplitAfterField(a[1..], sep, b);
      assert a == [a[0]] + a[1..];
    }
  }

  /** Splitting a joined list gives the list back when no part holds the separator. */
  lemma {:induction false} SplitJoin(parts: seq<string>, sep: char)
    requires |parts| >= 1
    requires forall i :: 0 <= i < |parts| ==> sep !in parts[i]
    ensures Split(Join(parts, sep), sep) == parts
    decreases |parts|
  {
    if |parts| == 1 {
      SplitWithout(parts[0], sep);
    } else {
      SplitJoin(parts[1..], sep);
      SplitAfterField(parts[0], sep, Join(parts[1..], sep));
      assert parts == [parts[0]] + parts[1..];
    }
  }

  /** The first field of `s.split(sep)` is the text before the first separator. */
  lemma {:induction false} SplitFirstField(s: string, sep: char)
    ensures sep !in Split(s, sep)[0]
    ensures IsPrefix(Split(s, sep)[0], s)
    ensures |Split(s, sep)[0]| == |s| || s[|Split(s, sep)[0]|] == sep
    decreases |s|
  {
    if |s| > 0 {
      SplitFirstField(s[1..], sep);
    }
  }
}

=== FILE: ultramodern.dfy ===
/**
 * The second destination-selection component: its own Präsidium group
 * toggle (decided by the Präsidium's id alone), the command palette, the
 * voice-command dispatcher and its stricter add-address check. Single
 * toggles, expansion, deletion and continuing behave as in
 * `Step2Handlers` and are taken from there.
 */
module UltraModern {
  import opened Wrappers
  import Seqs
  import Text
  import opened Step2State
  import opened Step2Data
  import opened Step2Handlers

  datatype UltraState = UltraState(
    activeTab: Tab,
    searchQuery: string,
    showCommandPalette: bool,
    expandedPraesidien: set<string>,
    showAddForm: bool,
    formData: FormData,
    selection: Selection)

  /**
   * `togglePraesidiumWithReviere` of this component. An unknown id changes
   * nothing; a selected Präsidium is removed together with all its Reviere,
   * other ids keeping their order and multiplicity; otherwise the group is
   * merged in without duplicates.
   */
  function TogglePraesidium(list: seq<PraesidiumWithDetails>, selected: seq<string>, id: string)
    : (r: seq<string>)
    ensures FindPraesidium(list, id).None? ==> r == selected
    ensures FindPraesidium(list, id).Some? && id in selected ==>
              var ids := GroupIds(FindPraesidium(list, id).value);
              && Seqs.IsSubsequence(r, selected)
              && (forall x :: x in r <==> x in selected && x !in ids)
              && (forall x :: x !in ids ==> multiset(r)[x] == multiset(selected)[x])
    ensures FindPraesidium(list, id).Some? && id !in selected ==>
              var ids := GroupIds(FindPraesidium(list, id).value);
              && Seqs.NoDuplicates(r)
              && (forall x :: x in r <==> x in selected || x in ids)
              && |Seqs.Dedup(selected)| <= |r| && r[..|Seqs.Dedup(selected)|] == Seqs.Dedup(selected)
  {
    match FindPraesidium(list, id)
    case None => selected
    case Some(p) =>
      var ids := GroupIds(p);
      if id in selected then Seqs.RemoveEach(selected, ids) else Seqs.UnionDedup(selected, ids)
  }

  /**
   * The two group-toggle rules agree exactly when the group is wholly
   * selected or the Präsidium is not selected; when the Präsidium is
   * selected but some Revier is not, this component removes the group
   * while the hook completes it.
   */
  lemma GroupRulesDiverge(list: seq<PraesidiumWithDetails>, selected: seq<string>,
                          lastSelectedId: Option<string>, id: string, modifier: bool)
    requires FindPraesidium(list, id).Some?
    ensures var ids := GroupIds(FindPraesidium(list, id).value);
            TogglePraesidium(list, selected, id)
              == TogglePraesidiumWithReviere(list, selected, lastSelectedId, id, modifier).0
            <==> AllSelected(ids, selected) || id !in selected
    ensures var ids := GroupIds(FindPraesidium(list, id).value);
            id in selected && !AllSelected(ids, selected) ==>
              && id !in TogglePraesidium(list, selected, id)
              && AllSelected(ids, TogglePraesidiumWithReviere(list, selected, lastSelectedId, id, modifier).0)
  {
    var ids := GroupIds(FindPraesidium(list, id).value);
    var hook := TogglePraesidiumWithReviere(list, selected, lastSelectedId, id, modifier).0;
    if id in selected && !AllSelected(ids, selected) {
      assert id in hook;
    }
  }

  /** Every Präsidium and Revier id of the list, group by group (`flatMap`). */
  function AllIds(list: seq<PraesidiumWithDetails>): (r: seq<string>)
    ensures forall x :: x in r <==> exists p :: p in list && x in GroupIds(p)
  {
    Seqs.FlatMap(list, GroupIds)
  }

  /** The Präsidien whose lower-cased city contains "stuttgart". */
  predicate InStuttgart(p: PraesidiumWithDetails) {
    Text.Contains(Text.Lower(p.station.city), "stuttgart")
  }

  /** The text between the first and the second colon of `command`, where `command` starts with `word:`. */
  function ColonArgument(word: string, command: string): (r: string)
    requires ':' !in word && Text.IsPrefix(word + ":", command)
    ensures |Text.Split(command, ':')| >= 2 && r == Text.Split(command, ':')[1]
    ensures ':' !in r && Text.IsPrefix(r, command[|word| + 1..])
    ensures |r| == |command| - |word| - 1 || command[|word| + 1 + |r|] == ':'
  {
    var rest := command[|word| + 1..];
    assert command == word + [':'] + rest;
    Text.SplitAfterField(word, ':', rest);
    Text.SplitFirstField(rest, ':');
    Text.Split(command, ':')[1]
  }

  const SelectPraesidiumPrefix: string := "selectPraesidium:"
  const SearchPrefix: string := "search:"

  /** The commands matched by their whole text. */
  const ExactCommands: set<string> := {"selectAllStuttgart", "selectAll", "clearSelection", "expandAll", "collapseAll"}

  /** The commands of the palette. */
  datatype PaletteCommand =
    | GroupToggle(id: string)
    | SelectAllStuttgart
    | SelectAll
    | ClearSelection
    | ExpandAll
    | CollapseAll
    | Search(term: string)
    | UnknownCommand

  /**
   * How `handleCommand` reads its string: the two prefixed commands take
   * the text between the first and second colon as their argument; the
   * others are matched exactly.
   */
  function Parse(command: string): (r: PaletteCommand)
    ensures Text.IsPrefix(SelectPraesidiumPrefix, command) ==> r == GroupToggle(ColonArgument("selectPraesidium", command))
    ensures command == "selectAllStuttgart" ==> r == SelectAllStuttgart
    ensures command == "selectAll" ==> r == SelectAll
    ensures command == "clearSelection" ==> r == ClearSelection
    ensures command == "expandAll" ==> r == ExpandAll
    ensures command == "collapseAll" ==> r == CollapseAll
    ensures Text.IsPrefix(SearchPrefix, command) ==> r == Search(ColonArgument("search", command))
    ensures r == UnknownCommand <==>
              && !Text.IsPrefix(SelectPraesidiumPrefix, command) && !Text.IsPrefix(SearchPrefix, command)
              && command !in ExactCommands
  {
    PrefixesExclusive(command);
    if Text.IsPrefix(SelectPraesidiumPrefix, command) then
      assert ':' !in "selectPraesidium";
      GroupToggle(ColonArgument("selectPraesidium", command))
    else if command == "selectAllStuttgart" then SelectAllStuttgart
    else if command == "selectAll" then SelectAll
    else if command == "clearSelection" then ClearSelection
    else if command == "expandAll" then ExpandAll
    else if command == "collapseAll" then CollapseAll
    else if Text.IsPrefix(SearchPrefix, command) then
      assert ':' !in "search";
      Search(ColonArgument("search", command))
    else UnknownCommand
  }

  /** A command with one of the two prefixes is none of the exact commands, and not both prefixes at once. */
  lemma PrefixesExclusive(command: string)
    ensures Text.IsPrefix(SelectPraesidiumPrefix, command) ==> !Text.IsPrefix(SearchPrefix, command) && command !in ExactCommands
    ensures Text.IsPrefix(SearchPrefix, command) ==> command !in ExactCommands
  {
    if Text.IsPrefix(SelectPraesidiumPrefix, command) {
      assert command[2] == 'l' != SearchPrefix[2];
      assert command[6] == 'P';
    }
    if Text.IsPrefix(SearchPrefix, command) {
      assert command[2] == 'a';
    }
  }

  /**
   * Carrying out a palette command: a group toggle, "select all"
   * (optionally only the Stuttgart Präsidien) merged without duplicates
   * into the existing selection, clearing both lists, expanding or
   * collapsing every Präsidium, or a search. Every command, the unknown
   * one included, then closes the palette.
   */
  function Apply(s: UltraState, list: seq<PraesidiumWithDetails>, cmd: PaletteCommand): (r: UltraState)
    ensures !r.showCommandPalette
    ensures r.activeTab == s.activeTab && r.showAddForm == s.showAddForm && r.formData == s.formData
    ensures !cmd.Search? ==> r.searchQuery == s.searchQuery
    ensures cmd.Search? ==> r.searchQuery == cmd.term
    ensures !(cmd.ExpandAll? || cmd.CollapseAll?) ==> r.expandedPraesidien == s.expandedPraesidien
    ensures cmd.GroupToggle? || cmd.SelectAllStuttgart? || cmd.SelectAll? ==> r.selection.customs == s.selection.customs
    ensures cmd.GroupToggle? ==> r.selection.stations == TogglePraesidium(list, s.selection.stations, cmd.id)
    ensures cmd.SelectAllStuttgart? ==>
              r.selection.stations == Seqs.UnionDedup(s.selection.stations, AllIds(Seqs.Filter(list, InStuttgart)))
    ensures cmd.SelectAll? ==> r.selection.stations == Seqs.UnionDedup(s.selection.stations, AllIds(list))
    ensures cmd.ClearSelection? ==> r.selection == Selection([], [])
    ensures cmd.ExpandAll? || cmd.CollapseAll? || cmd.Search? || cmd.UnknownCommand? ==> r.selection == s.selection
    ensures cmd.ExpandAll? ==> forall id :: id in r.expandedPraesidien <==> exists p :: p in list && p.station.id == id
    ensures cmd.CollapseAll? ==> r.expandedPraesidien == {}
    ensures cmd.UnknownCommand? ==> r == s.(showCommandPalette := false)
  {
    var closed := s.(showCommandPalette := false);
    match cmd
    case GroupToggle(id) =>
      closed.(selection := s.selection.(stations := TogglePraesidium(list, s.selection.stations, id)))
    case SelectAllStuttgart =>
      closed.(selection := s.selection.(stations := Seqs.UnionDedup(s.selection.stations, AllIds(Seqs.Filter(list, InStuttgart)))))
    case SelectAll =>
      closed.(selection := s.selection.(stations := Seqs.UnionDedup(s.selection.stations, AllIds(list))))
    case ClearSelection => closed.(selection := Selection([], []))
    case ExpandAll => closed.(expandedPraesidien := set p | p in list :: p.station.id)
    case CollapseAll => closed.(expandedPraesidien := {})
    case Search(term) => closed.(searchQuery := term)
    case UnknownCommand => closed
  }

  /** `handleCommand`. */
  function HandleCommand(s: UltraState, list: seq<PraesidiumWithDetails>, command: string): (r: UltraState)
    ensures !r.showCommandPalette
  {
    Apply(s, list, Parse(command))
  }

  /** After "select all" every Präsidium and Revier of the list is selected, and earlier picks stay. */
  lemma SelectAllSelectsEverything(s: UltraState, list: seq<PraesidiumWithDetails>)
    ensures var r := HandleCommand(s, list, "selectAll");
            && (forall p, x :: p in list && x in GroupIds(p) ==> x in r.selection.stations)
            && (forall x :: x in s.selection.stations ==> x in r.selection.stations)
            && Seqs.NoDuplicates(r.selection.stations)
  {
  }

  /** A command the palette does not know only closes the palette. */
  lemma UnknownCommandOnlyCloses(s: UltraState, list: seq<PraesidiumWithDetails>, command: string)
    requires !Text.IsPrefix(SelectPraesidiumPrefix, command) && !Text.IsPrefix(SearchPrefix, command)
    requires command !in ExactCommands
    ensures HandleCommand(s, list, command) == s.(showCommandPalette := false)
  {
  }

  /** "search:" followed by a term without colons searches for exactly that term. */
  lemma SearchCommandTerm(s: UltraState, list: seq<PraesidiumWithDetails>, term: string)
    requires ':' !in term
    ensures HandleCommand(s, list, SearchPrefix + term).searchQuery == term
  {
    var command := SearchPrefix + term;
    assert command[|"search"| + 1..] == term;
    Text.SplitWithout(term, ':');
  }

  // Voice commands

  /** The rules of the voice dispatcher, in the order they are tried. */
  datatype VoiceRule =
    | SearchRule
    | StuttgartRule
    | SelectAllRule
    | ClearRule
    | PraesidiumRule(id: string)
    | CustomTabRule
    | StationsTabRule
    | ContinueRule
    | Unrecognised

  function Rank(rule: VoiceRule): nat {
    match rule
    case SearchRule => 0
    case StuttgartRule => 1
    case SelectAllRule => 2
    case ClearRule => 3
    case PraesidiumRule(_) => 4
    case CustomTabRule => 5
    case StationsTabRule => 6
    case ContinueRule => 7
    case Unrecognised => 8
  }

  /** A Präsidium is named by a lower-cased command when its city or its short name occurs in it. */
  predicate Names(lc: string, p: PraesidiumWithDetails) {
    || Text.Contains(lc, Text.Lower(p.station.city))
    || Text.Contains(lc, Text.RemoveFirst(Text.Lower(p.station.name), "polizeipräsidium "))
  }

  /** Whether the rule of rank `k` is triggered by the lower-cased command. */
  predicate Applies(k: nat, lc: string, list: seq<PraesidiumWithDetails>) {
    if k == 0 then Text.Contains(lc, "suche") || Text.Contains(lc, "finde")
    else if k == 1 then Text.Contains(lc, "alle") && Text.Contains(lc, "stuttgart")
    else if k == 2 then Text.Contains(lc, "alle") && Text.Contains(lc, "auswählen")
    else if k == 3 then Text.Contains(lc, "nichts") || Text.Contains(lc, "keine")
    else if k == 4 then exists i :: 0 <= i < |list| && Names(lc, list[i])
    else if k == 5 then Text.Contains(lc, "eigene") || Text.Contains(lc, "adressen")
    else if k == 6 then Text.Contains(lc, "stationen") || Text.Contains(lc, "polizei")
    else if k == 7 then Text.Contains(lc, "weiter") || Text.Contains(lc, "fortfahren")
    else false
  }

  /** The first Präsidium of the list that the command names. */
  function FirstNamed(list: seq<PraesidiumWithDetails>, lc: string): (r: Option<PraesidiumWithDetails>)
    ensures r.None? <==> forall i :: 0 <= i < |list| ==> !Names(lc, list[i])
    ensures r.Some? ==> exists i :: 0 <= i < |list| && list[i] == r.value && Names(lc, list[i])
                                    && forall j :: 0 <= j < i ==> !Names(lc, list[j])
  {
    if |list| == 0 then None
    else if Names(lc, list[0]) then Some(list[0])
    else
      var r := FirstNamed(list[1..], lc);
      assert forall i :: 1 <= i < |list| ==> list[i] == list[1..][i - 1];
      if r.Some? then
        var i :| 0 <= i < |list[1..]| && list[1..][i] == r.value && Names(lc, list[1..][i])
                 && forall j :: 0 <= j < i ==> !Names(lc, list[1..][j]);
        assert list[i + 1] == r.value;
        r
      else r
  }

  /**
   * Which rule a command fires: the first rule, in the fixed order, that it
   * triggers. The Präsidium rule carries the id of the first Präsidium named.
   */
  function Classify(list: seq<PraesidiumWithDetails>, command: string): (r: VoiceRule)
    ensures Rank(r) < 8 ==> Applies(Rank(r), Text.Lower(command), list)
    ensures forall k :: 0 <= k < Rank(r) ==> !Applies(k, Text.Lower(command), list)
    ensures r.PraesidiumRule? ==> FirstNamed(list, Text.Lower(command)).Some?
                                  && r.id == FirstNamed(list, Text.Lower(command)).value.station.id
  {
    var lc := Text.Lower(command);
    if Applies(0, lc, list) then SearchRule
    else if Applies(1, lc, list) then StuttgartRule
    else if Applies(2, lc, list) then SelectAllRule
    else if Applies(3, lc, list) then ClearRule
    else if FirstNamed(list, lc).Some? then PraesidiumRule(FirstNamed(list, lc).value.station.id)
    else if Applies(5, lc, list) then CustomTabRule
    else if Applies(6, lc, list) then StationsTabRule
    else if Applies(7, lc, list) then ContinueRule
    else Unrecognised
  }

  /** The search term of a voice command: "suche" and "finde" removed in any case, then trimmed. */
  function VoiceSearchTerm(command: string): (r: string)
    ensures |r| <= |command|
  {
    Text.Trim(Text.RemoveWordsFolded(command, "suche", "finde"))
  }

  /** Neither "suche" nor "finde" starts at any position of `s`, in any case. */
  predicate NoSearchWord(s: string) {
    forall i :: 0 <= i < |s| ==> !Text.MatchesFoldedAt(s[i..], "suche") && !Text.MatchesFoldedAt(s[i..], "finde")
  }

  /** A command holding neither word keeps all its text: the term is the command trimmed. */
  lemma VoiceSearchTermWithoutWords(command: string)
    requires NoSearchWord(command)
    ensures VoiceSearchTerm(command) == Text.Trim(command)
  {
    Text.RemoveWordsAbsent(command, "suche", "finde");
  }

  /** "Suche " followed by a term without either word searches for that term, trimmed. */
  lemma VoiceSearchTermAfterSuche(t: string)
    requires NoSearchWord(t)
    ensures VoiceSearchTerm("Suche " + t) == Text.Trim(t)
  {
    var s := "Suche " + t;
    assert Text.MatchesFoldedAt(s, "suche");
    var rest := " " + t;
    assert s[5..] == rest;
    forall i | 0 <= i < |rest|
      ensures !Text.MatchesFoldedAt(rest[i..], "suche") && !Text.MatchesFoldedAt(rest[i..], "finde")
    {
      if i > 0 {
        assert rest[i..] == t[i - 1..];
        assert !Text.MatchesFoldedAt(t[i - 1..], "suche") && !Text.MatchesFoldedAt(t[i - 1..], "finde");
      } else {
        assert rest[i..][0] == ' ' && Text.LowerChar(' ') == ' ';
      }
    }
    Text.RemoveWordsAbsent(rest, "suche", "finde");
    assert rest[1..] == t;
    assert Text.TrimStart(rest) == Text.TrimStart(t);
  }

  /**
   * `handleVoiceCommand`: only the rule `Classify` picks takes effect.
   * Search sets the query; "alle … stuttgart" runs the palette command;
   * "alle … auswählen" merges every id; "nichts"/"keine" clears both lists;
   * a named Präsidium is group-toggled; the tab rules switch the tab; and
   * "weiter" asks to continue.
   */
  function HandleVoiceCommand(s: UltraState, list: seq<PraesidiumWithDetails>, command: string)
    : (r: (UltraState, VoiceRule, seq<AppEffect>))
    ensures r.1 == Classify(list, command)
    ensures r.1 != ContinueRule ==> r.2 == []
    ensures r.1 == SearchRule ==> r.0 == s.(searchQuery := VoiceSearchTerm(command))
    ensures r.1 == StuttgartRule ==> r.0 == HandleCommand(s, list, "selectAllStuttgart")
    ensures r.1 == SelectAllRule ==>
              r.0 == s.(selection := s.selection.(stations := Seqs.UnionDedup(s.selection.stations, AllIds(list))))
    ensures r.1 == ClearRule ==> r.0 == s.(selection := Selection([], []))
    ensures r.1.PraesidiumRule? ==>
              r.0 == s.(selection := s.selection.(stations := TogglePraesidium(list, s.selection.stations, r.1.id)))
    ensures r.1 == CustomTabRule ==> r.0 == s.(activeTab := CustomTab)
    ensures r.1 == StationsTabRule ==> r.0 == s.(activeTab := StationsTab)
    ensures r.1 == ContinueRule ==> r.0 == s && r.2 == Continue(s.selection)
    ensures r.1 == Unrecognised ==> r.0 == s
  {
    var rule := Classify(list, command);
    match rule
    case SearchRule => (s.(searchQuery := VoiceSearchTerm(command)), rule, [])
    case StuttgartRule => (HandleCommand(s, list, "selectAllStuttgart"), rule, [])
    case SelectAllRule =>
      (s.(selection := s.selection.(stations := Seqs.UnionDedup(s.selection.stations, AllIds(list)))), rule, [])
    case ClearRule => (s.(selection := Selection([], [])), rule, [])
    case PraesidiumRule(id) =>
      (s.(selection := s.selection.(stations := TogglePraesidium(list, s.selection.stations, id))), rule, [])
    case CustomTabRule => (s.(activeTab := CustomTab), rule, [])
    case StationsTabRule => (s.(activeTab := StationsTab), rule, [])
    case ContinueRule => (s, rule, Continue(s.selection))
    case Unrecognised => (s, rule, [])
  }

  /** A search command never touches the selection, even when it also says "alle … stuttgart". */
  lemma SearchWinsOverSelection(s: UltraState, list: seq<PraesidiumWithDetails>, command: string)
    requires Text.Contains(Text.Lower(command), "suche")
    ensures HandleVoiceCommand(s, list, command).0.selection == s.selection
    ensures HandleVoiceCommand(s, list, command).1 == SearchRule
  {
  }

  /**
   * A Präsidium whose city is empty is named by every command, so once
   * the first four rules pass over a command, the first such Präsidium in
   * the list (or an earlier named one) is toggled.
   */
  lemma EmptyCityNamedByEverything(list: seq<PraesidiumWithDetails>, command: string)
    requires |list| > 0 && list[0].station.city == ""
    ensures FirstNamed(list, Text.Lower(command)) == Some(list[0])
  {
    Text.ContainsEmpty(Text.Lower(command));
    assert Text.Lower(list[0].station.city) == "";
  }

  /** Every field of the form has a non-blank character. */
  predicate FormFilledTrimmed(f: FormData) {
    Text.Trim(f.name) != "" && Text.Trim(f.street) != "" && Text.Trim(f.zipCode) != "" && Text.Trim(f.city) != ""
  }

  /**
   * `handleAddAddress` of this component: a field that is blank after
   * trimming rejects the form; otherwise the untrimmed form is added, then
   * cleared and hidden.
   */
  function AddAddress(s: UltraState): (r: (UltraState, seq<AppEffect>))
    ensures !FormFilledTrimmed(s.formData) ==> r == (s, [])
    ensures FormFilledTrimmed(s.formData) ==>
              r == (s.(formData := BlankForm, showAddForm := false), [AddCustomAddress(s.formData)])
  {
    if !FormFilledTrimmed(s.formData) then (s, [])
    else (s.(formData := BlankForm, showAddForm := false), [AddCustomAddress(s.formData)])
  }

  /**
   * This component's check is the stricter one: whatever it accepts the
   * hook accepts, and a form whose only fault is a field of spaces is
   * accepted by the hook but not here.
   */
  lemma TrimmedCheckStricter(f: FormData)
    ensures FormFilledTrimmed(f) ==> FormFilled(f)
    ensures f.name == " " && f.street != "" && f.zipCode != "" && f.city != "" ==>
              FormFilled(f) && !FormFilledTrimmed(f)
  {
    if FormFilledTrimmed(f) {
      Text.TrimEmptyIffBlank(f.name);
      Text.TrimEmptyIffBlank(f.street);
      Text.TrimEmptyIffBlank(f.zipCode);
      Text.TrimEmptyIffBlank(f.city);
    }
    if f.name == " " {
      Text.TrimEmptyIffBlank(f.name);
    }
  }
}

=== FILE: wizardstore.dfy ===
/**
 * The persisted wizard store: the current step, the start address text,
 * the selected Präsidium and the selected Reviere, its setters, and the
 * part of it written to local storage.
 */
module WizardStore {
  import opened Wrappers
  import Seqs

  /** The wizard has three steps. */
  type Step = n: int | 1 <= n <= 3 witness 1

  datatype WizardState = WizardState(
    currentStep: Step,
    startAddress: string,
    selectedPraesidiumId: Option<string>,
    selectedReviereIds: seq<string>)

  const Initial: WizardState := WizardState(1, "", None, [])

  /** `setStep`. */
  function SetStep(s: WizardState, step: Step): (r: WizardState)
    ensures r.currentStep == step
    ensures r.startAddress == s.startAddress && r.selectedPraesidiumId == s.selectedPraesidiumId
    ensures r.selectedReviereIds == s.selectedReviereIds
  {
    s.(currentStep := step)
  }

  /** `setStartAddress`. */
  function SetStartAddress(s: WizardState, address: string): (r: WizardState)
    ensures r.startAddress == address
    ensures r.currentStep == s.currentStep && r.selectedPraesidiumId == s.selectedPraesidiumId
    ensures r.selectedReviereIds == s.selectedReviereIds
  {
    s.(startAddress := address)
  }

  /** `selectPraesidium`: selects the Präsidium and leaves the Reviere selection alone. */
  function SelectPraesidium(s: WizardState, id: string): (r: WizardState)
    ensures r.selectedPraesidiumId == Some(id)
    ensures r.currentStep == s.currentStep && r.startAddress == s.startAddress
    ensures r.selectedReviereIds == s.selectedReviereIds
  {
    s.(selectedPraesidiumId := Some(id))
  }

  /** `toggleRevier`: remove every occurrence if present, else append. */
  function ToggleRevier(s: WizardState, id: string): (r: WizardState)
    ensures id in r.selectedReviereIds <==> id !in s.selectedReviereIds
    ensures forall other :: other != id ==>
              multiset(r.selectedReviereIds)[other] == multiset(s.selectedReviereIds)[other]
    ensures id !in s.selectedReviereIds ==> r.selectedReviereIds == s.selectedReviereIds + [id]
    ensures id in s.selectedReviereIds ==> Seqs.IsSubsequence(r.selectedReviereIds, s.selectedReviereIds)
    ensures r.currentStep == s.currentStep && r.startAddress == s.startAddress
    ensures r.selectedPraesidiumId == s.selectedPraesidiumId
  {
    s.(selectedReviereIds := Seqs.Toggle(s.selectedReviereIds, id))
  }

  /** Toggling an unselected Revier twice restores the state. */
  lemma ToggleRevierTwice(s: WizardState, id: string)
    requires id !in s.selectedReviereIds
    ensures ToggleRevier(ToggleRevier(s, id), id) == s
  {
    Seqs.ToggleTwice(s.selectedReviereIds, id);
  }

  /** `resetWizard`. */
  function ResetWizard(s: WizardState): (r: WizardState)
    ensures r.currentStep == 1 && r.startAddress == "" && r.selectedPraesidiumId.None?
    ensures r.selectedReviereIds == []
  {
    Initial
  }

  lemma ResetIsInitial(s: WizardState)
    ensures ResetWizard(s) == Initial
  {
  }

  /** What the store writes to local storage. */
  datatype Persisted = Persisted(startAddress: string, selectedPraesidiumId: Option<string>,
                                 selectedReviereIds: seq<string>)

  /** `partialize`: everything but the current step. */
  function Partialize(s: WizardState): (r: Persisted)
    ensures r.startAddress == s.startAddress && r.selectedPraesidiumId == s.selectedPraesidiumId
    ensures r.selectedReviereIds == s.selectedReviereIds
  {
    Persisted(s.startAddress, s.selectedPraesidiumId, s.selectedReviereIds)
  }

  /** Rehydration: the stored fields are merged over the freshly made state. */
  function Rehydrate(p: Persisted, created: WizardState): (r: WizardState)
    ensures Partialize(r) == p
    ensures r.currentStep == created.currentStep
  {
    created.(startAddress := p.startAddress, selectedPraesidiumId := p.selectedPraesidiumId,
             selectedReviereIds := p.selectedReviereIds)
  }

  /**
   * A reload keeps the address and the selections but not the step: the
   * wizard restarts at step 1.
   */
  lemma ReloadKeepsSelectionNotStep(s: WizardState)
    ensures Rehydrate(Partialize(s), Initial) == s.(currentStep := 1)
  {
  }

  /** The persisted part does not depend on the step. */
  lemma StepNotPersisted(s: WizardState, step: Step)
    ensures Partialize(SetStep(s, step)) == Partialize(s)
  {
  }
}

=== FILE: worker.dfy ===
/**
 * The routing worker: one inbound request, one outbound envelope. The
 * request runs the worker's cached batch; whatever escapes it is turned
 * into an error envelope instead.
 */
module Worker {
  import opened Wrappers
  import opened Routing
  import Converter
  import Batch
  import LruCache

  /** What the page posts to the worker. */
  datatype RoutingRequest = RoutingRequest(
    startAddress: Batch.StartAddress,
    selectedStationIds: seq<string>,
    selectedCustomAddressIds: seq<string>,
    allStations: seq<Converter.AppStation>,
    customAddresses: seq<Batch.CustomAddress>)

  datatype ResultType = Success | Failure

  /** What the worker posts back: `data` on success, `error` on failure. */
  datatype WorkerResult = WorkerResult(kind: ResultType, data: Option<seq<RouteResult>>, error: Option<string>)

  /** A thrown value: an `Error` carrying a message, or anything else (with its string form). */
  datatype Thrown = ErrorObject(message: string) | NonError(asString: string)

  /** How the awaited batch ended. */
  datatype Outcome = Returned(results: seq<RouteResult>) | Threw(thrown: Thrown)

  const UnknownError: string := "Unbekannter Fehler"
  const WorkerErrorPrefix: string := "Worker error: "

  /** The text the message handler reports for a thrown value. */
  function ThrownMessage(t: Thrown): (r: string)
    ensures t.ErrorObject? ==> r == t.message
    ensures t.NonError? ==> r == UnknownError
  {
    match t
    case ErrorObject(m) => m
    case NonError(_) => UnknownError
  }

  /**
   * The message handler's reply to one outcome: exactly one envelope,
   * a success carrying the results or an error carrying the message.
   */
  function Respond(outcome: Outcome): (r: seq<WorkerResult>)
    ensures |r| == 1
    ensures r[0].kind == Success <==> outcome.Returned?
    ensures outcome.Returned? ==> r[0].data == Some(outcome.results) && r[0].error.None?
    ensures outcome.Threw? ==> r[0].data.None? && r[0].error == Some(ThrownMessage(outcome.thrown))
  {
    match outcome
    case Returned(results) => [WorkerResult(Success, Some(results), None)]
    case Threw(t) => [WorkerResult(Failure, None, Some(ThrownMessage(t)))]
  }

  /**
   * The message handler on a request. The batch (cache, routers and sort)
   * catches every per-destination failure itself, so the handler replies
   * with one success envelope holding the batch's sorted results.
   */
  function HandleRequest(cache: Batch.RouteCache, now: int, later: int, net: Network, v: Variant,
                         req: RoutingRequest)
    : (r: (seq<WorkerResult>, Batch.RouteCache))
    requires Batch.Healthy(cache)
    ensures |r.0| == 1 && r.0[0].kind == Success && r.0[0].error.None?
    ensures r.0[0].data.Some? && Batch.SortedByDistance(r.0[0].data.value)
    ensures Batch.Healthy(r.1)
    ensures r.0[0].data.value == Batch.CalculateRoutes(cache, now, later, net, v, req.startAddress,
                                                       req.selectedStationIds, req.selectedCustomAddressIds,
                                                       req.allStations, req.customAddresses).results
  {
    var batch := Batch.CalculateRoutes(cache, now, later, net, v, req.startAddress,
                                       req.selectedStationIds, req.selectedCustomAddressIds,
                                       req.allStations, req.customAddresses);
    (Respond(Returned(batch.results)), batch.cache)
  }

  /** The error handler: one error envelope, prefixed with "Worker error: ". */
  function OnError(t: Thrown): (r: WorkerResult)
    ensures r.kind == Failure && r.data.None? && r.error.Some?
    ensures |r.error.value| == |WorkerErrorPrefix| + |ErrorText(t)|
    ensures r.error.value[..|WorkerErrorPrefix|] == WorkerErrorPrefix
    ensures r.error.value[|WorkerErrorPrefix|..] == ErrorText(t)
  {
    WorkerResult(Failure, None, Some(WorkerErrorPrefix + ErrorText(t)))
  }

  /** The error handler's text: an `Error`'s message, else the value's string form. */
  function ErrorText(t: Thrown): (r: string)
    ensures t.ErrorObject? ==> r == t.message
    ensures t.NonError? ==> r == t.asString
  {
    match t
    case ErrorObject(m) => m
    case NonError(s) => s
  }

  /**
   * The two handlers report an `Error` alike; for any other thrown value the
   * message handler says "Unbekannter Fehler" while the error handler keeps
   * the value's string form, so they agree only when that form happens to
   * be the same text.
   */
  lemma HandlersAgreeOnErrors(t: Thrown)
    ensures ErrorText(t) == ThrownMessage(t) <==> t.ErrorObject? || t.asString == UnknownError
  {
  }

  /** A repeated request for the same batch is answered from the cache with the same data. */
  lemma RepeatRequestSameReply(cache: Batch.RouteCache, now: int, later: int, now2: int, later2: int,
                               net: Network, net2: Network, v: Variant, req: RoutingRequest)
    requires Batch.Healthy(cache)
    requires !LruCache.IsLive(cache, Batch.CacheKey(req.startAddress, req.selectedStationIds, req.selectedCustomAddressIds), now)
    requires now2 <= later + cache.ttl
    ensures var first := HandleRequest(cache, now, later, net, v, req);
            var second := HandleRequest(first.1, now2, later2, net2, v, req);
            second.0 == first.0
  {
    var key := Batch.CacheKey(req.startAddress, req.selectedStationIds, req.selectedCustomAddressIds);
    var first := Batch.CalculateRoutes(cache, now, later, net, v, req.startAddress,
                                       req.selectedStationIds, req.selectedCustomAddressIds,
                                       req.allStations, req.customAddresses);
    assert LruCache.IsLive(first.cache, key, now2);
  }
}

=== FILE: workerhook.dfy ===
/**
 * The page-side hook around the routing worker: three pieces of state
 * (`routes`, `isCalculating`, `error`) plus whether a worker exists, and
 * the transitions on mount, request, reply, worker error and clear.
 */
module WorkerHook {
  import opened Wrappers
  import opened Routing
  import Worker

  datatype HookState = HookState(
    routes: Option<seq<RouteResult>>,
    isCalculating: bool,
    error: Option<string>,
    hasWorker: bool)

  const NotSupported: string := "Worker wird nicht unterstützt"
  const NotAvailable: string := "Worker nicht verfügbar"
  const CommunicationFailed: string := "Fehler bei der Worker-Kommunikation"
  const InitialisationFailed: string := "Worker-Initialisierung fehlgeschlagen"
  const UnknownWorkerError: string := "Unbekannter Worker-Fehler"

  /** Before the mount effect runs: no routes, idle, no error, no worker. */
  const Initial: HookState := HookState(None, false, None, false)

  /** While a request is outstanding nothing else is shown and a worker exists. */
  predicate Consistent(s: HookState) {
    s.isCalculating ==> s.hasWorker && s.routes.None? && s.error.None?
  }

  /**
   * The mount effect: the worker is constructed, or construction throws
   * and the hook reports that workers are not supported.
   */
  function Mount(constructed: bool): (r: HookState)
    ensures r.routes.None? && !r.isCalculating
    ensures r.hasWorker <==> constructed
    ensures constructed ==> r.error.None?
    ensures !constructed ==> r.error == Some(NotSupported)
  {
    if constructed then Initial.(hasWorker := true)
    else Initial.(error := Some(NotSupported))
  }

  /**
   * `calculateRoutes(request)`. Without a worker only the error changes and
   * nothing is posted. Otherwise the state is reset to "calculating" and
   * the request posted; if posting throws, the hook stops calculating and
   * reports a communication error.
   */
  function Request(s: HookState, req: Worker.RoutingRequest, postSucceeds: bool)
    : (r: (HookState, seq<Worker.RoutingRequest>))
    ensures !s.hasWorker ==>
              && r.1 == []
              && r.0.error == Some(NotAvailable)
              && r.0.routes == s.routes && r.0.isCalculating == s.isCalculating && r.0.hasWorker == s.hasWorker
    ensures s.hasWorker && postSucceeds ==>
              && r.1 == [req]
              && r.0.isCalculating && r.0.error.None? && r.0.routes.None? && r.0.hasWorker
    ensures s.hasWorker && !postSucceeds ==>
              && r.1 == []
              && !r.0.isCalculating && r.0.error == Some(CommunicationFailed) && r.0.routes.None? && r.0.hasWorker
  {
    if !s.hasWorker then (s.(error := Some(NotAvailable)), [])
    else
      var started := s.(isCalculating := true, error := None, routes := None);
      if postSucceeds then (started, [req])
      else (started.(error := Some(CommunicationFailed), isCalculating := false), [])
  }

  /**
   * A reply from the worker. An error reply sets the error (an absent or
   * empty message becomes the generic one) and keeps the routes; a success
   * stores the data (absent data becomes the empty list) and keeps the error.
   */
  function OnMessage(s: HookState, msg: Worker.WorkerResult): (r: HookState)
    ensures !r.isCalculating && r.hasWorker == s.hasWorker
    ensures msg.kind == Worker.Failure ==>
              && r.routes == s.routes
              && r.error.Some?
              && (msg.error.Some? && msg.error.value != "" ==> r.error.value == msg.error.value)
              && (msg.error.None? || msg.error.value == "" ==> r.error.value == UnknownWorkerError)
    ensures msg.kind == Worker.Success ==>
              && r.error == s.error
              && r.routes.Some?
              && (msg.data.Some? ==> r.routes.value == msg.data.value)
              && (msg.data.None? ==> r.routes.value == [])
  {
    if msg.kind == Worker.Failure then
      var text := if msg.error.Some? && msg.error.value != "" then msg.error.value else UnknownWorkerError;
      s.(error := Some(text), isCalculating := false)
    else
      s.(routes := Some(msg.data.GetOr([])), isCalculating := false)
  }

  /** The worker's `onerror` as the hook sees it. */
  function OnWorkerError(s: HookState): (r: HookState)
    ensures r.error == Some(InitialisationFailed) && !r.isCalculating
    ensures r.routes == s.routes && r.hasWorker == s.hasWorker
  {
    s.(error := Some(InitialisationFailed), isCalculating := false)
  }

  /** `clearError`: only the error changes. */
  function ClearError(s: HookState): (r: HookState)
    ensures r.error.None?
    ensures r.routes == s.routes && r.isCalculating == s.isCalculating && r.hasWorker == s.hasWorker
  {
    s.(error := None)
  }

  /** Every transition keeps the hook consistent. */
  lemma TransitionsKeepConsistent(s: HookState, req: Worker.RoutingRequest, postSucceeds: bool,
                                  msg: Worker.WorkerResult, constructed: bool)
    requires Consistent(s)
    ensures Consistent(Initial) && Consistent(Mount(constructed))
    ensures Consistent(Request(s, req, postSucceeds).0)
    ensures Consistent(OnMessage(s, msg)) && Consistent(OnWorkerError(s)) && Consistent(ClearError(s))
  {
  }

  /**
   * A full round trip: a request posted from a consistent state, answered
   * by the worker with its batch results, leaves the hook idle, showing
   * exactly those results, with no error.
   */
  lemma SuccessRoundTrip(s: HookState, req: Worker.RoutingRequest, results: seq<RouteResult>)
    requires s.hasWorker
    ensures var (sent, posted) := Request(s, req, true);
            var reply := Worker.Respond(Worker.Returned(results));
            && posted == [req] && |reply| == 1
            && OnMessage(sent, reply[0]) == HookState(Some(results), false, None, true)
  {
  }

  /**
   * A round trip in which the batch throws: the hook shows the thrown
   * message, or the generic one when the message is empty, and no routes.
   */
  lemma FailureRoundTrip(s: HookState, req: Worker.RoutingRequest, t: Worker.Thrown)
    requires s.hasWorker
    ensures var (sent, _) := Request(s, req, true);
            var final := OnMessage(sent, Worker.Respond(Worker.Threw(t))[0]);
            && final.routes.None? && !final.isCalculating
            && final.error == Some(if Worker.ThrownMessage(t) == "" then UnknownWorkerError else Worker.ThrownMessage(t))
  {
  }

  /** Clearing twice is clearing once. */
  lemma ClearErrorIdempotent(s: HookState)
    ensures ClearError(ClearError(s)) == ClearError(s)
  {
  }
}

=== FILE: wrappers.dfy ===
/** Optional values: the model's stand-in for `undefined` / `null`. */
module Wrappers {

  datatype Option<+T> = None | Some(value: T) {

    /** The wrapped value, or `default` when there is none (JavaScript's `x ?? d`). */
    function GetOr(default: T): T {
      match this
      case Some(v) => v
      case None => default
    }
  }
}
